=== FILE: README.md ===
# Audit logging core, modelled in Dafny

This project models the change-aggregation and diff engine of the Laravel
package `laravel-audit-logging` and proves properties of it. The model covers
these parts:

- **Observer** (`AuditObserver`, module `AuditObserver`). It turns Eloquent
  lifecycle events into `registerChange` notifications. The events are
  created, updated, deleted, restored, pivot created/deleted, pivot detached,
  and parent notification.
- **Attribute diff engine** (`AuditLogger`, module `AuditLogger`). It covers:
  - `calculateDiff`;
  - the PHP-specific equality rule `valuesAreEqual`;
  - sensitive-field matching with wildcard patterns (module `Glob`, which
    states both the expression the code builds and the wildcard it means);
  - value masking;
  - actor resolution, request id and source detection.
- **Pending-change aggregator** (`PendingAudit`, module `PendingAudit`). It
  keeps one pending record per `class:id` key. Each record merges its action,
  attribute diff and relation lists. `flush` writes the record through the
  entry builder. The database transaction is modelled as a flag plus the list
  of keys whose after-commit flushes are waiting.
- **Entry builder** (`AuditLogBuilder`, module `AuditLogBuilder`). It covers
  actor normalisation, relation accumulation and enrichment, the metadata
  overlay, action conversion, and the choice between a written and a queued
  record.
- **Per-model settings** (`Auditable` trait, module `Auditable`). It covers
  the three-layer configuration merge, the list settings, the event switches,
  the per-class auditing flag with `withoutAuditing`, and the audit parents.
- **Structured JSON diff** (`JsonDiffTransformer`, module `JsonDiff`). It
  covers:
  - `normalizeArray`;
  - `recursiveDiff` (added / removed / modified / modified_nested), with a
    patch function showing that the diff loses nothing;
  - `flattenDiff` into dot-labelled rows;
  - `transformDiff`.
- **Buffered context** (`AuditContext`, module `AuditContext`). It covers
  `begin`, `addChange`, `flush` and `clear`.
- **Action enum** (`AuditAction`, module `AuditActions`).
- **PHP runtime semantics** (module `Php`). These are the parts the code
  relies on: `empty()`, `(bool)` and `(string)` casts, the `(float)` cast of
  an integer with its rounding to 53 bits, `trim`, `strtolower`,
  integer-form numeric strings, and loose `==` on scalars.

Everything the code reads from the framework becomes a parameter:
- `json_encode`, `json_decode` and `formatValue`;
- the configuration values;
- the ORM queries behind relation lookups;
- `Auth::user()` and `request()`;
- `DB::transactionLevel()` and `afterCommit`.

The singletons (`PendingAudit`, `AuditContext`) and the static auditing flag
become values threaded through the operations.

Where the code and its documentation disagree, the model follows the code:
- The removal loop of `calculateDiff` does **not** skip the three timestamp
  columns (`AuditLogger.Reported`). Only the change loop does.
- `withoutAuditing` restores the flag only when it was on before the call.
  So a callback that enables auditing while it was off leaves it on
  (`Auditable.EnablingInsideLeaksOut`).

## Model

| member | source | states |
|---|---|---|
| AuditActions.ToInt | src/Enums/AuditAction.php:7-11 | every case has a backing integer between 1 and 5 |
| AuditActions.StringValue | src/Enums/AuditAction.php:30-39 | `value()` gives a lower-case name, so lower-casing it changes nothing |
| AuditActions.FromString | src/Enums/AuditAction.php:44-53 | the parse succeeds exactly when the lower-cased input is one of the five names; the parsed action's name is that lower-cased input; any other input fails with "Unknown action: " followed by the input, never a default |
| AuditActions.FromStringOfStringValue | src/Enums/AuditAction.php:30-53 | round trip: parsing the name of any action gives that action back |
| AuditActions.FromStringIgnoresCase | src/Enums/AuditAction.php:46 | an upper-cased input parses exactly when the original does, and to the same action |
| AuditActions.EncodingsAreInjective | src/Enums/AuditAction.php:7-39 | the backing integers, the names and the labels each tell the five actions apart |
| AuditActions.Label | src/Enums/AuditAction.php:16-25 | every label is non-empty, as long as the action's name and starting with the same letter, capitalised |
| AuditActions.LabelsAreDistinct | src/Enums/AuditAction.php:16-25 | two actions with the same label are the same action |
| AuditContext.GetInstance | src/Services/Audit/AuditContext.php:23-30 | the existing instance is returned unchanged; the first call gives an empty context at level 0 |
| AuditContext.Begin | src/Services/Audit/AuditContext.php:35-40 | the level rises by exactly one; the pending list and sensitive fields are kept |
| AuditContext.BeginTimesCounts | src/Services/Audit/AuditContext.php:35-40 | n calls to `begin` raise the level by exactly n and leave the pending list alone |
| AuditContext.BeginTimesKeepsSensitive | src/Services/Audit/AuditContext.php:35-40 | repeated `begin` keeps the sensitive-field list |
| AuditContext.AddChange | src/Services/Audit/AuditContext.php:45-52 | the entry is appended at the end, the earlier entries stay as a prefix, and the level is untouched |
| AuditContext.AddChangesAppends | src/Services/Audit/AuditContext.php:45-52 | after any series of `addChange` calls the pending list is the old list followed by the new entries in call order |
| AuditContext.AddChangesKeepsSensitive | src/Services/Audit/AuditContext.php:45-52 | adding changes keeps the sensitive-field list |
| AuditContext.Clear | src/Services/Audit/AuditContext.php:79-83 | nothing pending and level 0 afterwards; the sensitive fields stay |
| AuditContext.ClearForgetsHistory | src/Services/Audit/AuditContext.php:35-83 | whatever was begun or added before, `clear` reaches the same state |
| AuditContext.RowOf | src/Services/Audit/AuditContext.php:59-70 | the row carries the entity's class and id and the action; `actor_type` defaults to "system" when missing or null; the other optional fields default to null |
| AuditContext.Flush | src/Services/Audit/AuditContext.php:57-74 | exactly one row per pending entry, in list order; afterwards nothing is pending and the level is 0 |
| AuditContext.FlushAfterAdding | src/Services/Audit/AuditContext.php:45-74 | flushing a cleared context after adding entries writes exactly those entries in order, and a second flush writes nothing |
| AuditLogBuilder.For | src/Services/Audit/AuditLogger.php:15-18 | a new builder holds the entity and nothing else |
| AuditLogBuilder.SetAction | src/Services/Audit/AuditLogBuilder.php:28-32 | only the action is set |
| AuditLogBuilder.By | src/Services/Audit/AuditLogBuilder.php:37-52 | an object gives ("user", its id); an array gives (its type, or "system", and its id, or null); anything else gives ("system", null); nothing else changes |
| AuditLogBuilder.ByResolvedActor | src/Services/Audit/AuditLogBuilder.php:128-131 | passing the resolved actor to `by` records exactly that actor |
| AuditLogBuilder.WithAttributes | src/Services/Audit/AuditLogBuilder.php:57-61 | the stored diff is `calculateDiff` with no excluded attributes and with the global sensitive list plus the given sensitive fields, and replaces any earlier diff |
| AuditLogBuilder.WithRawAttributes | src/Services/Audit/AuditLogBuilder.php:66-70 | the given diff is stored as is |
| AuditLogBuilder.EnrichRelation | src/Services/Audit/AuditLogBuilder.php:187-200 | an array passes through; an object becomes {id, name} with the name falling back to the title; a scalar becomes {id} |
| AuditLogBuilder.EnrichRelations | src/Services/Audit/AuditLogBuilder.php:185-201 | the length is kept and each member is enriched in place |
| AuditLogBuilder.EnrichArraysIsIdentity | src/Services/Audit/AuditLogBuilder.php:188-190 | members that are already arrays come back unchanged |
| AuditLogBuilder.WithRelations | src/Services/Audit/AuditLogBuilder.php:75-108 | the relation gets an entry, empty on first use; the enriched members are appended after the earlier ones; other relations and the rest of the builder are unchanged |
| AuditLogBuilder.WithRelationsAccumulates | src/Services/Audit/AuditLogBuilder.php:97-105 | two calls for one relation give the first call's members followed by the second's |
| AuditLogBuilder.Metadata | src/Services/Audit/AuditLogBuilder.php:113-117 | the new keys win and earlier keys stay |
| AuditLogBuilder.Returned | src/Services/Audit/AuditLogBuilder.php:174-179 | `log` returns the record when it was written and null when it was queued |
| AuditLogBuilder.DefaultMetadata | src/Services/Audit/AuditLogBuilder.php:135-140 | the defaults are exactly request_id, source, ip_address and user_agent, holding the request id, the detected source, and null outside a request |
| AuditLogBuilder.ActionValue | src/Services/Audit/AuditLogBuilder.php:143-145 | an enum stores its backing integer; a name stores the integer of its parse and fails exactly when the parse fails |
| AuditLogBuilder.Log | src/Services/Audit/AuditLogBuilder.php:125-180 | succeeds exactly when an action is set and converts; queued exactly when the queue is enabled; the record carries the entity class, id, action, attributes and relations; the set actor, or the resolved one when none is set; the defaults overlaid by caller metadata |
| AuditLogBuilder.LogReturnsNullWhenQueued | src/Services/Audit/AuditLogBuilder.php:160-179 | the caller gets null exactly when the queue is enabled |
| AuditLogBuilder.CallerMetadataWins | src/Services/Audit/AuditLogBuilder.php:135-140 | a key set through `metadata` overrides the default of the same name |
| AuditLogger.Canonical | src/Services/Audit/AuditLogger.php:82-88 | after normalisation no operand is an array |
| AuditLogger.ValuesAreEqual | src/Services/Audit/AuditLogger.php:70-112 | two empty values are equal; two strings (not both empty) compare after trimming; two integers are equal exactly when they become the same double, which within ±2^53 means the same value; a boolean against a non-array compares truthiness |
| AuditLogger.LargeIntegersCollide | src/Services/Audit/AuditLogger.php:106-108 | 9007199254740992 and 9007199254740993 compare equal, because both become the same double |
| AuditLogger.NullAgainstValue | src/Services/Audit/AuditLogger.php:72-80 | null equals exactly the PHP-empty values, on either side |
| AuditLogger.NullAgainstArray | src/Services/Audit/AuditLogger.php:82-98 | null does not equal a non-empty array |
| AuditLogger.ArrayAgainstNull | src/Services/Audit/AuditLogger.php:82-98 | a non-empty array does not equal null |
| AuditLogger.IntegerAgainstString | src/Services/Audit/AuditLogger.php:70-112 | an integer equals a string exactly when both are empty or the string is an integer-form numeric string whose value becomes the same double as the integer; the order of the operands does not matter |
| AuditLogger.NumericRule | src/Services/Audit/AuditLogger.php:105-108 | once the earlier steps pass, two numeric operands are equal exactly when their values become the same double |
| AuditLogger.LooseRule | src/Services/Audit/AuditLogger.php:110-111 | the last step is loose `==` on the normalised operands |
| AuditLogger.LooseFallbackNeverEqual | src/Services/Audit/AuditLogger.php:110-111 | every pair that reaches the loose fallback is unequal, so the earlier rules decide alone |
| AuditLogger.TruthinessRule | src/Services/Audit/AuditLogger.php:100-103 | once the string step passes, a boolean operand makes the rule a truthiness comparison |
| AuditLogger.EncodedArrayTruthy | src/Services/Audit/AuditLogger.php:83-88 | the JSON text of an array is truthy |
| AuditLogger.EncodedArrayTrimmed | src/Services/Audit/AuditLogger.php:91-94 | the JSON text of an array is its own trim |
| AuditLogger.ArraysCompareByContents | src/Services/Audit/AuditLogger.php:82-97 | two arrays are equal exactly when their contents are equal |
| AuditLogger.ArrayAgainstBool | src/Services/Audit/AuditLogger.php:82-103 | an array equals `true` whatever it holds, and equals `false` only when empty |
| AuditLogger.ValuesAreEqualSymmetric | src/Services/Audit/AuditLogger.php:70-112 | the rule is symmetric |
| AuditLogger.ValuesAreEqualReflexive | src/Services/Audit/AuditLogger.php:70-112 | every value equals itself |
| AuditLogger.AnyWildcardMatches | src/Services/Audit/AuditLogger.php:131-138 | true exactly when some pattern contains `*` and matches the whole field, under the chosen reading of `*` |
| AuditLogger.IsSensitiveFieldAsWritten | src/Services/Audit/AuditLogger.php:117-141 | the global and caller lists are united; a field is sensitive exactly when it is in the union or the anchored, case-insensitive expression built from a pattern with `*` matches it, each `*` standing for a run of dots |
| AuditLogger.IsSensitiveField | src/Services/Audit/AuditLogger.php:117-141 | corrected reading: a field is sensitive exactly when it is in the union or matches a pattern with `*` where `*` stands for any characters |
| AuditLogger.WordMarksItselfAsWritten | src/Services/Audit/AuditLogger.php:131-136 | as written, `*w*` marks the plain word `w` itself |
| AuditLogger.LongerNameMissedAsWritten | src/Services/Audit/AuditLogger.php:131-136 | as written, `*w*` misses every single-line name longer than `w` that neither starts nor ends with a dot |
| AuditLogger.OccurrenceMarked | src/Services/Audit/AuditLogger.php:131-136 | corrected reading: `*w*` marks every single-line name in which `w` occurs |
| AuditLogger.TokenMarkedAsWritten | src/Services/Audit/AuditLogger.php:131-136 | as written, `*token*` marks `token` |
| AuditLogger.AccessTokenMissedAsWritten | src/Services/Audit/AuditLogger.php:131-136 | as written, `*token*` does not mark `access_token` |
| AuditLogger.PasswordHashMarked | src/Services/Audit/AuditLogger.php:131-136 | corrected reading: `*password*` marks `user_password_hash` |
| AuditLogger.PasswordHashMissedAsWritten | src/Services/Audit/AuditLogger.php:131-136 | as written, `*password*` does not mark `user_password_hash`, so its value is stored unmasked; the as-written and intended readings disagree on that field |
| AuditLogger.TokenMatchesAccessToken | src/Services/Audit/AuditLogger.php:131-136 | corrected reading: `*token*` marks `access_token` |
| AuditLogger.TokenMatchesToken | src/Services/Audit/AuditLogger.php:131-136 | corrected reading: `*token*` marks `token` |
| AuditLogger.TokenRejectsToke | src/Services/Audit/AuditLogger.php:117-141 | `*token*` does not mark `toke` |
| Glob.InfixPatternIsSubstringTest | src/Services/Audit/AuditLogger.php:133-134 | corrected reading: on a single-line name, `*w*` matches exactly when `w` occurs in it, ignoring letter case |
| Glob.ReplaceChar | src/Services/Audit/AuditLogger.php:133 | replacing a character that does not occur changes nothing, and replacing by a non-empty text never shortens the string |
| Glob.ReplaceCharConcat | src/Services/Audit/AuditLogger.php:133 | replacing a character distributes over concatenation |
| Glob.RegexOfInfix | src/Services/Audit/AuditLogger.php:133 | the two replacements, applied one after the other, turn `*w*` into `\.*w\.*` |
| Glob.RegexOf | src/Services/Audit/AuditLogger.php:133 | the expression built from a pattern is never shorter than it, and a pattern without `*` or `.` is its own expression |
| Glob.RegexMatches | src/Services/Audit/AuditLogger.php:134 | the anchored, case-insensitive match of the expression against the whole name; its properties are stated by `Glob.FixedWidthMatch`, `Glob.DotStarStep` and the lemmas below |
| Glob.FixedWidthMatch | src/Services/Audit/AuditLogger.php:134 | an expression without stars or escapes only matches names of its own length |
| Glob.PregMatch | src/Services/Audit/AuditLogger.php:134 | `preg_match` with `^…$`: the anchored match, where `$` also allows one final line feed; stated by `Glob.PregMatchSingleLine` |
| Glob.PregMatchSingleLine | src/Services/Audit/AuditLogger.php:134 | every anchored match is a `preg_match` match, and on a name without a line feed the two agree |
| Glob.DotStarStep | src/Services/Audit/AuditLogger.php:133-134 | `\.*` followed by q matches s exactly when q matches s or s starts with a dot and the whole matches the rest |
| Glob.DotStarSkips | src/Services/Audit/AuditLogger.php:133-134 | a run of dots followed by a match of q matches `\.*` then q |
| Glob.DotStarSplits | src/Services/Audit/AuditLogger.php:133-134 | every match of `\.*` then q splits into a run of dots and a match of q |
| Glob.TrailingDotStar | src/Services/Audit/AuditLogger.php:133-134 | `\.*` alone matches exactly the runs of dots |
| Glob.RegexLiteralPrefix | src/Services/Audit/AuditLogger.php:133-134 | a word without expression characters at the front of an expression matches its own text up to letter case, then the rest |
| Glob.InfixPatternAsWritten | src/Services/Audit/AuditLogger.php:133-134 | as written, `*w*` on a single-line name matches exactly when the name is `w` up to case between two runs of dots |
| Glob.NotDotted | src/Services/Audit/AuditLogger.php:133-134 | a name longer than `w` that neither starts nor ends with a dot is not `w` between runs of dots |
| AuditLogger.MaskValue | src/Services/Audit/AuditLogger.php:146-168 | an empty string form gives "[REDACTED]" and nothing else does; up to 4 characters gives that many stars; longer values keep the first 2 and last 2 characters around max(4, len-4) stars, so the result has at least 8 characters |
| AuditLogger.MaskExample | src/Services/Audit/AuditLogger.php:159-167 | "supersecret" masks to "su*******et" |
| AuditLogger.DiffOf | src/Services/Audit/AuditLogger.php:23-65 | the diff's keys are exactly the reported fields |
| AuditLogger.CalculateDiff | src/Services/Audit/AuditLogger.php:23-65 | a field is reported exactly when it is in `new`, not excluded, not a timestamp and unequal to `old[k] ?? null`, or only in `old` and not excluded; sensitive entries hold masked values and removed fields have new = null; which fields are reported does not depend on sensitivity |
| AuditLogger.Reported | src/Services/Audit/AuditLogger.php:28-62 | a reported key is not excluded and is on some side; a timestamp present in the new attributes is never reported; a key removed and not excluded is always reported |
| AuditLogger.Shown | src/Services/Audit/AuditLogger.php:39-43 | a value of a non-sensitive field is kept as it is; a sensitive one becomes a string that is "[REDACTED]" or stars apart from its first and last two characters |
| AuditLogger.EntryFor | src/Services/Audit/AuditLogger.php:41-60 | for a non-sensitive field the entry holds the old and new values (null when absent); for a sensitive one the old side is a string, and the new side is a string exactly when the field is still present |
| AuditLogger.ChangeLoop | src/Services/Audit/AuditLogger.php:27-50 | the first loop records exactly the changed, non-excluded, non-timestamp fields of `new`, with masked values for sensitive fields |
| AuditLogger.RemovalLoop | src/Services/Audit/AuditLogger.php:52-62 | the second loop adds exactly the non-excluded fields only in `old`, going to null, and keeps the earlier entries |
| AuditLogger.DiffOfIsUnique | src/Services/Audit/AuditLogger.php:23-65 | a diff holding the reported fields with their entries is the diff |
| Php.NumericIntOfIntToString | src/Services/Audit/AuditLogger.php:105-108 | the decimal text of an integer is numeric, with that integer as its value |
| AuditLogger.ResolveActor | src/Services/Audit/AuditLogger.php:173-196 | the authenticated user when there is one; otherwise ("system", null), in the console and outside it |
| AuditLogger.GetRequestId | src/Services/Audit/AuditLogger.php:201-210 | null in the console or outside a request; otherwise X-Request-ID when it is present, else X-Correlation-ID (null when that is absent too) |
| AuditLogger.RequestIdOnlyOverHttp | src/Services/Audit/AuditLogger.php:201-236 | a request id is only found when the source is the API, the admin panel or the web; console and system changes never carry one |
| AuditLogger.DetectSource | src/Services/Audit/AuditLogger.php:215-236 | "console" exactly in the console; "system" exactly with no request; "api" exactly for an `api/` path; "admin_panel" exactly for `nova-api/` or `nova/`; otherwise "web" |
| Auditable.BuiltInDefaults | src/Traits/Auditable.php:42-56 | the built-in settings are well-typed, exclude the three timestamps, and switch all four events on |
| Auditable.ListDefaults | src/Traits/Auditable.php:42-56 | every list default is a list, and `exclude_attributes` holds the three timestamps |
| Auditable.SwitchDefaults | src/Traits/Auditable.php:45-48 | exactly the four switches, all true |
| Auditable.GetAuditConfig | src/Traits/Auditable.php:38-58 | the merged keys are the union of the three layers; the model's `auditConfig` overrides `default_config`, which overrides the built-ins; well-typed layers give well-typed settings |
| Auditable.MergeWellFormed | src/Traits/Auditable.php:42-57 | overlaying well-typed settings keeps them well-typed |
| Auditable.ModelConfigOverridesOnlyItsKeys | src/Traits/Auditable.php:42-57 | a key the model does not set keeps the value of the earlier layers |
| Auditable.ListSetting | src/Traits/Auditable.php:114-118 | a list setting reads as its list, or as empty when missing or null |
| Auditable.GetExcludedAttributes | src/Traits/Auditable.php:114-118 | the `exclude_attributes` list, empty by default |
| Auditable.GetSensitiveFields | src/Traits/Auditable.php:123-133 | the global list followed by the model's list: the model adds to the global list and never replaces it |
| Auditable.ShouldLog | src/Traits/Auditable.php:147-178 | a switch is on exactly when it is missing, null or true |
| Auditable.ShouldLogDefaultsToTrue | src/Traits/Auditable.php:147-178 | with no layer setting a switch, the event is logged |
| Auditable.GetAuditParents | src/Traits/Auditable.php:244-251 | the declared `auditParents`, else `$touches` |
| Auditable.IsAuditingEnabled | src/Traits/Auditable.php:63-66 | the class's flag, true until first set |
| Auditable.DisableAuditing | src/Traits/Auditable.php:71-74 | this class off, every other class unchanged (a class here is one that uses the trait itself) |
| Auditable.EnableAuditing | src/Traits/Auditable.php:79-82 | this class on, every other class unchanged |
| Auditable.WithoutAuditing | src/Traits/Auditable.php:87-99 | the callback runs with the flag off; its value or exception passes through; afterwards the flag is on exactly when it was on before or the callback left it on; other classes are as the callback left them |
| Auditable.CallbackRunsDisabled | src/Traits/Auditable.php:89-93 | the callback sees auditing off for its class |
| Auditable.WithoutAuditingRestoresFlag | src/Traits/Auditable.php:87-99 | returning or throwing, the flag ends as before, unless the callback itself turned it back on |
| Auditable.EnablingInsideLeaksOut | src/Traits/Auditable.php:94-98 | a callback that enables auditing while it was off before leaves it on |
| AuditObserver.ShouldAudit | src/Observers/AuditObserver.php:419-426 | audited exactly when the class uses the trait and its flag is on |
| AuditObserver.Without | src/Observers/AuditObserver.php:61-62 | `array_diff_key` with the excluded names: exactly the non-excluded keys, with their values |
| AuditObserver.DisplayName | src/Observers/AuditObserver.php:435 | the name falls back from name to title, label, code and finally "#" followed by the key; it is never null |
| AuditObserver.FormatRelationData | src/Observers/AuditObserver.php:431-438 | exactly {id, name, type}, holding the key, the display name and the class |
| AuditObserver.GetRelationModels | src/Observers/AuditObserver.php:187-206 | no ids give nothing; a successful query gives the formatted rows in order; on failure, one {id} per id in order |
| AuditObserver.FormatRelations | src/Observers/AuditObserver.php:160-170 | every relation of `relationChanges` gets its added and removed ids looked up |
| AuditObserver.ChangeDiff | src/Observers/AuditObserver.php:143-150 | the diff's fields are those `calculateDiff` reports once excluded fields are dropped from both sides |
| AuditObserver.ProcessChange | src/Observers/AuditObserver.php:140-182 | nothing is registered exactly when the action is UPDATED with an empty diff and no relation changes; otherwise one registration carrying the action, the diff and the formatted relations, and the model's relation changes are cleared |
| AuditObserver.ParentEntry | src/Observers/AuditObserver.php:380-408 | a RELATIONS_UPDATED notification with empty attributes on the parent, under the inverse relation name, with the child in `added` on create and in `removed` on delete |
| AuditObserver.ParentRegistrations | src/Observers/AuditObserver.php:361-413 | one RELATIONS_UPDATED notification per name whose parent resolves and is auditable, in name order, each naming that parent; names without such a parent are skipped |
| AuditObserver.FoundParents | src/Observers/AuditObserver.php:361-408 | the resolved auditable parents, at most one per name |
| AuditObserver.FoundParentsAreTheResolved | src/Observers/AuditObserver.php:361-408 | a model is among the found parents exactly when some declared name resolves to it and it is auditable |
| AuditObserver.HandleParentLogging | src/Observers/AuditObserver.php:350-414 | one notification per declared parent that resolves and is auditable, in declaration order; every such parent is notified |
| AuditObserver.ParentRegistrationsAllFound | src/Observers/AuditObserver.php:361-413 | when every name has an auditable parent, each parent is notified once per name, in name order |
| AuditObserver.ParentFound | src/Observers/AuditObserver.php:361-408 | a found, auditable parent puts its notification before those of the later names |
| AuditObserver.PivotEntry | src/Observers/AuditObserver.php:262-286 | an UPDATED registration with empty attributes on the parent, with the other model in `added` on create and in `removed` on delete |
| AuditObserver.OtherRegistrations | src/Observers/AuditObserver.php:251-287 | nothing for a non-auditable parent; every registration is UPDATED on that parent |
| AuditObserver.OtherRegistrationsAre | src/Observers/AuditObserver.php:251-287 | each registration on a parent is the pivot entry (empty attributes, the other model added on creation or removed on deletion) for some model of the list that is not the parent itself; an auditable parent gets that entry for every such model |
| AuditObserver.PivotRegistrations | src/Observers/AuditObserver.php:249-288 | every registration is UPDATED on one of the pivot's parents |
| AuditObserver.PivotRegistrationsSound | src/Observers/AuditObserver.php:249-288 | every registration is the pivot entry of an auditable parent about a model that is not that parent |
| AuditObserver.PivotRegistrationsComplete | src/Observers/AuditObserver.php:249-288 | every auditable parent gets the pivot entry about every model of the list that is not itself |
| AuditObserver.HandlePivotEvent | src/Observers/AuditObserver.php:211-289 | the registrations are exactly the pivot entries for the pairs of parents the pivot reaches where the first is auditable and the second is another model: UPDATED on the first, with empty attributes and the second in `added` on creation or in `removed` on deletion, never the parent itself |
| AuditObserver.OtherRegistrationsCount | src/Observers/AuditObserver.php:251-287 | an auditable parent gets one registration per other model of the list |
| AuditObserver.CountOthersOfMember | src/Observers/AuditObserver.php:251 | among distinct models, each one has all the others as its other side |
| AuditObserver.CountOthersOfNone | src/Observers/AuditObserver.php:251 | a model none of the list matches has the whole list as its other side |
| AuditObserver.OthersOfMember | src/Observers/AuditObserver.php:251-287 | a member of a list of distinct models, when auditable, hears about every other member |
| AuditObserver.PivotRegistrationsCount | src/Observers/AuditObserver.php:249-288 | n distinct auditable parents make n * (n - 1) registrations |
| AuditObserver.PivotDetached | src/Observers/AuditObserver.php:303-336 | a registration is made exactly when there are ids and the lookup finds rows; it is one RELATIONS_UPDATED registration with empty attributes and only `removed` set, holding the formatted rows in order |
| AuditObserver.PivotDetachedIgnoresSwitches | src/Observers/AuditObserver.php:303-336 | a model whose class uses the trait but whose auditing is switched off still gets its detach entry, while its own lifecycle events register nothing |
| AuditObserver.OnCreated | src/Observers/AuditObserver.php:21-40 | a pivot goes to the pivot handler; an unaudited model or `log_created` off registers nothing |
| AuditObserver.CreatedReportsPresentFields | src/Observers/AuditObserver.php:21-40 | a created model first registers CREATED with exactly its non-excluded, non-timestamp, non-empty fields, then notifies its parents |
| AuditObserver.DiffAgainstNothing | src/Observers/AuditObserver.php:36 | against no old attributes, the diff holds exactly the present fields |
| AuditObserver.OnUpdated | src/Observers/AuditObserver.php:45-83 | an unaudited model or `log_updated` off registers nothing; no non-excluded change and no relation changes register nothing; otherwise at most one UPDATED registration |
| AuditObserver.OldAttributes | src/Observers/AuditObserver.php:72-79 | the reconstructed old bag has the keys of the original and of the changes |
| AuditObserver.OldAttributesAgreeWithOriginal | src/Observers/AuditObserver.php:72-79 | every original value is kept, and a changed field the original lacked reads null |
| AuditObserver.UpdatedIgnoresExcludedOnly | src/Observers/AuditObserver.php:59-70 | an update that touched only excluded fields and has no relation changes registers nothing |
| AuditObserver.UpdatedWithRelationsOnly | src/Observers/AuditObserver.php:64-82 | relation changes alone make an update register, with those relations; the model's relation changes are cleared |
| AuditObserver.OnDeleted | src/Observers/AuditObserver.php:88-111 | a pivot goes to the pivot handler; an unaudited model registers nothing |
| AuditObserver.DeletedReportsEveryField | src/Observers/AuditObserver.php:88-111 | the parents are notified first; then one DELETED registration holds every non-excluded field, timestamps included, each going to null |
| AuditObserver.DiffToNothing | src/Observers/AuditObserver.php:110 | against no new attributes, every non-excluded field is reported as going to null |
| AuditObserver.DeletedNotifiesParentsWhenNotLogged | src/Observers/AuditObserver.php:95-108 | with `log_deleted` off the parents are still notified; with `log_created` off a creation registers nothing at all |
| AuditObserver.OnRestored | src/Observers/AuditObserver.php:116-127 | an unaudited model or `log_restored` off registers nothing; otherwise `processChange` of RESTORED against nothing |
| AuditObserver.Deliver | src/Observers/AuditObserver.php:176-181 | no registrations write nothing and change nothing |
| AuditObserver.DeliverInTransaction | src/Services/Audit/PendingAudit.php:40-52 | inside a transaction delivery writes nothing, and every registered model is pending afterwards |
| PendingAudit.GetKey | src/Services/Audit/PendingAudit.php:155-158 | the key is the class, a colon, then the primary key as a string |
| PendingAudit.GetKeyInjective | src/Services/Audit/PendingAudit.php:155-158 | two models share a key exactly when they have the same class and the same key text |
| PendingAudit.MergeAction | src/Services/Audit/PendingAudit.php:60-68 | an incoming DELETED always wins; an incoming CREATED wins unless the record is DELETED; anything else leaves the action; DELETED is absorbing |
| PendingAudit.FoldActionsClosedForm | src/Services/Audit/PendingAudit.php:60-68 | after a series of merges the action is DELETED if any was, else CREATED if any was, else the first |
| PendingAudit.MergeAttributes | src/Services/Audit/PendingAudit.php:70-78 | no field is dropped; the first `old` is kept and the last `new` wins; a new field is taken as is |
| PendingAudit.MergeAttributesAssociative | src/Services/Audit/PendingAudit.php:70-78 | merging three diffs in either grouping gives the same diff |
| PendingAudit.MergeRelations | src/Services/Audit/PendingAudit.php:80-103 | every incoming name gets an entry, and each list is the earlier list followed by the incoming one, with no de-duplication |
| PendingAudit.PriorOfMerge | src/Services/Audit/PendingAudit.php:80-103 | after a merge a name's lists are the earlier lists followed by the incoming ones |
| PendingAudit.ConcatAssociative | src/Services/Audit/PendingAudit.php:90-101 | appending relation lists is associative |
| PendingAudit.MergeRelationsAssociativeAt | src/Services/Audit/PendingAudit.php:80-103 | for one name, both groupings of three merges give the same lists |
| PendingAudit.MergeRelationsAssociative | src/Services/Audit/PendingAudit.php:80-103 | relation merging is associative |
| PendingAudit.Absorb | src/Services/Audit/PendingAudit.php:60-103 | merging a registration merges the action, attributes and relations and keeps the first model |
| PendingAudit.Seed | src/Services/Audit/PendingAudit.php:40-46 | a first registration seeds a record with no attributes and no relations |
| PendingAudit.AbsorbIntoSeed | src/Services/Audit/PendingAudit.php:40-103 | merging into a fresh seed stores the registration's own data |
| PendingAudit.EffectiveAction | src/Services/Audit/PendingAudit.php:128-131 | RELATIONS_UPDATED with attribute changes is written as UPDATED; every other action as is |
| PendingAudit.FlushBuilder | src/Services/Audit/PendingAudit.php:134-136 | the builder holds the record's model, its effective action and the resolved actor |
| PendingAudit.WrittenBuilder | src/Services/Audit/PendingAudit.php:141-150 | raw attributes are set only when non-empty; relations only when there are any |
| PendingAudit.AsItems | src/Services/Audit/PendingAudit.php:147-149 | pending relation members pass through enrichment unchanged |
| PendingAudit.AddPendingRelation | src/Services/Audit/PendingAudit.php:147-149 | one `withRelations` call for a new name records that name's lists unchanged |
| PendingAudit.RelationsSoFarStep | src/Services/Audit/PendingAudit.php:147-149 | each pass of the loop records one more relation name |
| PendingAudit.AddPendingRelationStep | src/Services/Audit/PendingAudit.php:147-149 | one pass of the loop extends the recorded relations by that name |
| PendingAudit.WrittenBuilderOfLoop | src/Services/Audit/PendingAudit.php:141-150 | after every name has passed, the builder holds the whole relation diff |
| PendingAudit.BuildForLog | src/Services/Audit/PendingAudit.php:141-150 | the loop over the relation names builds exactly the builder described above |
| PendingAudit.WriteLogViaBuilder | src/Services/Audit/PendingAudit.php:141-153 | the result is `log` of that builder |
| PendingAudit.Emit | src/Services/Audit/PendingAudit.php:118-139 | the written entry carries the model's class and id, the effective action, the resolved actor, and the attributes and relations when non-empty |
| PendingAudit.Flush | src/Services/Audit/PendingAudit.php:109-139 | an absent key is a no-op; otherwise the record is removed and at most one entry is written; nothing is written exactly when the record is empty and UPDATED or RELATIONS_UPDATED |
| PendingAudit.FlushIdempotent | src/Services/Audit/PendingAudit.php:111-116 | a second flush of the same key writes nothing and changes nothing |
| PendingAudit.FlushFreshKey | src/Services/Audit/PendingAudit.php:109-139 | flushing a record just stored under a new key writes it unless it is skipped, and leaves the store as before |
| PendingAudit.RegisterChange | src/Services/Audit/PendingAudit.php:36-104 | an existing record absorbs the change; in a transaction a new key is seeded, merged and queued for flushing; outside one the empty seed is flushed and the change is not merged |
| PendingAudit.RegisterChangeDropsUpdate | src/Services/Audit/PendingAudit.php:40-57 | outside a transaction, an UPDATED or RELATIONS_UPDATED change for a model with nothing pending writes nothing |
| PendingAudit.RegisterChangeWritesEmptyEntry | src/Services/Audit/PendingAudit.php:40-57 | outside a transaction, CREATED, DELETED and RESTORED are written without their attributes and relations |
| PendingAudit.RegisterChangeLosesAnUpdate | src/Services/Audit/PendingAudit.php:40-57 | a concrete update that changes a name, made outside a transaction, writes no entry |
| PendingAudit.RegisterChangeMergingFirst | src/Services/Audit/PendingAudit.php:36-104 | as above, except that outside a transaction the merged record, not the empty seed, is flushed |
| PendingAudit.MergingFirstWritesTheChange | src/Services/Audit/PendingAudit.php:36-104 | outside a transaction the change is written with its own data, and dropped only when it carries nothing and is UPDATED or RELATIONS_UPDATED |
| PendingAudit.Begin | src/Services/Audit/PendingAudit.php:49 | entering a transaction keeps the pending records and callbacks |
| PendingAudit.RunDeferred | src/Services/Audit/PendingAudit.php:50-52 | running the after-commit callbacks removes exactly their keys; with distinct keys the entries written are, in callback order, the entry of each record that is not dropped |
| PendingAudit.EmitAll | src/Services/Audit/PendingAudit.php:109-126 | the entries the flushes of a list of keys write: at most one per key |
| PendingAudit.EmitAllIgnoresOthers | src/Services/Audit/PendingAudit.php:111-116 | removing a record whose key is not flushed later does not change what the later flushes write |
| PendingAudit.Commit | src/Services/Audit/PendingAudit.php:49-52 | on commit the transaction ends, every key with a callback is flushed, and no callback remains; with distinct keys the entries written are each non-dropped record's entry, in callback order |
| PendingAudit.CommitWritesEachRecordOnce | src/Services/Audit/PendingAudit.php:40-57 | from any reachable store, commit writes each pending record's entry once, in the order the records were opened |
| PendingAudit.MergeIntoRecord | src/Services/Audit/PendingAudit.php:40-103 | a change for a key already pending only merges into its record and writes nothing |
| PendingAudit.FirstInTransaction | src/Services/Audit/PendingAudit.php:40-52 | the first change of a key inside a transaction opens its record, registers one callback and writes nothing |
| PendingAudit.RegisterAllMerges | src/Services/Audit/PendingAudit.php:40-103 | inside a transaction, any number of changes for a pending key fold into its one record and write nothing |
| PendingAudit.TransactionCollects | src/Services/Audit/PendingAudit.php:40-103 | several changes of one model in a fresh transaction leave exactly one record and one callback, holding all of them merged |
| PendingAudit.CommitOneRecord | src/Services/Audit/PendingAudit.php:109-126 | committing a single pending record writes its entry once, unless the record is dropped, and leaves the store empty |
| PendingAudit.OneEntryPerTransaction | src/Services/Audit/PendingAudit.php:40-126 | several changes of one model in one transaction write nothing until commit, and then exactly one merged entry (none if the merge is an empty update) |
| PendingAudit.RegisterAllStep | src/Services/Audit/PendingAudit.php:36-104 | a run of changes is the first change followed by the rest |
| PendingAudit.Skipped | src/Services/Audit/PendingAudit.php:124-126 | the records `flush` drops; stated by `PendingAudit.OnlyEmptyUpdatesAreSkipped` |
| PendingAudit.OnlyEmptyUpdatesAreSkipped | src/Services/Audit/PendingAudit.php:124-126 | created, deleted and restored records are always written, and so is any record with attribute or relation changes; only an empty update is dropped |
| PendingAudit.Valid | src/Services/Audit/PendingAudit.php:40-57 | the shape of every store the corrected registration reaches; stated by `PendingAudit.ValidShape` |
| PendingAudit.ValidShape | src/Services/Audit/PendingAudit.php:40-57 | outside a transaction a valid store is empty; inside one the pending keys are exactly the keys with a waiting callback |
| PendingAudit.Rollback | src/Services/Audit/PendingAudit.php:49-52 | on rollback the callbacks are discarded and the pending records stay |
| PendingAudit.RollbackForgetting | src/Services/Audit/PendingAudit.php:49-52 | a rollback that also forgets the records whose callbacks were discarded |
| PendingAudit.BeginPreservesValid | src/Services/Audit/PendingAudit.php:40-57 | entering a transaction keeps the invariant: every pending record has a callback, and nothing is pending outside a transaction |
| PendingAudit.MergingFirstPreservesValid | src/Services/Audit/PendingAudit.php:36-104 | the corrected registration keeps the invariant; in a transaction the pending keys grow by exactly the model's key |
| PendingAudit.CommitFlushesEverything | src/Services/Audit/PendingAudit.php:49-52 | committing a valid store flushes every pending record |
| PendingAudit.RollbackForgettingPreservesValid | src/Services/Audit/PendingAudit.php:49-52 | the forgetting rollback returns a valid store to empty |
| PendingAudit.RollbackLeavesStaleRecord | src/Services/Audit/PendingAudit.php:40-57 | as written: after the framework's rollback a record stays pending with no callback, so the store is no longer in a reachable shape, and a later `registerChange` outside any transaction merges into it and writes nothing |
| JsonDiff.LexLeAntisymmetric | src/Transformers/JsonDiffTransformer.php:107 | the key order is antisymmetric |
| JsonDiff.LexLeTotal | src/Transformers/JsonDiffTransformer.php:107 | the key order is total |
| JsonDiff.LexLeTransitive | src/Transformers/JsonDiffTransformer.php:107 | the key order is transitive |
| JsonDiff.LeastExists | src/Transformers/JsonDiffTransformer.php:107 | every non-empty key set has a least key |
| JsonDiff.HasLeast | src/Transformers/JsonDiffTransformer.php:107 | every non-empty key set has a least key |
| JsonDiff.Least | src/Transformers/JsonDiffTransformer.php:107 | the result is the least key of the set |
| JsonDiff.SortedKeys | src/Transformers/JsonDiffTransformer.php:106-107 | the union of keys, each once, in strictly ascending order |
| JsonDiff.SortedCons | src/Transformers/JsonDiffTransformer.php:106-107 | the least key put in front of the sorted others sorts the set |
| JsonDiff.RecursiveDiff | src/Transformers/JsonDiffTransformer.php:103-141 | every diff key lies in the union of both sides; a key only in `new` is added, a key only in `old` is removed; a non-array pair is modified exactly when not identical; nested entries only come from two arrays |
| JsonDiff.NestedEntry | src/Transformers/JsonDiffTransformer.php:126-132 | two arrays at a key give an entry exactly when their own diff is non-empty, and then it is that diff |
| JsonDiff.DiffOfSelf | src/Transformers/JsonDiffTransformer.php:103-141 | a document compared with itself has an empty diff |
| JsonDiff.DiffKey | src/Transformers/JsonDiffTransformer.php:109-138 | a key is in the diff exactly when it has an entry |
| JsonDiff.EntryAt | src/Transformers/JsonDiffTransformer.php:109-138 | an entry only for a key on some side; none for equal non-array values; a nested entry is never empty |
| JsonDiff.EmptyDiffMeansEqual | src/Transformers/JsonDiffTransformer.php:103-141 | an empty diff means the two documents are equal |
| JsonDiff.PatchKey | src/Transformers/JsonDiffTransformer.php:103-141 | applying a diff removes the removed keys and updates the others |
| JsonDiff.PatchRoundTrip | src/Transformers/JsonDiffTransformer.php:103-141 | applying the diff to the old document gives the new one: the diff loses nothing |
| JsonDiff.DiffIsCompact | src/Transformers/JsonDiffTransformer.php:126-131 | no nested entry of a diff is empty, at any depth |
| JsonDiff.RowFor | src/Transformers/JsonDiffTransformer.php:56-73 | added rows have old null, removed rows have new null, modified rows have both, all rendered |
| JsonDiff.FlattenRowCount | src/Transformers/JsonDiffTransformer.php:48-81 | exactly one row per added, removed or modified leaf |
| JsonDiff.FlattenDiffAsWritten | src/Transformers/JsonDiffTransformer.php:48-81 | as written: one row per leaf of the diff |
| JsonDiff.FlattenDiff | src/Transformers/JsonDiffTransformer.php:48-81 | corrected reading: one row per leaf of the diff, with the same old and new texts, in the same order, as the code as written |
| JsonDiff.KeyRowCount | src/Transformers/JsonDiffTransformer.php:52-77 | one key gives one row per leaf under it |
| JsonDiff.LeafCountCoversKeys | src/Transformers/JsonDiffTransformer.php:74-77 | in a compact diff every key holds at least one leaf |
| JsonDiff.KeyLeavesPositive | src/Transformers/JsonDiffTransformer.php:74-77 | in a compact diff every key holds at least one leaf |
| JsonDiff.FlattenUnderPrefix | src/Transformers/JsonDiffTransformer.php:48-81 | with the corrected label test, flattening under a prefix labels the rows of the unprefixed flattening under it |
| JsonDiff.KeyRowsUnderPrefix | src/Transformers/JsonDiffTransformer.php:52-77 | the same for the rows of one key |
| JsonDiff.LabelsCarryPrefix | src/Transformers/JsonDiffTransformer.php:53 | with the corrected label test, every row under a prefix is labelled with that prefix and a dot |
| JsonDiff.ZeroPrefixIsDropped | src/Transformers/JsonDiffTransformer.php:53 | as written, the prefix "0" is treated as no prefix and a leaf keeps its bare key |
| JsonDiff.NormalizeArray | src/Transformers/JsonDiffTransformer.php:88-101 | null gives empty; an array gives itself; a string gives its decoding when that is an array; anything else gives empty |
| JsonDiff.TransformDiffAsWritten | src/Transformers/JsonDiffTransformer.php:29-46 | null exactly when the two normalised sides are equal; otherwise the rows of their diff flattened with the label test as written, at least one row |
| JsonDiff.TransformDiff | src/Transformers/JsonDiffTransformer.php:29-46 | corrected reading: null exactly when the two normalised sides are equal; otherwise the rows of their diff flattened with the corrected label test, at least one row |
| JsonDiff.TextsConcat | src/Transformers/JsonDiffTransformer.php:56-77 | the old and new texts of concatenated rows are the concatenation of their texts |
| JsonDiff.FlattenTextsAgree | src/Transformers/JsonDiffTransformer.php:48-81 | whatever the label test and the prefix, flattening gives the same old and new texts in the same order |
| JsonDiff.KeyTextsAgree | src/Transformers/JsonDiffTransformer.php:52-77 | the same for the rows of one key |
| JsonDiff.TransformReadingsAgree | src/Transformers/JsonDiffTransformer.php:29-81 | the two readings of `transformDiff` are null together and otherwise differ only in their labels |
| JsonDiff.SingleKeyRows | src/Transformers/JsonDiffTransformer.php:52-78 | a diff with a single key flattens to that key's rows |
| JsonDiff.DifferingSides | src/Transformers/JsonDiffTransformer.php:34-42 | documents with a non-empty diff differ and are not both empty |
| JsonDiff.TransformOfDiffering | src/Transformers/JsonDiffTransformer.php:29-46 | two differing documents become the flattened rows of their diff, as written and as corrected |
| JsonDiff.SingleKeyDiff | src/Transformers/JsonDiffTransformer.php:109-138 | documents whose only key is k have the diff of that key alone |
| JsonDiff.InnerListDiff | src/Transformers/JsonDiffTransformer.php:134-137 | {"a": 1} against {"a": 2} is one modified entry |
| JsonDiff.FirstListElementDiff | src/Transformers/JsonDiffTransformer.php:126-131 | [{"a": 1}] against [{"a": 2}] is one nested entry at "0" |
| JsonDiff.FirstListElementRowsAsWritten | src/Transformers/JsonDiffTransformer.php:53 | as written, that diff flattens to one row labelled "a" |
| JsonDiff.FirstListElementRows | src/Transformers/JsonDiffTransformer.php:53 | as corrected, it flattens to one row labelled "0.a" |
| JsonDiff.FirstListElementLosesItsIndex | src/Transformers/JsonDiffTransformer.php:29-81 | `transformDiff` of those two documents gives the row "a" as written and "0.a" as corrected |
| Php.LowerOfUpper | src/Enums/AuditAction.php:46 | lower-casing ignores an earlier upper-casing |
| Php.Lower | src/Enums/AuditAction.php:46 | `strtolower` keeps the length and maps each character on its own, changing only A-Z |
| Php.Trim | src/Services/Audit/AuditLogger.php:93-94 | `trim` never lengthens, leaves none of its stripped characters at either end, and changes nothing when neither end is whitespace |
| Php.ToStringCast | src/Services/Audit/AuditLogger.php:152 | `(string)` keeps a string, gives an integer's decimal text (numeric, with that value), and is empty exactly for null, false and "" |
| Php.IsNumeric | src/Services/Audit/AuditLogger.php:106 | every integer is numeric; only integers and non-empty strings can be |
| Php.LooseEqual | src/Services/Audit/AuditLogger.php:111 | `==` on scalars is reflexive, compares two integers by value, and compares a non-numeric string with a string by text |
| Php.Empty | src/Services/Audit/AuditLogger.php:78 | `empty()`; stated by `Php.EmptyIsStringFormEmpty` |
| Php.EmptyIsStringFormEmpty | src/Services/Audit/AuditLogger.php:78 | a scalar is empty exactly when its string form is "" or "0" |
| Php.IntToStringZero | src/Services/Audit/AuditLogger.php:78 | the decimal text of an integer is "0" exactly for zero |
| Php.ToDouble | src/Services/Audit/AuditLogger.php:106-107 | the `(float)` cast of an integer keeps every integer within ±2^53 exactly |
| Php.AboveTwoTo53Collides | src/Services/Audit/AuditLogger.php:106-107 | 2^53 + 1 becomes the same double as 2^53, which is 2^53 itself |

## Left out

- Floating-point numbers: the value model has no floats. `is_numeric` and the `(float)` comparison are modelled for integers and integer-form numeric strings only. Decimal and exponent forms such as "1.0" or "1e3" are not numeric in the model.
- Php.ToDouble: rounds to 53 significant bits, ties to even, but has no largest value. Integers beyond about 1.8e308, which PHP turns into INF, are rounded like smaller ones; PHP integers are 64 bits, so only numeric strings reach that size.
- AuditLogger.ValuesAreEqual: integers are unbounded. PHP turns an integer-form numeric string beyond PHP_INT_MAX into a float before the cast; the model reads it as the exact integer and then rounds it, which can differ in the last bit.
- JsonDiff.SortedKeys: sorts keys by `strcmp` order, not by PHP's `sort`. Array keys are strings in the model, while PHP turns decimal keys such as "2" and "10" into integers, and `sort` (JsonDiffTransformer.php:106-107) orders integers numerically and mixed integer and string keys by PHP 8 comparison rules. So "10" comes before "2" here but after it in PHP: for a list of eleven or more elements, or a map with integer keys of different lengths, `JsonDiff.FlattenDiff` and `JsonDiff.TransformDiff` give the same rows in a different order. For keys that are neither decimal integers nor numeric strings the two orders agree.
- `array_merge` renumbering of integer keys in the settings and metadata overlays: keys are strings, so `+` on maps is the overlay.
- `in_array` is loose in the source. Exclusion and sensitivity lists are compared by exact string equality. The loose comparison between two numeric strings, "1" against "01", is not modelled.
- Regex metacharacters other than `*` and `.` in sensitive-field patterns are taken literally, and so is a backslash before any character. The source passes them to `preg_match` unescaped. The expression reading is stated for such plain patterns.
- AuditLogger.CalculateDiff: masks with the corrected wildcard reading (`AuditLogger.IsSensitiveField`). With the expression as the code builds it, a pattern such as `*password*` leaves `user_password_hash` unmasked; see `AuditLogger.IsSensitiveFieldAsWritten`.
- AuditLogger.MaskValue: lengths are counted in characters, while `strlen` and `substr` count bytes. The contract holds as stated for single-byte text only; a value with multi-byte characters is masked by byte counts in PHP, and its cut may fall inside a character.
- JsonDiff.TransformDiff: uses the corrected label test. `JsonDiff.TransformDiffAsWritten` states the code as written, and `JsonDiff.TransformReadingsAgree` shows the two differ only in their labels.
- `formatValue`, `formatLabel` and the HTML of `JsonDiffTransformer::transform` are a rendering parameter `render`.
- `json_encode` is the parameter `encode`. Only the properties stated by `CanonicalEncoder` are assumed: injective on arrays, and bracketed. Since the model's arrays have no order, the encoding of two arrays with the same entries is the same; see `AuditLogger.ArraysCompareByContents` below.
- `json_decode` is the parameter `decode`; `json_last_error` is folded into it returning None.
- The reflection loop at src/Observers/AuditObserver.php:214-229 has no effect and is left out.
- The pivot parents found through `*_id` attributes are the parameter `pivotParents`.
- `Str::plural(Str::camel(class_basename(...)))` is the parameter `inverseName`.
- `method_exists` and the ORM queries behind relation lookups are the parameters `relatedRows`, `parentOf` and `detachedRows`. An exception or a missing method is folded into None.
- `pivotAttached` and `pivotUpdated` have empty bodies and register nothing, so they are left out.
- `isNot` is modelled as different class or different key (`SameModel`). The database connection is not compared.
- Settings of the wrong type are excluded by `WellFormed` rather than modelled. A string where a list is declared makes the array-returning getters (Auditable.php:114-244) throw a type error. The bool-returning `shouldLogCreated`/`Updated`/`Deleted`/`Restored` (Auditable.php:147-181) do not throw: without strict types PHP coerces a scalar to a boolean, so `"0"` or `0` switches an event off. That coercion is not modelled.
- AuditLogger.ArraysCompareByContents: arrays are compared by their entries, not their order. PHP arrays are ordered and `json_encode` keeps insertion order (AuditLogger.php:82-88), so `['a' => 1, 'b' => 2]` and `['b' => 2, 'a' => 1]` compare unequal in PHP but equal here, because the model's arrays are maps without an order.
- `getTrackedRelations` and the presentation settings (`json_fields_format`, …) are not read by the core and are left out.
- The formatting helpers of `AuditLogger` (`formatBoolean`, `formatEnum`, `getEnumClass`, `isBooleanField`, `isEnumField`, `isDateField`) rely on reflection and ORM casts, so they are left out.
- The `?int` type of the builder's `actorId` property is not modelled: the actor id is any value. PHP's coercion or `TypeError` for a non-integer id is not modelled.
- `created_at => now()` in the written rows is the clock and is not part of the model.
- Queue connection and queue name only route the job, so they are not modelled. Dispatch is the `Queued` outcome.
- `AuditContext::inTransaction` reads `DB::transactionLevel()`, which is outside the model.
- `AuditContext`: the `int` transaction level is unbounded here, so PHP's overflow to float is not modelled.
- Auditable.DisableAuditing: the flag is kept per class that uses the trait, and inheritance is not modelled. In PHP the static `$auditingEnabled` (Auditable.php:10, read and written as `static::$auditingEnabled` at Auditable.php:63-98) belongs to the class whose declaration uses the trait; a subclass that only inherits it shares that class's flag. So `Child::disableAuditing()` also switches off the parent class and every sibling, and the `finally` of `withoutAuditing` restores them all. The same holds for `Auditable.EnableAuditing` and `Auditable.WithoutAuditing`: their "every other class unchanged" is about classes that each use the trait themselves.
- The database transaction is modelled as one level, a flag. Nested transactions and savepoints are not modelled; `afterCommit` callbacks run when the outermost transaction commits.
- Concurrency and request scoping of the singletons are not modelled.
- AuditObserver.OnUpdated: the contract states when nothing is registered and that there is at most one UPDATED registration. It does not restate the full diff, which `ProcessChange` and `AuditObserver.OldAttributes` state.
- AuditObserver.Deliver: delivery uses the corrected registration (`PendingAudit.RegisterChangeMergingFirst`). The as-written registration is stated on its own in `PendingAudit`.

## Findings

| source | as written | input that shows it | evidently intended | confidence | as-written member | corrected member |
|---|---|---|---|---|---|---|
| src/Services/Audit/PendingAudit.php:40-57 | outside a transaction the first registration for a key flushes the empty seeded record and returns before merging the change | `registerChange(user 7, UPDATED, {name: Ann→Anna}, [])` with no transaction open: nothing is written; a CREATED is written without attributes | the change is merged before the immediate flush, so it is written with its data | not executed | PendingAudit.RegisterChange (PendingAudit.RegisterChangeLosesAnUpdate, PendingAudit.RegisterChangeDropsUpdate, PendingAudit.RegisterChangeWritesEmptyEntry) | PendingAudit.RegisterChangeMergingFirst (PendingAudit.MergingFirstWritesTheChange) |
| src/Services/Audit/PendingAudit.php:49-52 | on rollback the after-commit flush is discarded but the pending record stays in the singleton | an update of user 7 in a transaction that rolls back, then another update of user 7 outside any transaction: the second change is merged into the stale record and never written | the record whose flush was discarded is forgotten with it | not executed | PendingAudit.Rollback (PendingAudit.RollbackLeavesStaleRecord) | PendingAudit.RollbackForgetting (PendingAudit.RollbackForgettingPreservesValid) |
| src/Transformers/JsonDiffTransformer.php:53 | the label tests the prefix for truthiness, and PHP treats "0" as false | old `[{"a": 1}]`, new `[{"a": 2}]`: the single row is labelled "a" | the row is labelled "0.a", the dot path of the leaf | not executed | JsonDiff.FlattenDiffAsWritten (JsonDiff.TransformDiffAsWritten, JsonDiff.ZeroPrefixIsDropped, JsonDiff.FirstListElementLosesItsIndex) | JsonDiff.FlattenDiff (JsonDiff.TransformDiff, JsonDiff.FlattenUnderPrefix, JsonDiff.LabelsCarryPrefix) |
| src/Services/Audit/AuditLogger.php:133 | `str_replace` applies the pairs in turn, so the `.` of the `.*` just inserted for `*` is escaped too: each `*` becomes `\.*`, a run of literal dots | pattern `*password*` and field `user_password_hash`: not sensitive, so the value is stored unmasked; likewise `*token*` and `access_token` | `*` stands for any characters, so every field containing the word is sensitive | not executed | AuditLogger.IsSensitiveFieldAsWritten (AuditLogger.AccessTokenMissedAsWritten, AuditLogger.PasswordHashMissedAsWritten, Glob.InfixPatternAsWritten) | AuditLogger.IsSensitiveField (AuditLogger.TokenMatchesAccessToken, AuditLogger.PasswordHashMarked, Glob.InfixPatternIsSubstringTest) |

=== FILE: audit_action.dfy ===
/** The five kinds of audit entry, their integer backing values, their
    string names and their human labels (src/Enums/AuditAction.php). */
module AuditActions {
  import opened Php

  datatype AuditAction = Created | Updated | Deleted | Restored | RelationsUpdated

  /** The enum's backing integer, the value stored in an audit record. */
  function ToInt(a: AuditAction): (n: int)
    ensures 1 <= n <= 5
  {
    match a
    case Created => 1
    case Updated => 2
    case Deleted => 3
    case Restored => 4
    case RelationsUpdated => 5
  }

  /** `value()`: the lower-case name kept for backward compatibility. */
  function StringValue(a: AuditAction): (s: string)
    ensures Lower(s) == s
  {
    var s := match a
      case Created => "created"
      case Updated => "updated"
      case Deleted => "deleted"
      case Restored => "restored"
      case RelationsUpdated => "relations_updated";
    LowerOfLowerCase(s);
    s
  }

  /** `label()`: the human-readable name: as long as the string value and
      starting with the same letter, capitalised. */
  function Label(a: AuditAction): (r: string)
    ensures |r| > 0 && 'A' <= r[0] <= 'Z'
    ensures |r| == |StringValue(a)| && LowerChar(r[0]) == StringValue(a)[0]
  {
    match a
    case Created => "Created"
    case Updated => "Updated"
    case Deleted => "Deleted"
    case Restored => "Restored"
    case RelationsUpdated => "Relations Updated"
  }

  /** No two actions share a label. */
  lemma LabelsAreDistinct(a: AuditAction, b: AuditAction)
    ensures Label(a) == Label(b) ==> a == b
  {
  }

  /** The names `fromString` accepts after lower-casing. */
  predicate IsActionName(s: string) {
    s == "created" || s == "updated" || s == "deleted" || s == "restored" || s == "relations_updated"
  }

  /** `fromString`: case-insensitive parse of a name; anything else throws
      a ValueError and is never coerced to a default. */
  function FromString(s: string): (r: Result<AuditAction>)
    ensures r.Ok? <==> IsActionName(Lower(s))
    ensures r.Ok? ==> StringValue(r.value) == Lower(s)
    ensures r.Err? ==> r.message == "Unknown action: " + s
  {
    match Lower(s)
    case "created" => Ok(Created)
    case "updated" => Ok(Updated)
    case "deleted" => Ok(Deleted)
    case "restored" => Ok(Restored)
    case "relations_updated" => Ok(RelationsUpdated)
    case _ => Err("Unknown action: " + s)
  }

  /** Parsing the name of an action gives the action back. */
  lemma FromStringOfStringValue(a: AuditAction)
    ensures FromString(StringValue(a)) == Ok(a)
  {
    var r := FromString(StringValue(a));
    assert r.Ok?;
    EncodingsAreInjective(r.value, a);
  }

  /** The parse ignores letter case: an upper-cased name parses to the same action. */
  lemma FromStringIgnoresCase(s: string)
    ensures FromString(Upper(s)).Ok? <==> FromString(s).Ok?
    ensures FromString(s).Ok? ==> FromString(Upper(s)) == FromString(s)
  {
    LowerOfUpper(s);
  }

  /** The backing integers, the names and the labels each tell the five actions apart. */
  lemma EncodingsAreInjective(a: AuditAction, b: AuditAction)
    ensures ToInt(a) == ToInt(b) ==> a == b
    ensures StringValue(a) == StringValue(b) ==> a == b
    ensures Label(a) == Label(b) ==> a == b
  {
  }
}

=== FILE: audit_context.dfy ===
/** The buffered audit context (src/Services/Audit/AuditContext.php): a
    list of pending log entries with a transaction-level counter, flushed
    into one stored row per entry and then cleared. The process-wide
    singleton is modelled as a value threaded through the operations. */
module AuditContext {
  import opened Php
  import opened AuditTypes

  /** One buffered change: `['entity' => …, 'action' => …, 'data' => …]`. */
  datatype PendingLog = PendingLog(entity: Entity, action: string, data: map<string, Value>)

  datatype Context = Context(pendingLogs: seq<PendingLog>, transactionLevel: int, sensitiveFields: seq<string>)

  /** The row `flush` hands to `AuditLog::create` (`created_at` is the
      clock and is not part of the model). The optional fields are untyped:
      they hold whatever the caller put in `data`. */
  datatype StoredRow = StoredRow(
    entityType: string,
    entityId: Value,
    action: string,
    actorType: Value,
    actorId: Value,
    attributes: Value,
    relations: Value,
    metadata: Value)

  /** A freshly constructed context: nothing pending, level 0. */
  const Fresh: Context := Context([], 0, [])

  /** `getInstance`: the existing instance, or a fresh one the first time. */
  function GetInstance(instance: Option<Context>): (c: Context)
    ensures instance.Some? ==> c == instance.value
    ensures instance.None? ==> c.pendingLogs == [] && c.transactionLevel == 0 && c.sensitiveFields == []
  {
    if instance.Some? then instance.value else Fresh
  }

  /** `begin`: one level deeper; the pending list is kept. */
  function Begin(instance: Option<Context>): (c: Context)
    ensures var before := GetInstance(instance);
      && c.transactionLevel == before.transactionLevel + 1
      && c.pendingLogs == before.pendingLogs
      && c.sensitiveFields == before.sensitiveFields
  {
    var c := GetInstance(instance);
    c.(transactionLevel := c.transactionLevel + 1)
  }

  /** `begin` called `n` times in a row. */
  function BeginTimes(c: Context, n: nat): Context
    decreases n
  {
    if n == 0 then c else BeginTimes(Begin(Some(c)), n - 1)
  }

  /** Nothing ever decrements the level: `n` calls to `begin` add exactly
      `n`, and the pending list is untouched. */
  lemma {:induction false} BeginTimesCounts(c: Context, n: nat)
    ensures BeginTimes(c, n).transactionLevel == c.transactionLevel + n
    ensures BeginTimes(c, n).pendingLogs == c.pendingLogs
    decreases n
  {
    if n > 0 {
      BeginTimesCounts(Begin(Some(c)), n - 1);
    }
  }

  /** `addChange`: appends one entry at the end; the level is untouched. */
  function AddChange(c: Context, entity: Entity, action: string, data: map<string, Value>): (r: Context)
    ensures |r.pendingLogs| == |c.pendingLogs| + 1
    ensures r.pendingLogs[..|c.pendingLogs|] == c.pendingLogs
    ensures r.pendingLogs[|c.pendingLogs|] == PendingLog(entity, action, data)
    ensures r.transactionLevel == c.transactionLevel && r.sensitiveFields == c.sensitiveFields
  {
    c.(pendingLogs := c.pendingLogs + [PendingLog(entity, action, data)])
  }

  /** Several `addChange` calls, one per entry of `logs`, in order. */
  function AddChanges(c: Context, logs: seq<PendingLog>): Context
    decreases |logs|
  {
    if |logs| == 0 then c
    else AddChanges(AddChange(c, logs[0].entity, logs[0].action, logs[0].data), logs[1..])
  }

  /** Insertion order is kept: after any series of `addChange` calls the
      pending list is the earlier list followed by the new entries in the
      order they were added. */
  lemma {:induction false} AddChangesAppends(c: Context, logs: seq<PendingLog>)
    ensures AddChanges(c, logs).pendingLogs == c.pendingLogs + logs
    ensures AddChanges(c, logs).transactionLevel == c.transactionLevel
    decreases |logs|
  {
    if |logs| > 0 {
      var next := AddChange(c, logs[0].entity, logs[0].action, logs[0].data);
      AddChangesAppends(next, logs[1..]);
      assert next.pendingLogs + logs[1..] == c.pendingLogs + logs;
    }
  }

  /** `clear`: nothing pending and level 0; the sensitive-field list stays. */
  function Clear(c: Context): (r: Context)
    ensures r.pendingLogs == [] && r.transactionLevel == 0
    ensures r.sensitiveFields == c.sensitiveFields
  {
    c.(pendingLogs := [], transactionLevel := 0)
  }

  /** Whatever was begun or added before, `clear` ends in the same state. */
  lemma ClearForgetsHistory(c: Context, n: nat, logs: seq<PendingLog>)
    ensures Clear(AddChanges(BeginTimes(c, n), logs)) == Clear(c)
  {
    BeginTimesCounts(c, n);
    AddChangesAppends(BeginTimes(c, n), logs);
    BeginTimesKeepsSensitive(c, n);
    AddChangesKeepsSensitive(BeginTimes(c, n), logs);
  }

  lemma {:induction false} AddChangesKeepsSensitive(c: Context, logs: seq<PendingLog>)
    ensures AddChanges(c, logs).sensitiveFields == c.sensitiveFields
    decreases |logs|
  {
    if |logs| > 0 {
      AddChangesKeepsSensitive(AddChange(c, logs[0].entity, logs[0].action, logs[0].data), logs[1..]);
    }
  }

  lemma {:induction false} BeginTimesKeepsSensitive(c: Context, n: nat)
    ensures BeginTimes(c, n).sensitiveFields == c.sensitiveFields
    decreases n
  {
    if n > 0 {
      BeginTimesKeepsSensitive(Begin(Some(c)), n - 1);
    }
  }

  /** The row `flush` writes for one entry: class and `id` of the entity,
      the action as given, `actor_type` defaulting to "system" and the
      other optional fields to null (a missing key and a null value count
      alike, as with `??`). */
  function RowOf(log: PendingLog): (row: StoredRow)
    ensures row.entityType == log.entity.cls && row.entityId == Id(log.entity) && row.action == log.action
    ensures ("actor_type" in log.data && log.data["actor_type"] != Null) ==> row.actorType == log.data["actor_type"]
    ensures ("actor_type" !in log.data || log.data["actor_type"] == Null) ==> row.actorType == Str("system")
    ensures row.actorId == Lookup(log.data, "actor_id")
    ensures row.attributes == Lookup(log.data, "attributes")
    ensures row.relations == Lookup(log.data, "relations")
    ensures row.metadata == Lookup(log.data, "metadata")
  {
    StoredRow(
      log.entity.cls,
      Id(log.entity),
      log.action,
      Coalesce(Lookup(log.data, "actor_type"), Str("system")),
      Coalesce(Lookup(log.data, "actor_id"), Null),
      Coalesce(Lookup(log.data, "attributes"), Null),
      Coalesce(Lookup(log.data, "relations"), Null),
      Coalesce(Lookup(log.data, "metadata"), Null))
  }

  /** `flush`: one `AuditLog::create` per pending entry, in list order,
      then `clear`. Returns the rows written and the context after. */
  method Flush(c: Context) returns (rows: seq<StoredRow>, after: Context)
    ensures |rows| == |c.pendingLogs|
    ensures forall i :: 0 <= i < |rows| ==> rows[i] == RowOf(c.pendingLogs[i])
    ensures after.pendingLogs == [] && after.transactionLevel == 0
    ensures after.sensitiveFields == c.sensitiveFields
  {
    rows := [];
    var i := 0;
    while i < |c.pendingLogs|
      invariant 0 <= i <= |c.pendingLogs|
      invariant |rows| == i
      invariant forall j :: 0 <= j < i ==> rows[j] == RowOf(c.pendingLogs[j])
    {
      rows := rows + [RowOf(c.pendingLogs[i])];
      i := i + 1;
    }
    after := Clear(c);
  }

  /** Buffering entries into a cleared context and flushing writes exactly
      those entries, in the order they were added, and leaves nothing
      behind: a second flush writes nothing. */
  method FlushAfterAdding(c: Context, logs: seq<PendingLog>) returns (rows: seq<StoredRow>, again: seq<StoredRow>)
    ensures |rows| == |logs|
    ensures forall i :: 0 <= i < |logs| ==> rows[i] == RowOf(logs[i])
    ensures again == []
  {
    var start := Clear(c);
    var filled := AddChanges(start, logs);
    AddChangesAppends(start, logs);
    assert filled.pendingLogs == logs;
    var after, final;
    rows, after := Flush(filled);
    again, final := Flush(after);
  }
}

=== FILE: audit_log_builder.dfy ===
/** The fluent entry builder (src/Services/Audit/AuditLogBuilder.php): actor
    normalisation, attribute and relation accumulation, relation
    enrichment, the metadata overlay, action conversion, and the choice
    between writing the record and queueing it. A builder is a value; each
    setter returns the updated builder. */
module AuditLogBuilder {
  import opened Php
  import opened AuditTypes
  import opened AuditActions
  import AuditLogger

  /** What `action()` was given: the enum itself or its name. */
  datatype ActionArg = EnumAction(action: AuditAction) | NamedAction(name: string)

  /** What `by()` was given: an object (a user model, read through its
      `id`), an array with optional `type` and `id` (None for a missing or
      null `type`), or anything else. */
  datatype ActorArg = ActorObject(id: Value) | ActorArray(actorType: Option<string>, id: Value) | ActorOther

  /** A relation member as a caller passes it: already an array, an object
      with `id`, `name` and `title` properties, or a bare key. */
  datatype RelationItem =
    | ArrayItem(fields: RelationRef)
    | ObjectItem(id: Value, name: Value, title: Value)
    | ScalarItem(key: Value)

  /** The builder's state; `action` is None until `action()` is called
      (the typed property is then uninitialised). */
  datatype Builder = Builder(
    entity: Entity,
    action: Option<ActionArg>,
    actorType: Option<string>,
    actorId: Value,
    attributes: Option<AttributeDiff>,
    relations: Option<RelationDiff>,
    metadata: map<string, Value>)

  /** `AuditLogger::for($entity)`: a builder with nothing set. */
  function For(e: Entity): (b: Builder)
    ensures b.entity == e && b.action.None? && b.actorType.None? && b.actorId.Null?
    ensures b.attributes.None? && b.relations.None? && b.metadata == map[]
  {
    Builder(e, None, None, Null, None, None, map[])
  }

  /** `action()`. */
  function SetAction(b: Builder, a: ActionArg): (r: Builder)
    ensures r.action == Some(a) && r == b.(action := Some(a))
  {
    b.(action := Some(a))
  }

  /** `by()`: an object is a user, an array gives its `type` (default
      "system") and `id` (default null), anything else the system actor. */
  function By(b: Builder, actor: ActorArg): (r: Builder)
    ensures r.actorType.Some?
    ensures actor.ActorObject? ==> r.actorType == Some("user") && r.actorId == actor.id
    ensures actor.ActorArray? ==>
      r.actorType == Some(if actor.actorType.Some? then actor.actorType.value else "system") && r.actorId == actor.id
    ensures actor.ActorOther? ==> r.actorType == Some("system") && r.actorId == Null
    ensures r.(actorType := b.actorType, actorId := b.actorId) == b
  {
    match actor
    case ActorObject(id) => b.(actorType := Some("user"), actorId := id)
    case ActorArray(t, id) => b.(actorType := Some(if t.Some? then t.value else "system"), actorId := id)
    case ActorOther => b.(actorType := Some("system"), actorId := Null)
  }

  /** The array `resolveActor` returns, as an argument of `by()`. */
  function ActorArgOf(a: Actor): ActorArg {
    ActorArray(Some(a.actorType), a.id)
  }

  /** Passing the resolved actor to `by()` records exactly that actor. */
  lemma ByResolvedActor(b: Builder, rt: Runtime)
    ensures var r := By(b, ActorArgOf(AuditLogger.ResolveActor(rt)));
      r.actorType == Some(AuditLogger.ResolveActor(rt).actorType) && r.actorId == AuditLogger.ResolveActor(rt).id
  {
  }

  /** `withAttributes`: the diff of the two bags with no excluded
      attributes and only the given sensitive fields (plus the global
      list), replacing any earlier attributes. */
  method WithAttributes(b: Builder, encode: Value -> string, globalSensitive: seq<string>,
                        oldAttrs: Attributes, newAttrs: Attributes, sensitive: seq<string>)
    returns (r: Builder)
    ensures r.attributes.Some?
    ensures r.attributes.value.Keys == AuditLogger.ReportedKeys(encode, oldAttrs, newAttrs, [])
    ensures forall k :: k in r.attributes.value ==>
      r.attributes.value[k] == AuditLogger.EntryFor(globalSensitive, sensitive, oldAttrs, newAttrs, k)
    ensures r.(attributes := b.attributes) == b
  {
    var diff := AuditLogger.CalculateDiff(encode, globalSensitive, oldAttrs, newAttrs, [], sensitive);
    r := b.(attributes := Some(diff));
  }

  /** `withRawAttributes`: an already computed diff, stored as given. */
  function WithRawAttributes(b: Builder, attrs: AttributeDiff): (r: Builder)
    ensures r.attributes == Some(attrs) && r.(attributes := b.attributes) == b
  {
    b.(attributes := Some(attrs))
  }

  /** One member as the entry records it: arrays pass through, an object
      becomes `{id, name}` with the name falling back to the title, a bare
      key becomes `{id}`. */
  function EnrichRelation(item: RelationItem): (r: RelationRef)
    ensures item.ArrayItem? ==> r == item.fields
    ensures item.ObjectItem? ==> (r.Keys == {"id", "name"} && r["id"] == item.id
      && r["name"] == (if item.name.Null? then item.title else item.name))
    ensures item.ScalarItem? ==> r.Keys == {"id"} && r["id"] == item.key
  {
    match item
    case ArrayItem(fields) => fields
    case ObjectItem(id, name, title) => map["id" := id, "name" := Coalesce(name, title)]
    case ScalarItem(key) => map["id" := key]
  }

  /** `enrichRelations`: member by member, keeping length and order. */
  function EnrichRelations(items: seq<RelationItem>): (r: seq<RelationRef>)
    ensures |r| == |items|
    ensures forall i :: 0 <= i < |items| ==> r[i] == EnrichRelation(items[i])
  {
    if |items| == 0 then [] else [EnrichRelation(items[0])] + EnrichRelations(items[1..])
  }

  /** Members that are already arrays come back unchanged. */
  lemma {:induction false} EnrichArraysIsIdentity(refs: seq<RelationRef>)
    ensures EnrichRelations(seq(|refs|, i requires 0 <= i < |refs| => ArrayItem(refs[i]))) == refs
  {
    var items := seq(|refs|, i requires 0 <= i < |refs| => ArrayItem(refs[i]));
    var r := EnrichRelations(items);
    assert forall i :: 0 <= i < |refs| ==> r[i] == EnrichRelation(items[i]) == refs[i];
  }

  /** A relation's entry before a `withRelations` call: empty when the name
      is new. */
  function PriorRelation(b: Builder, name: string): RelationChange {
    if b.relations.Some? && name in b.relations.value then b.relations.value[name]
    else RelationChange([], [])
  }

  /** `withRelations`: the relation gets an entry (empty on first use), the
      enriched members are appended after the earlier ones, other
      relations and the rest of the builder stay as they were. */
  function WithRelations(b: Builder, name: string, added: seq<RelationItem>, removed: seq<RelationItem>): (r: Builder)
    ensures r.relations.Some? && name in r.relations.value
    ensures var prior := PriorRelation(b, name);
      var entry := r.relations.value[name];
      && |entry.added| == |prior.added| + |added| && |entry.removed| == |prior.removed| + |removed|
      && entry.added[..|prior.added|] == prior.added
      && entry.added[|prior.added|..] == EnrichRelations(added)
      && entry.removed[..|prior.removed|] == prior.removed
      && entry.removed[|prior.removed|..] == EnrichRelations(removed)
    ensures b.relations.Some? ==> r.relations.value.Keys == b.relations.value.Keys + {name}
    ensures b.relations.None? ==> r.relations.value.Keys == {name}
    ensures forall n :: n != name && b.relations.Some? && n in b.relations.value ==>
      r.relations.value[n] == b.relations.value[n]
    ensures r.(relations := b.relations) == b
  {
    var rels := if b.relations.Some? then b.relations.value else map[];
    var prior := PriorRelation(b, name);
    var entry := RelationChange(prior.added + EnrichRelations(added), prior.removed + EnrichRelations(removed));
    assert entry.added[..|prior.added|] == prior.added;
    assert entry.removed[..|prior.removed|] == prior.removed;
    b.(relations := Some(rels[name := entry]))
  }

  /** Two calls for the same relation accumulate: the second call's members
      follow the first call's. */
  lemma WithRelationsAccumulates(b: Builder, name: string, a1: seq<RelationItem>, r1: seq<RelationItem>,
                                 a2: seq<RelationItem>, r2: seq<RelationItem>)
    requires b.relations.None?
    ensures var r := WithRelations(WithRelations(b, name, a1, r1), name, a2, r2);
      r.relations.value[name] == RelationChange(EnrichRelations(a1) + EnrichRelations(a2), EnrichRelations(r1) + EnrichRelations(r2))
  {
    var b1 := WithRelations(b, name, a1, r1);
    var e1 := b1.relations.value[name];
    assert e1.added == e1.added[..0] + e1.added[0..];
    assert e1 == RelationChange(EnrichRelations(a1), EnrichRelations(r1));
    var e2 := WithRelations(b1, name, a2, r2).relations.value[name];
    assert e2.added == e2.added[..|e1.added|] + e2.added[|e1.added|..];
    assert e2.removed == e2.removed[..|e1.removed|] + e2.removed[|e1.removed|..];
  }

  /** `metadata()`: `array_merge` — the new keys win, earlier ones stay. */
  function Metadata(b: Builder, m: map<string, Value>): (r: Builder)
    ensures r.metadata.Keys == b.metadata.Keys + m.Keys
    ensures forall k :: k in m ==> r.metadata[k] == m[k]
    ensures forall k :: k in b.metadata && k !in m ==> r.metadata[k] == b.metadata[k]
    ensures r.(metadata := b.metadata) == b
  {
    b.(metadata := b.metadata + m)
  }

  // ---------------------------------------------------------------------
  // log()

  /** A persisted or queued audit row (`created_at` is the clock and is
      not part of the model). */
  datatype Record = Record(
    entityType: string,
    entityId: Value,
    action: int,
    actorType: string,
    actorId: Value,
    attributes: Option<AttributeDiff>,
    relations: Option<RelationDiff>,
    metadata: map<string, Value>)

  /** Where `log()` sent the record: written synchronously, or dispatched
      as a queued job. */
  datatype Dispatch = Stored(record: Record) | Queued(record: Record)

  /** What `log()` returns to its caller: the written record, or null when
      the record was queued. */
  function Returned(d: Dispatch): (r: Option<Record>)
    ensures r.Some? <==> d.Stored?
    ensures r.Some? ==> r.value == d.record
  {
    if d.Stored? then Some(d.record) else None
  }

  function OptionalString(s: Option<string>): (v: Value)
    ensures s.None? ==> v == Null
    ensures s.Some? ==> v == Str(s.value)
  {
    if s.Some? then Str(s.value) else Null
  }

  /** The metadata `log()` supplies itself: request id, source, client IP
      and user agent (null outside a request). */
  function DefaultMetadata(rt: Runtime): (m: map<string, Value>)
    ensures m.Keys == {"request_id", "source", "ip_address", "user_agent"}
    ensures m["source"] == Str(AuditLogger.DetectSource(rt))
    ensures m["request_id"] == OptionalString(AuditLogger.GetRequestId(rt))
    ensures rt.request.None? ==> m["ip_address"] == Null && m["user_agent"] == Null
  {
    map[
      "request_id" := OptionalString(AuditLogger.GetRequestId(rt)),
      "source" := Str(AuditLogger.DetectSource(rt)),
      "ip_address" := if rt.request.Some? then OptionalString(rt.request.value.ip) else Null,
      "user_agent" := if rt.request.Some? then OptionalString(rt.request.value.userAgent) else Null
    ]
  }

  /** The stored action: an enum's backing integer, or the parse of a name. */
  function ActionValue(a: ActionArg): (r: Result<int>)
    ensures a.EnumAction? ==> r == Ok(ToInt(a.action))
    ensures a.NamedAction? ==> (r.Ok? <==> FromString(a.name).Ok?)
    ensures a.NamedAction? && r.Ok? ==> r.value == ToInt(FromString(a.name).value)
  {
    match a
    case EnumAction(action) => Ok(ToInt(action))
    case NamedAction(name) =>
      match FromString(name)
      case Ok(action) => Ok(ToInt(action))
      case Err(msg) => Err(msg)
  }

  /** `log()`: resolve the actor if none was set, overlay the caller's
      metadata on the defaults, convert the action, and either queue the
      record (`queueEnabled`) or write it. Fails when no action was set or
      when a named action is unknown. */
  function Log(b: Builder, rt: Runtime, queueEnabled: bool): (r: Result<Dispatch>)
    ensures r.Ok? <==> b.action.Some? && ActionValue(b.action.value).Ok?
    ensures r.Ok? ==> (r.value.Queued? <==> queueEnabled)
    ensures r.Ok? ==> var rec := r.value.record;
      && rec.entityType == b.entity.cls && rec.entityId == Id(b.entity)
      && rec.action == ActionValue(b.action.value).value
      && rec.attributes == b.attributes && rec.relations == b.relations
      && (b.actorType.Some? ==> rec.actorType == b.actorType.value && rec.actorId == b.actorId)
      && (b.actorType.None? ==> Actor(rec.actorType, rec.actorId) == AuditLogger.ResolveActor(rt))
      && rec.metadata.Keys == DefaultMetadata(rt).Keys + b.metadata.Keys
      && (forall k :: k in b.metadata ==> rec.metadata[k] == b.metadata[k])
      && (forall k :: k in DefaultMetadata(rt) && k !in b.metadata ==> rec.metadata[k] == DefaultMetadata(rt)[k])
  {
    if b.action.None? then Err("Typed property $action must not be accessed before initialization")
    else
      var actor := if b.actorType.Some? then Actor(b.actorType.value, b.actorId) else AuditLogger.ResolveActor(rt);
      var metadata := DefaultMetadata(rt) + b.metadata;
      match ActionValue(b.action.value)
      case Err(msg) => Err(msg)
      case Ok(action) =>
        var rec := Record(b.entity.cls, Id(b.entity), action, actor.actorType, actor.id, b.attributes, b.relations, metadata);
        Ok(if queueEnabled then Queued(rec) else Stored(rec))
  }

  /** A queued record is not handed back to the caller; a written one is. */
  lemma LogReturnsNullWhenQueued(b: Builder, rt: Runtime, queueEnabled: bool)
    requires Log(b, rt, queueEnabled).Ok?
    ensures Returned(Log(b, rt, queueEnabled).value).None? <==> queueEnabled
  {
  }

  /** Caller metadata wins over the defaults: setting `source` (say)
      through `metadata()` overrides the detected source. */
  lemma CallerMetadataWins(b: Builder, rt: Runtime, queueEnabled: bool, key: string, v: Value)
    requires b.action.Some? && ActionValue(b.action.value).Ok?
    ensures Log(Metadata(b, map[key := v]), rt, queueEnabled).value.record.metadata[key] == v
  {
  }
}

=== FILE: audit_logger.dfy ===
/** The attribute diff engine and its helpers (src/Services/Audit/AuditLogger.php):
    the PHP-specific equality rule, sensitivity matching, masking, actor
    resolution and request-source detection. `json_encode` is the
    parameter `encode`; the global sensitive-field list from the
    configuration is the parameter `globalSensitive`. */
module AuditLogger {
  import opened Php
  import opened AuditTypes
  import Glob

  /** Timestamp columns the change loop of `calculateDiff` always skips. */
  const Timestamps: set<string> := {"created_at", "updated_at", "deleted_at"}

  /** What a masked null or empty value becomes. */
  const Redacted: string := "[REDACTED]"

  /** What the model assumes of `json_encode` on arrays: different arrays
      encode differently, and an encoding is bracketed by `[`/`{` and
      `]`/`}` (so it is never blank, never "0" and never numeric). */
  ghost predicate CanonicalEncoder(encode: Value -> string) {
    && (forall a: Value, b: Value {:trigger encode(a), encode(b)} ::
          a.Arr? && b.Arr? && encode(a) == encode(b) ==> a == b)
    && (forall a: Value {:trigger encode(a)} ::
          a.Arr? ==> |encode(a)| >= 2
                     && (encode(a)[0] == '[' || encode(a)[0] == '{')
                     && (encode(a)[|encode(a)| - 1] == ']' || encode(a)[|encode(a)| - 1] == '}'))
  }

  /** Arrays are replaced by their JSON text before comparison. */
  function Canonical(encode: Value -> string, v: Value): (c: Value)
    ensures !c.Arr?
  {
    if v.Arr? then Str(encode(v)) else v
  }

  // ---------------------------------------------------------------------
  // valuesAreEqual

  /** `valuesAreEqual`: both null; else both empty; else arrays to JSON,
      two strings compared after trimming; else a boolean on either side
      compares truthiness; else two numerics compare as doubles; else loose
      `==`. */
  function ValuesAreEqual(encode: Value -> string, a: Value, b: Value): (r: bool)
    ensures Empty(a) && Empty(b) ==> r
    ensures a.Str? && b.Str? && !(Empty(a) && Empty(b)) ==> (r <==> Trim(a.s) == Trim(b.s))
    ensures a.Int? && b.Int? ==> (r <==> ToDouble(a.i) == ToDouble(b.i))
    ensures a.Int? && b.Int? && -TwoTo53 <= a.i <= TwoTo53 && -TwoTo53 <= b.i <= TwoTo53 ==> (r <==> a.i == b.i)
    ensures a.Bool? && !b.Arr? ==> (r <==> Truthy(a) == Truthy(b))
  {
    if a.Null? && b.Null? then true
    else if Empty(a) && Empty(b) then true
    else
      var x := Canonical(encode, a);
      var y := Canonical(encode, b);
      if x.Str? && y.Str? then Trim(x.s) == Trim(y.s)
      else if x.Bool? || y.Bool? then Truthy(x) == Truthy(y)
      else if IsNumeric(x) && IsNumeric(y) then ToDouble(NumericValue(x)) == ToDouble(NumericValue(y))
      else LooseEqual(x, y)
  }

  /** The loose `==` the rule ends with never reports equality: every pair
      that reaches it (null against a non-empty value, an integer against a
      non-numeric string) is unequal. So the earlier rules decide alone. */
  lemma LooseFallbackNeverEqual(x: Value, y: Value)
    requires !x.Arr? && !y.Arr?
    requires !(x.Null? && y.Null?) && !(Empty(x) && Empty(y))
    requires !(x.Str? && y.Str?) && !x.Bool? && !y.Bool?
    requires !(IsNumeric(x) && IsNumeric(y))
    ensures !LooseEqual(x, y)
  {
    if x.Int? {
      NumericIntOfIntToString(x.i);
    } else if y.Int? {
      NumericIntOfIntToString(y.i);
    }
  }

  /** Type drift between an integer and a string is absorbed: they are equal
      exactly when both are empty or the string is numeric and its value
      becomes the same double as the integer. */
  lemma IntegerAgainstString(encode: Value -> string, x: int, t: string)
    ensures ValuesAreEqual(encode, Int(x), Str(t)) <==>
      (x == 0 && Empty(Str(t))) || (NumericInt(t).Some? && ToDouble(NumericInt(t).value) == ToDouble(x))
    ensures ValuesAreEqual(encode, Str(t), Int(x)) <==> ValuesAreEqual(encode, Int(x), Str(t))
  {
    if !(x == 0 && Empty(Str(t))) {
      if NumericInt(t).Some? {
        NumericRule(encode, Int(x), Str(t));
        NumericRule(encode, Str(t), Int(x));
      } else {
        LooseRule(encode, Int(x), Str(t));
        LooseRule(encode, Str(t), Int(x));
        LooseFallbackNeverEqual(Int(x), Str(t));
        LooseFallbackNeverEqual(Str(t), Int(x));
      }
    }
  }

  /** The numeric step of the rule, once the earlier steps have passed. */
  lemma NumericRule(encode: Value -> string, a: Value, b: Value)
    requires !(Empty(a) && Empty(b))
    requires var x := Canonical(encode, a); var y := Canonical(encode, b);
      !(x.Str? && y.Str?) && !x.Bool? && !y.Bool? && IsNumeric(x) && IsNumeric(y)
    ensures ValuesAreEqual(encode, a, b) ==
      (ToDouble(NumericValue(Canonical(encode, a))) == ToDouble(NumericValue(Canonical(encode, b))))
  {
  }

  /** Comparing as doubles loses integers beyond 2^53: changing an
      attribute from 9007199254740992 to 9007199254740993 is no change. */
  lemma LargeIntegersCollide(encode: Value -> string)
    ensures ValuesAreEqual(encode, Int(TwoTo53), Int(TwoTo53 + 1))
  {
    AboveTwoTo53Collides();
  }

  /** The last step of the rule: loose `==`. */
  lemma LooseRule(encode: Value -> string, a: Value, b: Value)
    requires !(Empty(a) && Empty(b))
    requires var x := Canonical(encode, a); var y := Canonical(encode, b);
      !(x.Str? && y.Str?) && !x.Bool? && !y.Bool? && !(IsNumeric(x) && IsNumeric(y))
    ensures ValuesAreEqual(encode, a, b) == LooseEqual(Canonical(encode, a), Canonical(encode, b))
  {
  }

  predicate Bracketed(t: string) {
    |t| >= 2 && (t[0] == '[' || t[0] == '{') && (t[|t| - 1] == ']' || t[|t| - 1] == '}')
  }

  /** The JSON text of an array is truthy … */
  lemma EncodedArrayTruthy(encode: Value -> string, a: Value)
    requires CanonicalEncoder(encode) && a.Arr?
    ensures Truthy(Str(encode(a)))
  {
    assert Bracketed(encode(a));
  }

  /** … and its own trim. */
  lemma EncodedArrayTrimmed(encode: Value -> string, a: Value)
    requires CanonicalEncoder(encode) && a.Arr?
    ensures Trim(encode(a)) == encode(a)
  {
    var t := encode(a);
    assert Bracketed(t);
    TrimIdentity(t, IsTrimChar);
  }

  /** Null equals exactly the empty values. */
  lemma NullAgainstValue(encode: Value -> string, v: Value)
    requires CanonicalEncoder(encode)
    ensures ValuesAreEqual(encode, Null, v) <==> Empty(v)
    ensures ValuesAreEqual(encode, v, Null) <==> Empty(v)
  {
    match v
    case Null =>
    case Bool(_) =>
    case Int(i) =>
      if i != 0 {
        LooseFallbackNeverEqual(Null, v);
        LooseFallbackNeverEqual(v, Null);
      }
    case Str(_) =>
    case Arr(_) =>
      if !Empty(v) {
        NullAgainstArray(encode, v);
        ArrayAgainstNull(encode, v);
      }
  }

  lemma NullAgainstArray(encode: Value -> string, v: Value)
    requires CanonicalEncoder(encode) && v.Arr? && !Empty(v)
    ensures !ValuesAreEqual(encode, Null, v)
  {
    EncodedArrayTruthy(encode, v);
  }

  lemma ArrayAgainstNull(encode: Value -> string, v: Value)
    requires CanonicalEncoder(encode) && v.Arr? && !Empty(v)
    ensures !ValuesAreEqual(encode, v, Null)
  {
    EncodedArrayTruthy(encode, v);
  }

  /** Arrays are compared through their canonical JSON text, hence by contents. */
  lemma ArraysCompareByContents(encode: Value -> string, a: Value, b: Value)
    requires CanonicalEncoder(encode) && a.Arr? && b.Arr?
    ensures ValuesAreEqual(encode, a, b) <==> a == b
  {
    if !(Empty(a) && Empty(b)) {
      EncodedArrayTrimmed(encode, a);
      EncodedArrayTrimmed(encode, b);
    }
  }

  /** Because arrays are turned into JSON before the boolean rule, a
      non-empty JSON text is truthy: an array equals `true` whatever it
      holds, even `[]`, and equals `false` only when it is empty. */
  lemma ArrayAgainstBool(encode: Value -> string, a: Value, flag: bool)
    requires CanonicalEncoder(encode) && a.Arr?
    ensures ValuesAreEqual(encode, a, Bool(flag)) <==> flag || Empty(a)
  {
    EncodedArrayTruthy(encode, a);
    if !(Empty(a) && !flag) {
      TruthinessRule(encode, a, Bool(flag));
    }
  }

  /** The boolean step of the rule, once the earlier steps have passed. */
  lemma TruthinessRule(encode: Value -> string, a: Value, b: Value)
    requires !(Empty(a) && Empty(b))
    requires var x := Canonical(encode, a); var y := Canonical(encode, b);
      !(x.Str? && y.Str?) && (x.Bool? || y.Bool?)
    ensures ValuesAreEqual(encode, a, b) == (Truthy(Canonical(encode, a)) == Truthy(Canonical(encode, b)))
  {
  }

  /** The rule is symmetric. */
  lemma ValuesAreEqualSymmetric(encode: Value -> string, a: Value, b: Value)
    ensures ValuesAreEqual(encode, a, b) == ValuesAreEqual(encode, b, a)
  {
  }

  /** Every value equals itself. */
  lemma ValuesAreEqualReflexive(encode: Value -> string, v: Value)
    ensures ValuesAreEqual(encode, v, v)
  {
  }

  // ---------------------------------------------------------------------
  // isSensitiveField

  /** The pattern loop of `isSensitiveField`: some pattern containing `*`
      matches the field, under the given reading of its expression. */
  function AnyWildcardMatches(reading: Glob.Reading, patterns: seq<string>, field: string): (r: bool)
    ensures r <==> exists i :: 0 <= i < |patterns| && '*' in patterns[i] && Glob.Matches(reading, patterns[i], field)
  {
    if |patterns| == 0 then false
    else if '*' in patterns[0] && Glob.Matches(reading, patterns[0], field) then true
    else
      var rest := AnyWildcardMatches(reading, patterns[1..], field);
      assert forall i :: 1 <= i < |patterns| ==> patterns[i] == patterns[1..][i - 1];
      rest
  }

  /** `isSensitiveField` as written: the global list and the caller's list
      are merged (union by concatenation); an exact name match, or a match
      of the expression `str_replace` builds from a pattern with `*`, makes
      the field sensitive. */
  function IsSensitiveFieldAsWritten(globalSensitive: seq<string>, custom: seq<string>, field: string): (r: bool)
    ensures field in globalSensitive || field in custom ==> r
    ensures r <==> (field in globalSensitive + custom ||
      exists p :: p in globalSensitive + custom && '*' in p && Glob.PregMatch(Glob.RegexOf(p), field))
  {
    var patterns := globalSensitive + custom;
    field in patterns || AnyWildcardMatches(Glob.AsWritten, patterns, field)
  }

  /** `isSensitiveField` with `*` read as the wildcard it is meant to be:
      an exact name match or a wildcard match makes the field sensitive.
      This is the reading the diff engine uses. */
  function IsSensitiveField(globalSensitive: seq<string>, custom: seq<string>, field: string): (r: bool)
    ensures field in globalSensitive || field in custom ==> r
    ensures r <==> (field in globalSensitive + custom ||
      exists p :: p in globalSensitive + custom && '*' in p && Glob.PatternMatches(p, field))
  {
    var patterns := globalSensitive + custom;
    field in patterns || AnyWildcardMatches(Glob.AsIntended, patterns, field)
  }

  /** A plain word: one line, with no character the expression would
      read specially. */
  predicate PlainWord(w: string) {
    '*' !in w && '.' !in w && '\\' !in w && '\n' !in w
  }

  /** As written, `*w*` marks the word `w` itself. */
  lemma WordMarksItselfAsWritten(pattern: string, w: string)
    requires PlainWord(w) && pattern == "*" + w + "*"
    ensures IsSensitiveFieldAsWritten([], [pattern], w)
  {
    assert Glob.NoLineFeed(w);
    Glob.InfixPatternAsWritten(w, w);
    assert w[..0] == [] && w[0..|w|] == w && w[|w|..] == [];
    assert Glob.DottedAt(w, w, 0);
    assert AnyWildcardMatches(Glob.AsWritten, [pattern], w);
  }

  /** As written, `*w*` misses every single-line name that holds more than
      `w` and neither starts nor ends with a dot. */
  lemma LongerNameMissedAsWritten(pattern: string, w: string, field: string)
    requires PlainWord(w) && pattern == "*" + w + "*"
    requires Glob.NoLineFeed(field) && field != pattern
    requires |field| > |w| && field[0] != '.' && field[|field| - 1] != '.'
    ensures !IsSensitiveFieldAsWritten([], [pattern], field)
  {
    Glob.InfixPatternAsWritten(w, field);
    Glob.NotDotted(field, w);
    assert !AnyWildcardMatches(Glob.AsWritten, [pattern], field);
  }

  /** As intended, `*w*` marks every single-line name in which `w` occurs. */
  lemma OccurrenceMarked(pattern: string, w: string, field: string, i: int)
    requires '*' !in w && pattern == "*" + w + "*"
    requires Glob.NoLineFeed(field) && Glob.OccursAt(field, w, i)
    ensures IsSensitiveField([], [pattern], field)
  {
    Glob.InfixPatternIsSubstringTest(w, field);
    assert AnyWildcardMatches(Glob.AsIntended, [pattern], field);
  }

  /** As written, `*token*` marks `token` … */
  lemma TokenMarkedAsWritten(pattern: string, token: string)
    requires pattern == "*token*" && token == "token"
    ensures IsSensitiveFieldAsWritten([], [pattern], token)
  {
    assert pattern == "*" + token + "*";
    WordMarksItselfAsWritten(pattern, token);
  }

  /** … but not `access_token`: the stars only stand for runs of dots. */
  lemma AccessTokenMissedAsWritten(pattern: string, token: string, accessToken: string)
    requires pattern == "*token*" && token == "token" && accessToken == "access_token"
    ensures !IsSensitiveFieldAsWritten([], [pattern], accessToken)
  {
    assert pattern == "*" + token + "*";
    LongerNameMissedAsWritten(pattern, token, accessToken);
  }

  /** `*password*` marks `user_password_hash` as intended … */
  lemma PasswordHashMarked(pattern: string, word: string, field: string)
    requires pattern == "*password*" && word == "password" && field == "user_password_hash"
    ensures IsSensitiveField([], [pattern], field)
  {
    assert pattern == "*" + word + "*";
    assert field[5..13] == word;
    OccurrenceMarked(pattern, word, field, 5);
  }

  /** … but not as written, so that value would be stored unmasked: the
      two readings disagree on it. */
  lemma PasswordHashMissedAsWritten(pattern: string, word: string, field: string)
    requires pattern == "*password*" && word == "password" && field == "user_password_hash"
    ensures !IsSensitiveFieldAsWritten([], [pattern], field)
    ensures IsSensitiveFieldAsWritten([], [pattern], field) != IsSensitiveField([], [pattern], field)
  {
    assert pattern == "*" + word + "*";
    LongerNameMissedAsWritten(pattern, word, field);
    PasswordHashMarked(pattern, word, field);
  }

  /** With the intended reading, `*token*` marks `access_token` ... */
  lemma TokenMatchesAccessToken()
    ensures IsSensitiveField([], ["*token*"], "access_token")
  {
    var w, f := "token", "access_token";
    assert "*token*" == "*" + w + "*";
    assert f[7..12] == w;
    assert Glob.OccursAt(f, w, 7);
    Glob.InfixPatternIsSubstringTest(w, f);
    assert AnyWildcardMatches(Glob.AsIntended, ["*token*"], f);
  }

  /** … and `token` itself … */
  lemma TokenMatchesToken()
    ensures IsSensitiveField([], ["*token*"], "token")
  {
    var w := "token";
    assert "*token*" == "*" + w + "*";
    assert Glob.OccursAt(w, w, 0);
    Glob.InfixPatternIsSubstringTest(w, w);
    assert AnyWildcardMatches(Glob.AsIntended, ["*token*"], w);
  }

  /** … but not `toke`. */
  lemma TokenRejectsToke()
    ensures !IsSensitiveField([], ["*token*"], "toke")
  {
    var w, f := "token", "toke";
    assert "*token*" == "*" + w + "*";
    Glob.InfixPatternIsSubstringTest(w, f);
    assert f !in ["*token*"];
  }

  // ---------------------------------------------------------------------
  // maskValue

  function Max(a: int, b: int): int {
    if a >= b then a else b
  }

  /** `maskValue`: "[REDACTED]" for a value whose string form is empty; all
      stars up to four characters; otherwise the first two and last two
      characters around at least four stars. */
  function MaskValue(v: Value): (r: string)
    ensures ToStringCast(v) == "" <==> r == Redacted
    ensures var s := ToStringCast(v); 0 < |s| <= 4 ==> r == Stars(|s|)
    ensures var s := ToStringCast(v); |s| > 4 ==>
      && |r| == 4 + Max(4, |s| - 4)
      && r[..2] == s[..2]
      && r[|r| - 2..] == s[|s| - 2..]
      && (forall i :: 2 <= i < |r| - 2 ==> r[i] == '*')
    ensures var s := ToStringCast(v); |s| > 4 ==> |r| >= 8 && (|s| <= 8 ==> |r| == 8)
  {
    if v.Null? || v == Str("") then Redacted
    else
      var s := ToStringCast(v);
      if |s| == 0 then Redacted
      else if |s| <= 4 then
        assert Stars(|s|)[0] != Redacted[0];
        Stars(|s|)
      else
        var r := s[..2] + Stars(Max(4, |s| - 4)) + s[|s| - 2..];
        assert r[..2] == s[..2];
        assert r[|r| - 2..] == s[|s| - 2..];
        assert r[2] == '*' && Redacted[2] == 'E';
        r
  }

  /** The documented example: "supersecret" masks to "su*******et". */
  lemma MaskExample()
    ensures MaskValue(Str("supersecret")) == "su*******et"
  {
    var r := MaskValue(Str("supersecret"));
    assert |r| == 11;
    assert r == "su*******et";
  }

  // ---------------------------------------------------------------------
  // calculateDiff

  /** What the diff stores for a value: its mask when the field is sensitive. */
  function Shown(globalSensitive: seq<string>, sensitive: seq<string>, field: string, v: Value): (r: Value)
    ensures !IsSensitiveField(globalSensitive, sensitive, field) ==> r == v
    ensures IsSensitiveField(globalSensitive, sensitive, field) ==>
      r.Str? && (r.s == Redacted || forall i :: 2 <= i < |r.s| - 2 ==> r.s[i] == '*')
  {
    if IsSensitiveField(globalSensitive, sensitive, field) then Str(MaskValue(v)) else v
  }

  /** Whether `calculateDiff` reports field `k`: a field of `newAttrs` that is
      neither excluded nor a timestamp and whose value changed under
      `valuesAreEqual`, or a field only in `oldAttrs` that is not excluded
      (the removal loop does not skip timestamps). */
  function Reported(encode: Value -> string, oldAttrs: Attributes, newAttrs: Attributes, excluded: seq<string>, k: string): (b: bool)
    ensures b ==> k !in excluded && (k in oldAttrs || k in newAttrs)
    ensures k in newAttrs && k in Timestamps ==> !b
    ensures k in oldAttrs && k !in newAttrs && k !in excluded ==> b
  {
    if k in newAttrs then
      k !in excluded && k !in Timestamps && !ValuesAreEqual(encode, Lookup(oldAttrs, k), newAttrs[k])
    else
      k in oldAttrs && k !in excluded
  }

  /** The fields `calculateDiff` reports; it does not depend on sensitivity. */
  function ReportedKeys(encode: Value -> string, oldAttrs: Attributes, newAttrs: Attributes, excluded: seq<string>): set<string> {
    set k | k in newAttrs.Keys + oldAttrs.Keys && Reported(encode, oldAttrs, newAttrs, excluded, k)
  }

  /** The entry `calculateDiff` stores for a reported field. */
  function EntryFor(globalSensitive: seq<string>, sensitive: seq<string>, oldAttrs: Attributes, newAttrs: Attributes, k: string): (r: Change)
    ensures !IsSensitiveField(globalSensitive, sensitive, k) ==> r == Change(Lookup(oldAttrs, k), Lookup(newAttrs, k))
    ensures IsSensitiveField(globalSensitive, sensitive, k) ==> r.oldValue.Str? && (k in newAttrs <==> r.newValue.Str?)
  {
    if k in newAttrs then
      Change(Shown(globalSensitive, sensitive, k, Lookup(oldAttrs, k)), Shown(globalSensitive, sensitive, k, newAttrs[k]))
    else
      Change(Shown(globalSensitive, sensitive, k, Lookup(oldAttrs, k)), Null)
  }

  /** The diff `calculateDiff` produces, as one map: each reported field
      with its entry. */
  function DiffOf(encode: Value -> string, globalSensitive: seq<string>, oldAttrs: Attributes,
                  newAttrs: Attributes, excluded: seq<string>, sensitive: seq<string>): (d: AttributeDiff)
    ensures d.Keys == ReportedKeys(encode, oldAttrs, newAttrs, excluded)
  {
    map k | k in ReportedKeys(encode, oldAttrs, newAttrs, excluded) :: EntryFor(globalSensitive, sensitive, oldAttrs, newAttrs, k)
  }

  /** `calculateDiff`: a change loop over the new attributes followed by a
      removal loop over the old ones. The set of reported fields is decided
      on raw values and does not depend on which fields are sensitive;
      masking only replaces the stored values. */
  method CalculateDiff(encode: Value -> string, globalSensitive: seq<string>, oldAttrs: Attributes,
                       newAttrs: Attributes, excluded: seq<string>, sensitive: seq<string>)
    returns (diff: AttributeDiff)
    ensures diff.Keys == ReportedKeys(encode, oldAttrs, newAttrs, excluded)
    ensures forall k :: k in diff ==> diff[k] == EntryFor(globalSensitive, sensitive, oldAttrs, newAttrs, k)
    ensures diff == DiffOf(encode, globalSensitive, oldAttrs, newAttrs, excluded, sensitive)
  {
    diff := ChangeLoop(encode, globalSensitive, oldAttrs, newAttrs, excluded, sensitive);
    diff := RemovalLoop(encode, globalSensitive, oldAttrs, newAttrs, excluded, sensitive, diff);
    DiffOfIsUnique(encode, globalSensitive, oldAttrs, newAttrs, excluded, sensitive, diff);
  }

  /** The first loop of `calculateDiff`: every changed field of the new
      attributes that is neither excluded nor a timestamp. */
  method ChangeLoop(encode: Value -> string, globalSensitive: seq<string>, oldAttrs: Attributes,
                    newAttrs: Attributes, excluded: seq<string>, sensitive: seq<string>)
    returns (diff: AttributeDiff)
    ensures forall k :: k in diff <==> k in newAttrs && Reported(encode, oldAttrs, newAttrs, excluded, k)
    ensures forall k :: k in diff ==> diff[k] == EntryFor(globalSensitive, sensitive, oldAttrs, newAttrs, k)
  {
    diff := map[];
    var todo := newAttrs.Keys;
    while todo != {}
      invariant todo <= newAttrs.Keys
      invariant forall k :: k in diff <==> k in newAttrs && k !in todo && Reported(encode, oldAttrs, newAttrs, excluded, k)
      invariant forall k :: k in diff ==> diff[k] == EntryFor(globalSensitive, sensitive, oldAttrs, newAttrs, k)
      decreases todo
    {
      var key :| key in todo;
      todo := todo - {key};
      var oldValue := Lookup(oldAttrs, key);
      var newValue := newAttrs[key];
      if key !in excluded && key !in Timestamps && !ValuesAreEqual(encode, oldValue, newValue) {
        var isSensitive := IsSensitiveField(globalSensitive, sensitive, key);
        var oldFormatted := if isSensitive then Str(MaskValue(oldValue)) else oldValue;
        var newFormatted := if isSensitive then Str(MaskValue(newValue)) else newValue;
        diff := diff[key := Change(oldFormatted, newFormatted)];
      }
    }
  }

  /** The second loop of `calculateDiff`: every field only the old
      attributes have, unless excluded, with null as its new value. */
  method RemovalLoop(encode: Value -> string, globalSensitive: seq<string>, oldAttrs: Attributes,
                     newAttrs: Attributes, excluded: seq<string>, sensitive: seq<string>, start: AttributeDiff)
    returns (diff: AttributeDiff)
    requires forall k :: k in start ==> k in newAttrs
    ensures forall k :: k in diff <==> k in start || (k in oldAttrs && Reported(encode, oldAttrs, newAttrs, excluded, k) && k !in newAttrs)
    ensures forall k :: k in diff && k !in start ==> diff[k] == EntryFor(globalSensitive, sensitive, oldAttrs, newAttrs, k)
    ensures forall k :: k in start ==> diff[k] == start[k]
  {
    diff := start;
    var todo := oldAttrs.Keys;
    while todo != {}
      invariant todo <= oldAttrs.Keys
      invariant forall k :: k in diff <==> k in start || (k in oldAttrs && k !in todo && k !in newAttrs && k !in excluded)
      invariant forall k :: k in diff && k !in start ==> diff[k] == EntryFor(globalSensitive, sensitive, oldAttrs, newAttrs, k)
      invariant forall k :: k in start ==> diff[k] == start[k]
      decreases todo
    {
      var key :| key in todo;
      todo := todo - {key};
      if key !in newAttrs && key !in excluded {
        var isSensitive := IsSensitiveField(globalSensitive, sensitive, key);
        diff := diff[key := Change(if isSensitive then Str(MaskValue(oldAttrs[key])) else oldAttrs[key], Null)];
      }
    }
  }

  /** A diff with the reported keys and their entries is `DiffOf`. */
  lemma DiffOfIsUnique(encode: Value -> string, globalSensitive: seq<string>, oldAttrs: Attributes,
                       newAttrs: Attributes, excluded: seq<string>, sensitive: seq<string>, diff: AttributeDiff)
    requires forall k :: k in diff <==> k in newAttrs.Keys + oldAttrs.Keys && Reported(encode, oldAttrs, newAttrs, excluded, k)
    requires forall k :: k in diff ==> diff[k] == EntryFor(globalSensitive, sensitive, oldAttrs, newAttrs, k)
    ensures diff.Keys == ReportedKeys(encode, oldAttrs, newAttrs, excluded)
    ensures diff == DiffOf(encode, globalSensitive, oldAttrs, newAttrs, excluded, sensitive)
  {
  }

  // ---------------------------------------------------------------------
  // Context

  /** `resolveActor`: the authenticated user, else the system actor with a
      null id (in the console and outside it alike). */
  function ResolveActor(rt: Runtime): (a: Actor)
    ensures a.actorType == "user" <==> rt.user.Some?
    ensures rt.user.Some? ==> a.id == rt.user.value
    ensures rt.user.None? ==> a == Actor("system", Null)
  {
    if rt.user.Some? then Actor("user", rt.user.value)
    else if rt.console then Actor("system", Null)
    else Actor("system", Null)
  }

  /** `getRequestId`: outside the console, the X-Request-ID header, else
      X-Correlation-ID, else null. */
  function GetRequestId(rt: Runtime): (r: Option<string>)
    ensures rt.console || rt.request.None? ==> r == None
    ensures r.Some? ==> r == rt.request.value.requestIdHeader || r == rt.request.value.correlationIdHeader
    ensures !rt.console && rt.request.Some? && rt.request.value.requestIdHeader.Some? ==> r == rt.request.value.requestIdHeader
    ensures !rt.console && rt.request.Some? && rt.request.value.requestIdHeader.None? ==> r == rt.request.value.correlationIdHeader
  {
    if !rt.console && rt.request.Some? then
      if rt.request.value.requestIdHeader.Some? then rt.request.value.requestIdHeader
      else rt.request.value.correlationIdHeader
    else None
  }

  /** `detectSource`: the channel a change came through. */
  function DetectSource(rt: Runtime): (r: string)
    ensures rt.console <==> r == "console"
    ensures r == "system" <==> !rt.console && rt.request.None?
    ensures r == "api" <==> !rt.console && rt.request.Some? && StartsWith(rt.request.value.path, "api/")
    ensures r == "admin_panel" <==> (!rt.console && rt.request.Some? && !StartsWith(rt.request.value.path, "api/")
      && (StartsWith(rt.request.value.path, "nova-api/") || StartsWith(rt.request.value.path, "nova/")))
    ensures r in {"console", "system", "api", "admin_panel", "web"}
  {
    if rt.console then "console"
    else if rt.request.None? then "system"
    else
      var path := rt.request.value.path;
      if StartsWith(path, "api/") then "api"
      else if StartsWith(path, "nova-api/") || StartsWith(path, "nova/") then "admin_panel"
      else "web"
  }

  /** A request id only ever comes with an HTTP request: whenever one is
      found, the source is the API, the admin panel or the web. */
  lemma RequestIdOnlyOverHttp(rt: Runtime)
    ensures GetRequestId(rt).Some? ==> DetectSource(rt) in {"api", "admin_panel", "web"}
    ensures DetectSource(rt) in {"console", "system"} ==> GetRequestId(rt) == None
  {
  }

}

=== FILE: audit_observer.dfy ===
/** The model observer (src/Observers/AuditObserver.php): it turns Eloquent
    lifecycle events into `registerChange` calls on the pending-audit store.
    Each handler here returns the registrations it makes, in order, and the
    model as it leaves the handler; `Deliver` then hands them to the store. */
module AuditObserver {
  import opened Php
  import opened AuditTypes
  import opened AuditActions
  import opened Auditable
  import AuditLogger
  import P = PendingAudit

  /** What the observer consults besides the model itself.
      - `encode`, `globalSensitive`, `defaultConfig`, `flags`: as in the
        diff engine and the trait.
      - `relatedRows(m, relation, ids)`: the related models a
        `whereIn('id', ids)` query through `m->relation()` returns; None when
        the model has no such method or the query throws.
      - `parentOf(m, relation)`: `m->relation()->first()` when it is a model;
        None when the method is missing, the result is null or it throws.
      - `inverseName(cls)`: `Str::plural(Str::camel(class_basename(cls)))`.
      - `pivotParents(p)`: the models a pivot reaches through its `*_id`
        attributes, in attribute order, one per relation name.
      - `detachedRows(m, relation, ids)`: the related models fetched by key
        after a detach; None when that throws. */
  datatype World = World(
    encode: Value -> string,
    globalSensitive: seq<string>,
    defaultConfig: Settings,
    flags: Flags,
    relatedRows: (Entity, string, seq<Value>) -> Option<seq<Entity>>,
    parentOf: (Entity, string) -> Option<Entity>,
    inverseName: string -> string,
    pivotParents: Entity -> seq<Entity>,
    detachedRows: (Entity, string, seq<Value>) -> Option<seq<Entity>>)

  /** The registrations a handler makes, in order, and the model afterwards. */
  datatype Handled = Handled(registrations: seq<P.Registration>, entity: Entity)

  /** The two events that reach parents and pivots. */
  datatype LifeEvent = WasCreated | WasDeleted

  /** Both configuration layers hold values of the declared types. */
  predicate Configured(w: World, e: Entity) {
    WellFormed(w.defaultConfig) && WellFormed(ModelConfig(e))
  }

  /** The settings the model's getters read. */
  function Config(w: World, e: Entity): (cfg: Settings)
    ensures Configured(w, e) ==> WellFormed(cfg)
  {
    GetAuditConfig(w.defaultConfig, e)
  }

  /** `shouldAudit`: the class uses the trait and its flag is on. */
  function ShouldAudit(w: World, e: Entity): (r: bool)
    ensures r ==> e.auditable
    ensures e.auditable ==> (r <==> IsAuditingEnabled(w.flags, e.cls))
  {
    e.auditable && IsAuditingEnabled(w.flags, e.cls)
  }

  /** `array_diff_key($m, array_flip($excluded))`. */
  function Without<V>(m: map<string, V>, excluded: seq<string>): (r: map<string, V>)
    ensures forall k :: k in r <==> k in m && k !in excluded
    ensures forall k :: k in r ==> r[k] == m[k]
  {
    map k | k in m && k !in excluded :: m[k]
  }

  /** `!empty($model->relationChanges ?? null)`. */
  predicate HasRelationChanges(e: Entity) {
    e.relationChanges.Some? && |e.relationChanges.value| > 0
  }

  // ---------------------------------------------------------------------
  // Relation data

  /** The label of a related model: `name ?? title ?? label ?? code ?? "#" . key`. */
  function DisplayName(e: Entity): (r: Value)
    ensures r != Null
    ensures Property(e, "name") != Null ==> r == Property(e, "name")
    ensures Property(e, "name") == Null && Property(e, "title") != Null ==> r == Property(e, "title")
    ensures Property(e, "name") == Null && Property(e, "title") == Null && Property(e, "label") != Null ==>
      r == Property(e, "label")
    ensures (Property(e, "name") == Null && Property(e, "title") == Null && Property(e, "label") == Null
             && Property(e, "code") != Null) ==> r == Property(e, "code")
    ensures (Property(e, "name") == Null && Property(e, "title") == Null && Property(e, "label") == Null
             && Property(e, "code") == Null) ==> r == Str("#" + ToStringCast(e.key))
  {
    Coalesce(Property(e, "name"), Coalesce(Property(e, "title"), Coalesce(Property(e, "label"),
      Coalesce(Property(e, "code"), Str("#" + ToStringCast(e.key))))))
  }

  /** `formatRelationData`: `{id, name, type}` with the class as type. */
  function FormatRelationData(e: Entity): (r: RelationRef)
    ensures r.Keys == {"id", "name", "type"}
    ensures r["id"] == e.key && r["name"] == DisplayName(e) && r["type"] == Str(e.cls)
  {
    map["id" := e.key, "name" := DisplayName(e), "type" := Str(e.cls)]
  }

  /** `getRelationModels`: nothing for no ids; the related models found,
      formatted, when the relation can be queried; otherwise `{id}` per
      id, in the order given. */
  function GetRelationModels(w: World, e: Entity, relation: string, ids: seq<Value>): (r: seq<RelationRef>)
    ensures ids == [] ==> r == []
    ensures ids != [] && w.relatedRows(e, relation, ids).Some? ==>
      var rows := w.relatedRows(e, relation, ids).value;
      |r| == |rows| && forall i :: 0 <= i < |r| ==> r[i] == FormatRelationData(rows[i])
    ensures ids != [] && w.relatedRows(e, relation, ids).None? ==>
      |r| == |ids| && forall i :: 0 <= i < |r| ==> r[i] == map["id" := ids[i]]
  {
    if ids == [] then []
    else match w.relatedRows(e, relation, ids)
      case Some(rows) => seq(|rows|, i requires 0 <= i < |rows| => FormatRelationData(rows[i]))
      case None => seq(|ids|, i requires 0 <= i < |ids| => map["id" := ids[i]])
  }

  /** The loop of `processChange` over `relationChanges`: each relation
      with its added and removed ids looked up. */
  function FormatRelations(w: World, e: Entity, changes: map<string, RelationIds>): (r: RelationDiff)
    ensures r.Keys == changes.Keys
    ensures forall n :: n in r ==>
      r[n] == RelationChange(GetRelationModels(w, e, n, changes[n].added), GetRelationModels(w, e, n, changes[n].removed))
  {
    map n | n in changes :: RelationChange(GetRelationModels(w, e, n, changes[n].added),
                                           GetRelationModels(w, e, n, changes[n].removed))
  }

  // ---------------------------------------------------------------------
  // processChange

  /** The attribute diff `processChange` computes: excluded fields dropped
      from both sides, then `calculateDiff` with the model's lists. */
  function ChangeDiff(w: World, e: Entity, oldAttrs: Attributes, newAttrs: Attributes): (d: AttributeDiff)
    requires Configured(w, e)
    ensures var excluded := GetExcludedAttributes(Config(w, e));
      d.Keys == AuditLogger.ReportedKeys(w.encode, Without(oldAttrs, excluded), Without(newAttrs, excluded), excluded)
  {
    var cfg := Config(w, e);
    var excluded := GetExcludedAttributes(cfg);
    AuditLogger.DiffOf(w.encode, w.globalSensitive, Without(oldAttrs, excluded), Without(newAttrs, excluded),
                       excluded, GetSensitiveFields(w.globalSensitive, cfg))
  }

  /** `processChange`: an UPDATED change with no attribute difference and
      no relation changes is dropped; anything else is registered once,
      with the formatted relation changes, which are then cleared from
      the model. */
  function ProcessChange(w: World, e: Entity, action: AuditAction, oldAttrs: Attributes, newAttrs: Attributes): (r: Handled)
    requires Configured(w, e)
    ensures var diff := ChangeDiff(w, e, oldAttrs, newAttrs);
      r.registrations == [] <==> (action == Updated && |diff| == 0 && !HasRelationChanges(e))
    ensures r.registrations != [] ==>
      && |r.registrations| == 1
      && r.registrations[0].entity == r.entity
      && r.registrations[0].action == action
      && r.registrations[0].attributes == ChangeDiff(w, e, oldAttrs, newAttrs)
      && r.registrations[0].relations.Keys == (if HasRelationChanges(e) then e.relationChanges.value.Keys else {})
    ensures r.entity == (if r.registrations != [] && HasRelationChanges(e) then e.(relationChanges := None) else e)
  {
    var diff := ChangeDiff(w, e, oldAttrs, newAttrs);
    if |diff| == 0 && !HasRelationChanges(e) && action == Updated then
      Handled([], e)
    else if HasRelationChanges(e) then
      var formatted := FormatRelations(w, e, e.relationChanges.value);
      var cleared := e.(relationChanges := None);
      Handled([P.Registration(cleared, action, diff, formatted)], cleared)
    else
      Handled([P.Registration(e, action, diff, map[])], e)
  }

  // ---------------------------------------------------------------------
  // Parents

  /** The notification for one parent: the child formatted, as added on
      creation and as removed on deletion, under the inverse relation name. */
  function ParentEntry(w: World, child: Entity, parent: Entity, ev: LifeEvent): (r: P.Registration)
    ensures r.entity == parent && r.action == RelationsUpdated && r.attributes == map[]
    ensures r.relations.Keys == {w.inverseName(child.cls)}
    ensures var c := r.relations[w.inverseName(child.cls)];
      (ev == WasCreated ==> c == RelationChange([FormatRelationData(child)], []))
      && (ev == WasDeleted ==> c == RelationChange([], [FormatRelationData(child)]))
  {
    var data := FormatRelationData(child);
    var change := if ev == WasCreated then RelationChange([data], []) else RelationChange([], [data]);
    P.Registration(parent, RelationsUpdated, map[], map[w.inverseName(child.cls) := change])
  }

  /** The parents the relation names lead to, in the order of the names:
      those the relation finds and that are auditable. */
  function FoundParents(w: World, child: Entity, names: seq<string>): (r: seq<Entity>)
    ensures |r| <= |names|
    decreases |names|
  {
    if names == [] then []
    else
      var rest := FoundParents(w, child, names[1..]);
      match w.parentOf(child, names[0])
      case Some(parent) => if parent.auditable then [parent] + rest else rest
      case None => rest
  }

  /** A parent is among the found ones exactly when some name resolves to
      it and it is auditable. */
  lemma {:induction false} FoundParentsAreTheResolved(w: World, child: Entity, names: seq<string>)
    ensures forall p :: p in FoundParents(w, child, names) <==>
      exists i :: 0 <= i < |names| && w.parentOf(child, names[i]) == Some(p) && p.auditable
    decreases |names|
  {
    if names != [] {
      FoundParentsAreTheResolved(w, child, names[1..]);
      forall p
        ensures (exists i :: 0 <= i < |names| && w.parentOf(child, names[i]) == Some(p) && p.auditable) <==>
          (w.parentOf(child, names[0]) == Some(p) && p.auditable) ||
          (exists j :: 0 <= j < |names[1..]| && w.parentOf(child, names[1..][j]) == Some(p) && p.auditable)
      {
        if exists i :: 0 <= i < |names| && w.parentOf(child, names[i]) == Some(p) && p.auditable {
          var i :| 0 <= i < |names| && w.parentOf(child, names[i]) == Some(p) && p.auditable;
          if i > 0 {
            assert names[1..][i - 1] == names[i];
          }
        }
        if exists j :: 0 <= j < |names[1..]| && w.parentOf(child, names[1..][j]) == Some(p) && p.auditable {
          var j :| 0 <= j < |names[1..]| && w.parentOf(child, names[1..][j]) == Some(p) && p.auditable;
          assert names[j + 1] == names[1..][j];
        }
      }
    }
  }

  /** The loop of `handleParentLogging` over the given relation names:
      names without a parent model, or whose parent is not auditable, are
      skipped, and every other one notifies its parent, in order. */
  function ParentRegistrations(w: World, child: Entity, ev: LifeEvent, names: seq<string>): (r: seq<P.Registration>)
    ensures |r| <= |names|
    ensures forall i :: 0 <= i < |r| ==> r[i].action == RelationsUpdated && r[i].entity.auditable
    ensures var found := FoundParents(w, child, names);
      |r| == |found| && forall i :: 0 <= i < |r| ==> r[i] == ParentEntry(w, child, found[i], ev)
    decreases |names|
  {
    if names == [] then []
    else
      var rest := ParentRegistrations(w, child, ev, names[1..]);
      match w.parentOf(child, names[0])
      case Some(parent) =>
        if parent.auditable then [ParentEntry(w, child, parent, ev)] + rest else rest
      case None => rest
  }

  /** `handleParentLogging`: one notification per declared parent found,
      in the order of the declaration; a relation that finds nothing or a
      parent that is not auditable does not stop the others. */
  function HandleParentLogging(w: World, child: Entity, ev: LifeEvent): (r: seq<P.Registration>)
    ensures |r| <= |GetAuditParents(child)|
    ensures var found := FoundParents(w, child, GetAuditParents(child));
      |r| == |found| && forall i :: 0 <= i < |r| ==> r[i] == ParentEntry(w, child, found[i], ev)
    ensures var names := GetAuditParents(child);
      forall i :: 0 <= i < |names| && w.parentOf(child, names[i]).Some? && w.parentOf(child, names[i]).value.auditable ==>
        ParentEntry(w, child, w.parentOf(child, names[i]).value, ev) in r
  {
    var names := GetAuditParents(child);
    FoundParentsAreTheResolved(w, child, names);
    var r := ParentRegistrations(w, child, ev, names);
    assert forall p :: p in FoundParents(w, child, names) ==> ParentEntry(w, child, p, ev) in r;
    r
  }

  /** Every parent that is found and auditable is notified, exactly once
      per name naming it, and in the order of the names. */
  lemma {:induction false} ParentRegistrationsAllFound(w: World, child: Entity, ev: LifeEvent, names: seq<string>)
    requires forall i :: 0 <= i < |names| ==> w.parentOf(child, names[i]).Some? && w.parentOf(child, names[i]).value.auditable
    ensures var r := ParentRegistrations(w, child, ev, names);
      |r| == |names| && forall i :: 0 <= i < |names| ==> r[i] == ParentEntry(w, child, w.parentOf(child, names[i]).value, ev)
    decreases |names|
  {
    if names != [] {
      var rest := ParentRegistrations(w, child, ev, names[1..]);
      ParentRegistrationsAllFound(w, child, ev, names[1..]);
      ParentFound(w, child, ev, names);
      forall i | 1 <= i < |names|
        ensures ParentRegistrations(w, child, ev, names)[i] == ParentEntry(w, child, w.parentOf(child, names[i]).value, ev)
      {
        assert names[1..][i - 1] == names[i];
      }
    }
  }

  /** One step of the loop: a found, auditable parent puts its entry in front. */
  lemma ParentFound(w: World, child: Entity, ev: LifeEvent, names: seq<string>)
    requires names != [] && w.parentOf(child, names[0]).Some? && w.parentOf(child, names[0]).value.auditable
    ensures ParentRegistrations(w, child, ev, names) ==
      [ParentEntry(w, child, w.parentOf(child, names[0]).value, ev)] + ParentRegistrations(w, child, ev, names[1..])
  {
  }

  // ---------------------------------------------------------------------
  // Pivots

  /** `$p->isNot($parent)` fails for the same model: same class and key. */
  predicate SameModel(a: Entity, b: Entity) {
    a.cls == b.cls && a.key == b.key
  }

  /** The registration on `parent` for the `other` side of a pivot: an
      UPDATED change carrying the other model as added on creation and as
      removed on deletion. */
  function PivotEntry(w: World, parent: Entity, other: Entity, ev: LifeEvent): (r: P.Registration)
    ensures r.entity == parent && r.action == Updated && r.attributes == map[]
    ensures r.relations.Keys == {w.inverseName(other.cls)}
    ensures var c := r.relations[w.inverseName(other.cls)];
      (ev == WasCreated ==> c == RelationChange([FormatRelationData(other)], []))
      && (ev == WasDeleted ==> c == RelationChange([], [FormatRelationData(other)]))
  {
    var data := FormatRelationData(other);
    var change := if ev == WasCreated then RelationChange([data], []) else RelationChange([], [data]);
    P.Registration(parent, Updated, map[], map[w.inverseName(other.cls) := change])
  }

  /** The inner loop of `handlePivotEvent`: one registration on `parent`
      per other model in the list, skipped when `parent` is not auditable. */
  function OtherRegistrations(w: World, parent: Entity, others: seq<Entity>, ev: LifeEvent): (r: seq<P.Registration>)
    ensures !parent.auditable ==> r == []
    ensures forall i :: 0 <= i < |r| ==> r[i].entity == parent && r[i].action == Updated
    decreases |others|
  {
    if others == [] then []
    else
      var rest := OtherRegistrations(w, parent, others[1..], ev);
      if !SameModel(others[0], parent) && parent.auditable then [PivotEntry(w, parent, others[0], ev)] + rest
      else rest
  }

  /** The outer loop of `handlePivotEvent`, over the parents in order. */
  function PivotRegistrations(w: World, parents: seq<Entity>, all: seq<Entity>, ev: LifeEvent): (r: seq<P.Registration>)
    ensures forall i :: 0 <= i < |r| ==> r[i].action == Updated && r[i].entity in parents
    decreases |parents|
  {
    if parents == [] then []
    else OtherRegistrations(w, parents[0], all, ev) + PivotRegistrations(w, parents[1..], all, ev)
  }

  /** `handlePivotEvent`: every parent reached through the pivot is told
      about every other one. */
  function HandlePivotEvent(w: World, pivot: Entity, ev: LifeEvent): (r: seq<P.Registration>)
    ensures forall i :: 0 <= i < |r| ==> r[i].action == Updated && r[i].entity in w.pivotParents(pivot)
    ensures var ps := w.pivotParents(pivot);
      forall x :: x in r ==>
        exists i, j :: 0 <= i < |ps| && 0 <= j < |ps| && ps[i].auditable && !SameModel(ps[j], ps[i]) && x == PivotEntry(w, ps[i], ps[j], ev)
    ensures var ps := w.pivotParents(pivot);
      forall i, j :: 0 <= i < |ps| && 0 <= j < |ps| && ps[i].auditable && !SameModel(ps[j], ps[i]) ==>
        PivotEntry(w, ps[i], ps[j], ev) in r
  {
    PivotRegistrationsSound(w, w.pivotParents(pivot), w.pivotParents(pivot), ev);
    PivotRegistrationsComplete(w, w.pivotParents(pivot), w.pivotParents(pivot), ev);
    PivotRegistrations(w, w.pivotParents(pivot), w.pivotParents(pivot), ev)
  }

  /** The registrations on `parent` are exactly the pivot entries for the
      models of the list that are not `parent` itself: each registration is
      one of them, and an auditable parent gets every one. */
  lemma {:induction false} OtherRegistrationsAre(w: World, parent: Entity, others: seq<Entity>, ev: LifeEvent)
    ensures forall x :: x in OtherRegistrations(w, parent, others, ev) ==>
      exists j :: 0 <= j < |others| && !SameModel(others[j], parent) && x == PivotEntry(w, parent, others[j], ev)
    ensures parent.auditable ==> forall j :: 0 <= j < |others| && !SameModel(others[j], parent) ==>
      PivotEntry(w, parent, others[j], ev) in OtherRegistrations(w, parent, others, ev)
    decreases |others|
  {
    if others != [] {
      var r := OtherRegistrations(w, parent, others, ev);
      var rest := OtherRegistrations(w, parent, others[1..], ev);
      OtherRegistrationsAre(w, parent, others[1..], ev);
      forall x | x in r
        ensures exists j :: 0 <= j < |others| && !SameModel(others[j], parent) && x == PivotEntry(w, parent, others[j], ev)
      {
        if x in rest {
          var j :| 0 <= j < |others[1..]| && !SameModel(others[1..][j], parent) && x == PivotEntry(w, parent, others[1..][j], ev);
          assert others[1..][j] == others[j + 1];
        } else {
          assert !SameModel(others[0], parent) && x == PivotEntry(w, parent, others[0], ev);
        }
      }
      if parent.auditable {
        forall j | 0 <= j < |others| && !SameModel(others[j], parent)
          ensures PivotEntry(w, parent, others[j], ev) in r
        {
          if j > 0 {
            assert others[1..][j - 1] == others[j];
          }
        }
      }
    }
  }

  /** Over all parents, each registration is the pivot entry of an
      auditable parent for a model that is not that parent. */
  lemma {:induction false} PivotRegistrationsSound(w: World, parents: seq<Entity>, all: seq<Entity>, ev: LifeEvent)
    ensures forall x :: x in PivotRegistrations(w, parents, all, ev) ==> FromPivotPair(w, parents, all, ev, x)
    decreases |parents|
  {
    if parents != [] {
      var first := OtherRegistrations(w, parents[0], all, ev);
      var rest := PivotRegistrations(w, parents[1..], all, ev);
      PivotRegistrationsSound(w, parents[1..], all, ev);
      forall x | x in first + rest
        ensures FromPivotPair(w, parents, all, ev, x)
      {
        if x in first {
          FromFirstParent(w, parents, all, ev, x);
        } else {
          FromLaterParent(w, parents, all, ev, x);
        }
      }
    }
  }

  /** `x` is the pivot entry of an auditable parent of the list for a model
      of `all` that is not that parent. */
  predicate FromPivotPair(w: World, parents: seq<Entity>, all: seq<Entity>, ev: LifeEvent, x: P.Registration) {
    exists i, j :: 0 <= i < |parents| && 0 <= j < |all| && parents[i].auditable && !SameModel(all[j], parents[i]) && x == PivotEntry(w, parents[i], all[j], ev)
  }

  lemma FromFirstParent(w: World, parents: seq<Entity>, all: seq<Entity>, ev: LifeEvent, x: P.Registration)
    requires parents != [] && x in OtherRegistrations(w, parents[0], all, ev)
    ensures FromPivotPair(w, parents, all, ev, x)
  {
    OtherRegistrationsAre(w, parents[0], all, ev);
    var j :| 0 <= j < |all| && !SameModel(all[j], parents[0]) && x == PivotEntry(w, parents[0], all[j], ev);
    assert parents[0].auditable;
  }

  lemma FromLaterParent(w: World, parents: seq<Entity>, all: seq<Entity>, ev: LifeEvent, x: P.Registration)
    requires parents != [] && FromPivotPair(w, parents[1..], all, ev, x)
    ensures FromPivotPair(w, parents, all, ev, x)
  {
    var i, j :| 0 <= i < |parents[1..]| && 0 <= j < |all| && parents[1..][i].auditable && !SameModel(all[j], parents[1..][i]) && x == PivotEntry(w, parents[1..][i], all[j], ev);
    assert parents[1..][i] == parents[i + 1];
  }

  /** Over all parents, every auditable parent gets the pivot entry for
      every model of the list that is not itself. */
  lemma {:induction false} PivotRegistrationsComplete(w: World, parents: seq<Entity>, all: seq<Entity>, ev: LifeEvent)
    ensures forall i, j :: 0 <= i < |parents| && 0 <= j < |all| && parents[i].auditable && !SameModel(all[j], parents[i]) ==>
      PivotEntry(w, parents[i], all[j], ev) in PivotRegistrations(w, parents, all, ev)
    decreases |parents|
  {
    if parents != [] {
      var first := OtherRegistrations(w, parents[0], all, ev);
      var rest := PivotRegistrations(w, parents[1..], all, ev);
      PivotRegistrationsComplete(w, parents[1..], all, ev);
      forall i, j | 0 <= i < |parents| && 0 <= j < |all| && parents[i].auditable && !SameModel(all[j], parents[i])
        ensures PivotEntry(w, parents[i], all[j], ev) in first + rest
      {
        if i == 0 {
          OtherRegistrationsAre(w, parents[0], all, ev);
        } else {
          assert parents[1..][i - 1] == parents[i];
        }
      }
    }
  }

  /** How many models of the list are not `parent`. */
  function CountOthers(parent: Entity, others: seq<Entity>): nat
    decreases |others|
  {
    if others == [] then 0
    else (if SameModel(others[0], parent) then 0 else 1) + CountOthers(parent, others[1..])
  }

  /** An auditable parent gets one registration per model that is not itself. */
  lemma {:induction false} OtherRegistrationsCount(w: World, parent: Entity, others: seq<Entity>, ev: LifeEvent)
    requires parent.auditable
    ensures |OtherRegistrations(w, parent, others, ev)| == CountOthers(parent, others)
    decreases |others|
  {
    if others != [] {
      OtherRegistrationsCount(w, parent, others[1..], ev);
    }
  }

  /** The models of a list are pairwise distinct. */
  predicate Distinct(ms: seq<Entity>) {
    forall i, j :: 0 <= i < j < |ms| ==> !SameModel(ms[i], ms[j])
  }

  /** In a list of distinct models, every other member counts for each one. */
  lemma {:induction false} CountOthersOfMember(ms: seq<Entity>, i: nat)
    requires Distinct(ms) && i < |ms|
    ensures CountOthers(ms[i], ms) == |ms| - 1
    decreases |ms|
  {
    if i == 0 {
      CountOthersOfNone(ms[0], ms[1..]);
    } else {
      assert Distinct(ms[1..]) by {
        forall a, b | 0 <= a < b < |ms[1..]| ensures !SameModel(ms[1..][a], ms[1..][b]) {
          assert ms[1..][a] == ms[a + 1] && ms[1..][b] == ms[b + 1];
        }
      }
      assert ms[1..][i - 1] == ms[i];
      CountOthersOfMember(ms[1..], i - 1);
      assert !SameModel(ms[0], ms[i]);
    }
  }

  /** A model none of the list matches counts all of it. */
  lemma {:induction false} CountOthersOfNone(parent: Entity, others: seq<Entity>)
    requires forall j :: 0 <= j < |others| ==> !SameModel(others[j], parent)
    ensures CountOthers(parent, others) == |others|
    decreases |others|
  {
    if others != [] {
      CountOthersOfNone(parent, others[1..]);
    }
  }

  /** With n distinct auditable parents a pivot event makes n * (n - 1)
      registrations: each parent hears about each other one. */
  lemma {:induction false} PivotRegistrationsCount(w: World, parents: seq<Entity>, all: seq<Entity>, ev: LifeEvent)
    requires Distinct(all)
    requires forall p :: p in parents ==> p in all && p.auditable
    ensures |PivotRegistrations(w, parents, all, ev)| == |parents| * (|all| - 1)
    decreases |parents|
  {
    if parents != [] {
      var rest := parents[1..];
      assert forall p :: p in rest ==> p in parents;
      PivotRegistrationsCount(w, rest, all, ev);
      OthersOfMember(w, parents[0], all, ev);
      MultiplyStep(|rest|, |all| - 1);
    }
  }

  /** A member of a list of distinct models, auditable, hears about all
      the others. */
  lemma OthersOfMember(w: World, parent: Entity, all: seq<Entity>, ev: LifeEvent)
    requires Distinct(all) && parent in all && parent.auditable
    ensures |OtherRegistrations(w, parent, all, ev)| == |all| - 1
  {
    OtherRegistrationsCount(w, parent, all, ev);
    var i :| 0 <= i < |all| && all[i] == parent;
    CountOthersOfMember(all, i);
  }

  lemma MultiplyStep(a: nat, n: int)
    ensures (a + 1) * n == n + a * n
  {
  }

  /** `pivotDetached`: the detached models, formatted, as removed from the
      relation, registered as RELATIONS_UPDATED; nothing for no ids, no
      rows or a failed lookup. It does not check whether the model is
      audited. */
  function PivotDetached(w: World, e: Entity, relation: string, ids: seq<Value>): (r: seq<P.Registration>)
    ensures |r| <= 1
    ensures r != [] <==> ids != [] && w.detachedRows(e, relation, ids).Some? && w.detachedRows(e, relation, ids).value != []
    ensures r != [] ==>
      var rows := w.detachedRows(e, relation, ids).value;
      && r[0].entity == e && r[0].action == RelationsUpdated && r[0].attributes == map[]
      && r[0].relations.Keys == {relation}
      && r[0].relations[relation].added == []
      && |r[0].relations[relation].removed| == |rows|
      && forall i :: 0 <= i < |rows| ==> r[0].relations[relation].removed[i] == FormatRelationData(rows[i])
  {
    if ids == [] then []
    else match w.detachedRows(e, relation, ids)
      case None => []
      case Some(rows) =>
        var removed := seq(|rows|, i requires 0 <= i < |rows| => FormatRelationData(rows[i]));
        if removed == [] then []
        else [P.Registration(e, RelationsUpdated, map[], map[relation := RelationChange([], removed)])]
  }

  /** The detach handler does not ask whether the model is audited. Only
      classes using the trait listen for the event (`bootAuditable`), but
      one whose auditing is switched off still gets its entry when the
      detached rows are found, where its own lifecycle events would
      register nothing. */
  lemma PivotDetachedIgnoresSwitches(w: World, e: Entity, relation: string, ids: seq<Value>)
    requires Configured(w, e) && !e.isPivot && e.auditable && !ShouldAudit(w, e)
    requires ids != [] && w.detachedRows(e, relation, ids).Some? && w.detachedRows(e, relation, ids).value != []
    ensures |PivotDetached(w, e, relation, ids)| == 1
    ensures OnCreated(w, e).registrations == [] && OnUpdated(w, e).registrations == []
    ensures OnDeleted(w, e).registrations == [] && OnRestored(w, e).registrations == []
  {
  }

  // ---------------------------------------------------------------------
  // The event handlers

  /** `created`: pivots go to `handlePivotEvent`; an audited model with
      `log_created` on registers its attributes against nothing, then
      notifies its parents. */
  function OnCreated(w: World, e: Entity): (r: Handled)
    requires Configured(w, e)
    ensures e.isPivot ==> r == Handled(HandlePivotEvent(w, e, WasCreated), e)
    ensures !e.isPivot && (!ShouldAudit(w, e) || !ShouldLog(Config(w, e), "log_created")) ==> r == Handled([], e)
  {
    if e.isPivot then Handled(HandlePivotEvent(w, e, WasCreated), e)
    else if !ShouldAudit(w, e) || !ShouldLog(Config(w, e), "log_created") then Handled([], e)
    else
      var h := ProcessChange(w, e, Created, map[], e.attributes);
      Handled(h.registrations + HandleParentLogging(w, h.entity, WasCreated), h.entity)
  }

  /** `updated`: an audited model with `log_updated` on and some
      non-excluded change, or pending relation changes, registers the
      difference between its original and current attributes. */
  function OnUpdated(w: World, e: Entity): (r: Handled)
    requires Configured(w, e)
    ensures !ShouldAudit(w, e) || !ShouldLog(Config(w, e), "log_updated") ==> r == Handled([], e)
    ensures var excluded := GetExcludedAttributes(Config(w, e));
      |Without(e.changes, excluded)| == 0 && !HasRelationChanges(e) ==> r == Handled([], e)
    ensures r.registrations != [] ==> |r.registrations| == 1 && r.registrations[0].action == Updated
  {
    if !ShouldAudit(w, e) || !ShouldLog(Config(w, e), "log_updated") then Handled([], e)
    else
      var excluded := GetExcludedAttributes(Config(w, e));
      var original := Without(e.original, excluded);
      var changes := Without(e.changes, excluded);
      if |changes| == 0 && !HasRelationChanges(e) then Handled([], e)
      else ProcessChange(w, e, Updated, OldAttributes(original, changes), e.attributes)
  }

  /** The old values `updated` reconstructs: the original attributes, with
      each changed field's original value (null when it had none). */
  function OldAttributes(original: Attributes, changes: Attributes): (r: Attributes)
    ensures r.Keys == original.Keys + changes.Keys
  {
    original + map k | k in changes :: Lookup(original, k)
  }

  /** The reconstruction changes no original value: it only adds a null
      for a changed field the original lacked. */
  lemma OldAttributesAgreeWithOriginal(original: Attributes, changes: Attributes)
    ensures forall k :: k in original ==> OldAttributes(original, changes)[k] == original[k]
    ensures forall k :: k in changes && k !in original ==> OldAttributes(original, changes)[k] == Null
  {
  }

  /** `deleted`: pivots go to `handlePivotEvent`; an audited model first
      notifies its parents, then, with `log_deleted` on, registers its
      attributes against nothing. */
  function OnDeleted(w: World, e: Entity): (r: Handled)
    requires Configured(w, e)
    ensures e.isPivot ==> r == Handled(HandlePivotEvent(w, e, WasDeleted), e)
    ensures !e.isPivot && !ShouldAudit(w, e) ==> r == Handled([], e)
  {
    if e.isPivot then Handled(HandlePivotEvent(w, e, WasDeleted), e)
    else if !ShouldAudit(w, e) then Handled([], e)
    else
      var parents := HandleParentLogging(w, e, WasDeleted);
      if !ShouldLog(Config(w, e), "log_deleted") then Handled(parents, e)
      else
        var h := ProcessChange(w, e, Deleted, e.attributes, map[]);
        Handled(parents + h.registrations, h.entity)
  }

  /** `restored`: an audited model with `log_restored` on registers its
      attributes against nothing. */
  function OnRestored(w: World, e: Entity): (r: Handled)
    requires Configured(w, e)
    ensures !ShouldAudit(w, e) || !ShouldLog(Config(w, e), "log_restored") ==> r == Handled([], e)
    ensures ShouldAudit(w, e) && ShouldLog(Config(w, e), "log_restored") ==>
      r == ProcessChange(w, e, Restored, map[], e.attributes)
  {
    if !ShouldAudit(w, e) || !ShouldLog(Config(w, e), "log_restored") then Handled([], e)
    else ProcessChange(w, e, Restored, map[], e.attributes)
  }

  // ---------------------------------------------------------------------
  // Properties of the handlers

  /** The fields a created (or restored) model reports: every attribute
      that is neither excluded nor a timestamp and whose value is not
      empty — null, false, 0, "" and [] count as no change from nothing. */
  function PresentFields(e: Entity, excluded: seq<string>): set<string> {
    set k | k in e.attributes && k !in excluded && k !in AuditLogger.Timestamps && !Empty(e.attributes[k])
  }

  /** Against no old attributes, the diff holds exactly the present fields. */
  lemma DiffAgainstNothing(encode: Value -> string, globalSensitive: seq<string>, attrs: Attributes,
                           excluded: seq<string>, sensitive: seq<string>)
    requires AuditLogger.CanonicalEncoder(encode)
    ensures AuditLogger.DiffOf(encode, globalSensitive, Without(map[], excluded), Without(attrs, excluded), excluded, sensitive).Keys
      == set k | k in attrs && k !in excluded && k !in AuditLogger.Timestamps && !Empty(attrs[k])
  {
    var n := Without(attrs, excluded);
    forall k | k in n
      ensures AuditLogger.Reported(encode, Without(map[], excluded), n, excluded, k) <==>
        k !in AuditLogger.Timestamps && !Empty(n[k])
    {
      AuditLogger.NullAgainstValue(encode, n[k]);
    }
  }

  /** Against no new attributes, the diff holds every non-excluded field,
      each going to null. */
  lemma DiffToNothing(encode: Value -> string, globalSensitive: seq<string>, attrs: Attributes,
                      excluded: seq<string>, sensitive: seq<string>)
    ensures var d := AuditLogger.DiffOf(encode, globalSensitive, Without(attrs, excluded), Without(map[], excluded), excluded, sensitive);
      && d.Keys == (set k | k in attrs && k !in excluded)
      && forall k :: k in d ==> d[k].newValue == Null
  {
  }

  /** A created model registers, first, its own entry, with exactly the
      present fields as its attribute diff, and then one notification per
      parent found. */
  lemma CreatedReportsPresentFields(w: World, e: Entity)
    requires Configured(w, e) && AuditLogger.CanonicalEncoder(w.encode)
    requires !e.isPivot && ShouldAudit(w, e) && ShouldLog(Config(w, e), "log_created")
    ensures var r := OnCreated(w, e);
      |r.registrations| >= 1
      && r.registrations[0].action == Created
      && r.registrations[0].attributes.Keys == PresentFields(e, GetExcludedAttributes(Config(w, e)))
      && r.registrations[1..] == HandleParentLogging(w, r.entity, WasCreated)
  {
    var cfg := Config(w, e);
    DiffAgainstNothing(w.encode, w.globalSensitive, e.attributes, GetExcludedAttributes(cfg),
                       GetSensitiveFields(w.globalSensitive, cfg));
    var h := ProcessChange(w, e, Created, map[], e.attributes);
    assert |h.registrations| == 1;
    assert OnCreated(w, e) == Handled(h.registrations + HandleParentLogging(w, h.entity, WasCreated), h.entity);
  }

  /** A deleted model with `log_deleted` on registers every non-excluded
      attribute, timestamps included, as going from its value to null —
      and it does so after notifying its parents. */
  lemma DeletedReportsEveryField(w: World, e: Entity)
    requires Configured(w, e)
    requires !e.isPivot && ShouldAudit(w, e) && ShouldLog(Config(w, e), "log_deleted")
    ensures var r := OnDeleted(w, e);
      var parents := HandleParentLogging(w, e, WasDeleted);
      var excluded := GetExcludedAttributes(Config(w, e));
      var own := r.registrations[|parents|..];
      |r.registrations| == |parents| + 1
      && r.registrations[..|parents|] == parents
      && own[0].action == Deleted
      && own[0].attributes.Keys == (set k | k in e.attributes && k !in excluded)
      && forall k :: k in own[0].attributes ==> own[0].attributes[k].newValue == Null
  {
    var cfg := Config(w, e);
    DiffToNothing(w.encode, w.globalSensitive, e.attributes, GetExcludedAttributes(cfg),
                  GetSensitiveFields(w.globalSensitive, cfg));
  }

  /** Switching `log_deleted` off silences the model's own entry but not
      its parents' notifications; switching `log_created` off silences
      both. */
  lemma DeletedNotifiesParentsWhenNotLogged(w: World, e: Entity)
    requires Configured(w, e)
    requires !e.isPivot && ShouldAudit(w, e)
    ensures !ShouldLog(Config(w, e), "log_deleted") ==>
      OnDeleted(w, e).registrations == HandleParentLogging(w, e, WasDeleted)
    ensures !ShouldLog(Config(w, e), "log_created") ==> OnCreated(w, e).registrations == []
  {
  }

  /** An update that touched only excluded fields and carries no relation
      changes registers nothing. */
  lemma UpdatedIgnoresExcludedOnly(w: World, e: Entity)
    requires Configured(w, e) && !HasRelationChanges(e)
    requires forall k :: k in e.changes ==> k in GetExcludedAttributes(Config(w, e))
    ensures OnUpdated(w, e) == Handled([], e)
  {
    assert Without(e.changes, GetExcludedAttributes(Config(w, e))).Keys == {};
  }

  /** Relation changes alone are enough for an update to register, and the
      model's pending relation changes are cleared once formatted. */
  lemma UpdatedWithRelationsOnly(w: World, e: Entity)
    requires Configured(w, e) && HasRelationChanges(e)
    requires ShouldAudit(w, e) && ShouldLog(Config(w, e), "log_updated")
    ensures var r := OnUpdated(w, e);
      |r.registrations| == 1
      && r.registrations[0].relations.Keys == e.relationChanges.value.Keys
      && r.entity.relationChanges.None?
  {
  }

  // ---------------------------------------------------------------------
  // Delivery

  /** Handing registrations to the store one after the other, collecting
      what it writes. */
  function Deliver(s: P.Store, regs: seq<P.Registration>, env: P.Env): (r: P.Step)
    ensures regs == [] ==> r == P.Step(s, [])
    decreases |regs|
  {
    if regs == [] then P.Step(s, [])
    else
      var first := P.RegisterChangeMergingFirst(s, regs[0], env);
      var rest := Deliver(first.store, regs[1..], env);
      P.Step(rest.store, first.emitted + rest.emitted)
  }

  /** Inside a transaction delivery writes nothing: every registration
      waits in the store, and each model's key is pending afterwards. */
  lemma {:induction false} DeliverInTransaction(s: P.Store, regs: seq<P.Registration>, env: P.Env)
    requires s.inTransaction
    ensures var r := Deliver(s, regs, env);
      && r.emitted == []
      && r.store.inTransaction
      && s.pending.Keys <= r.store.pending.Keys
      && forall i :: 0 <= i < |regs| ==> P.GetKey(regs[i].entity) in r.store.pending
    decreases |regs|
  {
    if regs != [] {
      var first := P.RegisterChangeMergingFirst(s, regs[0], env);
      DeliverInTransaction(first.store, regs[1..], env);
      forall i | 1 <= i < |regs|
        ensures P.GetKey(regs[i].entity) in Deliver(s, regs, env).store.pending
      {
        assert regs[1..][i - 1] == regs[i];
      }
    }
  }
}

=== FILE: audit_types.dfy ===
/** The data the audit core passes around: attribute bags and their diffs,
    relation references, per-model settings, the observed model itself and
    the request/authentication context. */
module AuditTypes {
  import opened Php

  /** An attribute bag, field name to value (`getAttributes()`, `getOriginal()`). */
  type Attributes = map<string, Value>

  /** One field's entry in an attribute diff: `['old' => …, 'new' => …]`. */
  datatype Change = Change(oldValue: Value, newValue: Value)

  type AttributeDiff = map<string, Change>

  /** A relation member as recorded in an entry: an associative array such
      as `{id, name, type}` or `{id}`. */
  type RelationRef = map<string, Value>

  /** `['added' => […], 'removed' => […]]` for one relation. */
  datatype RelationChange = RelationChange(added: seq<RelationRef>, removed: seq<RelationRef>)

  type RelationDiff = map<string, RelationChange>

  /** The related ids an application records on a model before saving it
      (`$model->relationChanges[$name]`; a missing list reads as empty). */
  datatype RelationIds = RelationIds(added: seq<Value>, removed: seq<Value>)

  /** A value of the per-model audit settings: null, a boolean switch, or a
      list of names (excluded attributes, sensitive fields, …). */
  datatype Setting = Unset | Flag(on: bool) | Names(names: seq<string>)

  type Settings = map<string, Setting>

  /** An Eloquent model as the audit core reads it. `attributes`,
      `original` and `changes` are `getAttributes()`, `getOriginal()` and
      `getChanges()`; `relationChanges` is the optional property of that
      name (None for null); `auditable` says whether the class uses the
      Auditable trait; `auditConfig` and `auditParents` are the optional
      properties of those names and `touches` is Eloquent's `$touches`. */
  datatype Entity = Entity(
    cls: string,
    key: Value,
    attributes: Attributes,
    original: Attributes,
    changes: Attributes,
    relationChanges: Option<map<string, RelationIds>>,
    isPivot: bool,
    auditable: bool,
    auditConfig: Option<Settings>,
    auditParents: Option<seq<string>>,
    touches: seq<string>)

  /** `$model->name`: an attribute read, null when absent. */
  function Property(e: Entity, name: string): Value {
    Lookup(e.attributes, name)
  }

  /** `$model->id`. */
  function Id(e: Entity): Value {
    Property(e, "id")
  }

  /** The parts of the current HTTP request the core reads. */
  datatype Request = Request(
    path: string,
    requestIdHeader: Option<string>,
    correlationIdHeader: Option<string>,
    ip: Option<string>,
    userAgent: Option<string>)

  /** The ambient context: whether the process runs in the console, the
      current request if any, and the authenticated user's id if any. */
  datatype Runtime = Runtime(console: bool, request: Option<Request>, user: Option<Value>)

  /** Who performed a change: `['type' => …, 'id' => …]`. */
  datatype Actor = Actor(actorType: string, id: Value)
}

=== FILE: auditable.dfy ===
/** The per-model side of auditing (src/Traits/Auditable.php): the merged
    audit settings, the lists and switches read from them, the per-class
    auditing flag with its suppression wrapper, and the parents to notify. */
module Auditable {
  import opened Php
  import opened AuditTypes

  /** The settings every auditable model starts from, before the
      application's `default_config` and the model's own `auditConfig`:
      the list settings and the four event switches, all on. */
  function BuiltInDefaults(): (s: Settings)
    ensures WellFormed(s)
    ensures "exclude_attributes" in s && s["exclude_attributes"] == Names(["created_at", "updated_at", "deleted_at"])
    ensures forall k :: k in LogSwitches ==> k in s && s[k] == Flag(true)
  {
    ListDefaults() + SwitchDefaults()
  }

  /** The list-valued built-in defaults. */
  function ListDefaults(): (s: Settings)
    ensures forall k :: k in s ==> s[k].Names? && k !in LogSwitches
    ensures "exclude_attributes" in s && s["exclude_attributes"] == Names(["created_at", "updated_at", "deleted_at"])
  {
    map[
      "exclude_attributes" := Names(["created_at", "updated_at", "deleted_at"]),
      "track_relations" := Names([]),
      "sensitive_fields" := Names([]),
      "json_fields_format" := Names([]),
      "date_fields_format" := Names([]),
      "relation_link_fields" := Names([]),
      "photo_relations" := Names([]),
      "document_relations" := Names([]),
      "number_formatters" := Names([]),
      "custom_views" := Names([])
    ]
  }

  /** The four event switches, all on. */
  function SwitchDefaults(): (s: Settings)
    ensures s.Keys == LogSwitches
    ensures forall k :: k in s ==> s[k] == Flag(true)
  {
    map["log_created" := Flag(true), "log_updated" := Flag(true), "log_deleted" := Flag(true), "log_restored" := Flag(true)]
  }

  /** The four event switches. */
  const LogSwitches: set<string> := {"log_created", "log_updated", "log_deleted", "log_restored"}

  /** The list-valued settings the core reads. */
  const ListSettings: set<string> := {"exclude_attributes", "track_relations", "sensitive_fields"}

  /** Settings whose values have the types the getters declare: a switch
      holds a boolean or null, a list setting a list or null. (Anything else
      makes the getter's declared return type throw.) */
  predicate WellFormed(s: Settings) {
    && (forall k :: k in s && k in LogSwitches ==> !s[k].Names?)
    && (forall k :: k in s && k in ListSettings ==> !s[k].Flag?)
  }

  /** `getAuditConfig`: `array_merge` of the built-in defaults, the
      application's `default_config` and the model's `auditConfig` (empty
      when the model declares none). */
  function GetAuditConfig(defaultConfig: Settings, e: Entity): (cfg: Settings)
    ensures cfg.Keys == BuiltInDefaults().Keys + defaultConfig.Keys + ModelConfig(e).Keys
    ensures forall k :: k in ModelConfig(e) ==> cfg[k] == ModelConfig(e)[k]
    ensures forall k :: k in defaultConfig && k !in ModelConfig(e) ==> cfg[k] == defaultConfig[k]
    ensures forall k :: k in BuiltInDefaults() && k !in defaultConfig && k !in ModelConfig(e) ==>
      cfg[k] == BuiltInDefaults()[k]
    ensures WellFormed(defaultConfig) && WellFormed(ModelConfig(e)) ==> WellFormed(cfg)
  {
    MergeWellFormed(BuiltInDefaults(), defaultConfig);
    MergeWellFormed(BuiltInDefaults() + defaultConfig, ModelConfig(e));
    BuiltInDefaults() + defaultConfig + ModelConfig(e)
  }

  /** The model's `auditConfig` property, or nothing when it has none. */
  function ModelConfig(e: Entity): Settings {
    if e.auditConfig.Some? then e.auditConfig.value else map[]
  }

  /** Overlaying well-formed settings gives well-formed settings. */
  lemma MergeWellFormed(a: Settings, b: Settings)
    ensures WellFormed(a) && WellFormed(b) ==> WellFormed(a + b)
  {
  }

  /** A setting the model does not override keeps the value of the earlier
      layers, and a model that overrides nothing sees the merged defaults. */
  lemma ModelConfigOverridesOnlyItsKeys(defaultConfig: Settings, e: Entity, k: string)
    requires k !in ModelConfig(e)
    ensures k in GetAuditConfig(defaultConfig, e) <==> k in (BuiltInDefaults() + defaultConfig)
    ensures k in GetAuditConfig(defaultConfig, e) ==>
      GetAuditConfig(defaultConfig, e)[k] == (BuiltInDefaults() + defaultConfig)[k]
  {
  }

  /** `$config[$key] ?? []` for a list setting. */
  function ListSetting(cfg: Settings, key: string): (r: seq<string>)
    requires WellFormed(cfg) && key in ListSettings
    ensures key in cfg && cfg[key].Names? ==> r == cfg[key].names
    ensures key !in cfg || cfg[key].Unset? ==> r == []
  {
    if key in cfg && cfg[key].Names? then cfg[key].names else []
  }

  /** `getExcludedAttributes`. */
  function GetExcludedAttributes(cfg: Settings): (r: seq<string>)
    requires WellFormed(cfg)
    ensures r == ListSetting(cfg, "exclude_attributes")
  {
    ListSetting(cfg, "exclude_attributes")
  }

  /** `getSensitiveFields`: the global list followed by the model's own —
      the model adds to the global list and never replaces it. */
  function GetSensitiveFields(globalSensitive: seq<string>, cfg: Settings): (r: seq<string>)
    requires WellFormed(cfg)
    ensures |r| >= |globalSensitive| && r[..|globalSensitive|] == globalSensitive
    ensures r[|globalSensitive|..] == ListSetting(cfg, "sensitive_fields")
    ensures forall f :: f in globalSensitive ==> f in r
  {
    globalSensitive + ListSetting(cfg, "sensitive_fields")
  }

  /** `shouldLogCreated` and its three siblings: the switch, true when it
      is missing or null. */
  function ShouldLog(cfg: Settings, switch: string): (r: bool)
    requires WellFormed(cfg) && switch in LogSwitches
    ensures r <==> switch !in cfg || !cfg[switch].Flag? || cfg[switch].on
  {
    if switch in cfg && cfg[switch].Flag? then cfg[switch].on else true
  }

  /** With no layer overriding a switch, the built-in default (true) holds;
      only an explicit `false` in a later layer turns an event off. */
  lemma ShouldLogDefaultsToTrue(defaultConfig: Settings, e: Entity, switch: string)
    requires WellFormed(defaultConfig) && WellFormed(ModelConfig(e)) && switch in LogSwitches
    requires switch !in ModelConfig(e) && switch !in defaultConfig
    ensures ShouldLog(GetAuditConfig(defaultConfig, e), switch)
  {
    assert GetAuditConfig(defaultConfig, e)[switch] == Flag(true);
  }

  /** `getAuditParents`: the declared `auditParents`, else `$touches`. */
  function GetAuditParents(e: Entity): (r: seq<string>)
    ensures e.auditParents.Some? ==> r == e.auditParents.value
    ensures e.auditParents.None? ==> r == e.touches
  {
    if e.auditParents.Some? then e.auditParents.value else e.touches
  }

  // ---------------------------------------------------------------------
  // The auditing flag

  /** The static `$auditingEnabled` of each class whose declaration uses
      the trait (a trait's static property is per using class); a class
      not in the map has the initial value, true. A subclass that only
      inherits the trait shares its parent's entry, which the map does not
      track. */
  type Flags = map<string, bool>

  /** `isAuditingEnabled`. */
  function IsAuditingEnabled(flags: Flags, cls: string): (r: bool)
    ensures cls !in flags ==> r
    ensures cls in flags ==> r == flags[cls]
  {
    if cls in flags then flags[cls] else true
  }

  /** `disableAuditing`: this class off, the others untouched. */
  function DisableAuditing(flags: Flags, cls: string): (r: Flags)
    ensures !IsAuditingEnabled(r, cls)
    ensures forall c :: c != cls ==> IsAuditingEnabled(r, c) == IsAuditingEnabled(flags, c)
  {
    flags[cls := false]
  }

  /** `enableAuditing`: this class on, the others untouched. */
  function EnableAuditing(flags: Flags, cls: string): (r: Flags)
    ensures IsAuditingEnabled(r, cls)
    ensures forall c :: c != cls ==> IsAuditingEnabled(r, c) == IsAuditingEnabled(flags, c)
  {
    flags[cls := true]
  }

  /** How a callback ends: with a value or an exception, in either case
      with the flags it leaves behind. */
  datatype Outcome<T> = Returned(value: T, flags: Flags) | Threw(error: string, flags: Flags)

  function WithFlags<T>(o: Outcome<T>, f: Flags): Outcome<T> {
    match o
    case Returned(v, _) => Returned(v, f)
    case Threw(e, _) => Threw(e, f)
  }

  /** `withoutAuditing`: run the callback with the class's flag off; in the
      `finally`, switch it back on only if it was on before. The callback's
      value or exception passes through unchanged. */
  function WithoutAuditing<T>(flags: Flags, cls: string, callback: Flags -> Outcome<T>): (r: Outcome<T>)
    ensures var inner := callback(DisableAuditing(flags, cls));
      && r.Returned? == inner.Returned?
      && (r.Returned? ==> r.value == inner.value)
      && (r.Threw? ==> r.error == inner.error)
      && IsAuditingEnabled(r.flags, cls) == (IsAuditingEnabled(flags, cls) || IsAuditingEnabled(inner.flags, cls))
      && forall c :: c != cls ==> IsAuditingEnabled(r.flags, c) == IsAuditingEnabled(inner.flags, c)
  {
    var wasEnabled := IsAuditingEnabled(flags, cls);
    var inner := callback(DisableAuditing(flags, cls));
    if wasEnabled then WithFlags(inner, EnableAuditing(inner.flags, cls)) else inner
  }

  /** The callback sees auditing off for its class. */
  lemma CallbackRunsDisabled<T>(flags: Flags, cls: string, callback: Flags -> Outcome<T>)
    ensures !IsAuditingEnabled(DisableAuditing(flags, cls), cls)
  {
  }

  /** Returning or throwing, the flag ends as it was before the call —
      provided the callback itself does not switch the class back on while
      it was off. */
  lemma WithoutAuditingRestoresFlag<T>(flags: Flags, cls: string, callback: Flags -> Outcome<T>)
    requires !IsAuditingEnabled(callback(DisableAuditing(flags, cls)).flags, cls)
    ensures IsAuditingEnabled(WithoutAuditing(flags, cls, callback).flags, cls) == IsAuditingEnabled(flags, cls)
  {
  }

  /** The proviso matters: a callback that enables auditing while it was
      disabled before the call leaves it enabled. */
  lemma EnablingInsideLeaksOut(cls: string)
    ensures var callback := (f: Flags) => Returned(0, EnableAuditing(f, cls));
      var before := DisableAuditing(map[], cls);
      !IsAuditingEnabled(before, cls) && IsAuditingEnabled(WithoutAuditing(before, cls, callback).flags, cls)
  {
  }
}

=== FILE: glob.dfy ===
/** The wildcard matcher behind `isSensitiveField`
    (src/Services/Audit/AuditLogger.php:131-137). A pattern containing `*`
    is turned into an anchored, case-insensitive regular expression
    `/^…$/i` by `str_replace(['*', '.'], ['.*', '\.'], $pattern)`. Two
    readings are modelled: the expression that call actually builds, in
    which every `*` ends up as `\.*` and so matches a run of literal dots,
    and the wildcard the comment promises, in which `*` matches any run of
    characters and `.` a literal dot. */
module Glob {
  import opened Php

  /** The two readings of a pattern. */
  datatype Reading = AsWritten | AsIntended

  /** `preg_match` of the pattern's expression against `s`, under a reading. */
  predicate Matches(reading: Reading, p: string, s: string) {
    if reading.AsWritten? then PregMatch(RegexOf(p), s) else PatternMatches(p, s)
  }

  predicate NoLineFeed(s: string) {
    forall i :: 0 <= i < |s| ==> s[i] != '\n'
  }

  /** Two strings equal up to ASCII letter case. */
  predicate EqualIgnoringCase(a: string, b: string) {
    Lower(a) == Lower(b)
  }

  // ---------------------------------------------------------------------
  // The intended wildcard

  /** The whole of `s` matches `p`: `*` matches any run of characters
      other than a line feed (PCRE's `.` without the `s` flag), every other
      pattern character matches itself up to letter case. */
  predicate MatchesFrom(p: string, s: string)
    decreases |p| + |s|
  {
    if |p| == 0 then |s| == 0
    else if p[0] == '*' then
      MatchesFrom(p[1..], s) || (|s| > 0 && s[0] != '\n' && MatchesFrom(p, s[1..]))
    else
      |s| > 0 && LowerChar(p[0]) == LowerChar(s[0]) && MatchesFrom(p[1..], s[1..])
  }

  /** `preg_match('/^' . $regex . '$/i', $s)`: the closing `$` also matches
      just before a final line feed. */
  predicate PatternMatches(p: string, s: string) {
    MatchesFrom(p, s) || (|s| > 0 && s[|s| - 1] == '\n' && MatchesFrom(p, s[..|s| - 1]))
  }

  /** `s` contains `w` as a substring, up to letter case. */
  ghost predicate ContainsIgnoringCase(s: string, w: string) {
    exists i :: OccursAt(s, w, i)
  }

  predicate OccursAt(s: string, w: string, i: int) {
    0 <= i <= |s| - |w| && EqualIgnoringCase(s[i..i + |w|], w)
  }

  // ---------------------------------------------------------------------
  // A leading star

  lemma {:induction false} StarSkips(q: string, s: string, i: nat)
    requires i <= |s| && NoLineFeed(s[..i]) && MatchesFrom(q, s[i..])
    ensures MatchesFrom("*" + q, s)
    decreases i
  {
    assert ("*" + q)[1..] == q;
    if i > 0 {
      assert s[0] == s[..i][0];
      assert s[1..][..i - 1] == s[..i][1..];
      assert s[1..][i - 1..] == s[i..];
      StarSkips(q, s[1..], i - 1);
    }
  }

  lemma {:induction false} StarSplits(q: string, s: string) returns (i: nat)
    requires MatchesFrom("*" + q, s)
    ensures i <= |s| && NoLineFeed(s[..i]) && MatchesFrom(q, s[i..])
    decreases |s|
  {
    assert ("*" + q)[1..] == q;
    if MatchesFrom(q, s) {
      i := 0;
    } else {
      var j := StarSplits(q, s[1..]);
      i := j + 1;
      assert s[i..] == s[1..][j..];
      assert s[..i] == [s[0]] + s[1..][..j];
    }
  }

  // ---------------------------------------------------------------------
  // A literal prefix

  lemma {:induction false} LiteralPrefix(w: string, q: string, s: string)
    requires '*' !in w
    ensures MatchesFrom(w + q, s) <==>
      |w| <= |s| && EqualIgnoringCase(s[..|w|], w) && MatchesFrom(q, s[|w|..])
    decreases |w|
  {
    if |w| > 0 {
      assert (w + q)[0] == w[0];
      assert (w + q)[1..] == w[1..] + q;
      if |s| > 0 {
        LiteralPrefix(w[1..], q, s[1..]);
        if |w| <= |s| {
          assert s[1..][|w| - 1..] == s[|w|..];
          assert s[1..][..|w| - 1] == s[..|w|][1..];
          assert Lower(s[..|w|]) == [LowerChar(s[0])] + Lower(s[1..][..|w| - 1]);
          assert Lower(w) == [LowerChar(w[0])] + Lower(w[1..]);
        }
      }
    } else {
      assert w + q == q;
      assert Lower(s[..0]) == Lower(w);
    }
  }

  /** A trailing star matches exactly the runs without a line feed. */
  lemma {:induction false} TrailingStar(s: string)
    ensures MatchesFrom("*", s) <==> NoLineFeed(s)
    decreases |s|
  {
    assert "*"[1..] == "";
    if |s| > 0 {
      TrailingStar(s[1..]);
      assert NoLineFeed(s) <==> s[0] != '\n' && NoLineFeed(s[1..]);
    }
  }

  /** The default patterns `*password*`, `*secret*`, `*token*`, `*key*` are
      substring tests: on a single-line field name, `*w*` matches exactly
      when `w` occurs in the name, ignoring letter case. */
  lemma InfixPatternIsSubstringTest(w: string, s: string)
    requires '*' !in w && NoLineFeed(s)
    ensures PatternMatches("*" + w + "*", s) <==> ContainsIgnoringCase(s, w)
  {
    var p := "*" + w + "*";
    assert p == "*" + (w + "*");
    if MatchesFrom(p, s) {
      var i := StarSplits(w + "*", s);
      LiteralPrefix(w, "*", s[i..]);
      assert s[i..][..|w|] == s[i..i + |w|];
      assert OccursAt(s, w, i);
    }
    if ContainsIgnoringCase(s, w) {
      var i :| OccursAt(s, w, i);
      assert s[i..][..|w|] == s[i..i + |w|];
      assert s[i..][|w|..] == s[i + |w|..];
      TrailingStar(s[i + |w|..]);
      LiteralPrefix(w, "*", s[i..]);
      StarSkips(w + "*", s, i);
    }
  }

  // ---------------------------------------------------------------------
  // The expression as the code builds it

  /** `str_replace($c, $sub, $s)` for a one-character search string. */
  function ReplaceChar(s: string, c: char, sub: string): (r: string)
    ensures c !in s ==> r == s
    ensures |sub| >= 1 ==> |r| >= |s|
    decreases |s|
  {
    if |s| == 0 then [] else (if s[0] == c then sub else [s[0]]) + ReplaceChar(s[1..], c, sub)
  }

  lemma {:induction false} ReplaceCharConcat(a: string, b: string, c: char, sub: string)
    ensures ReplaceChar(a + b, c, sub) == ReplaceChar(a, c, sub) + ReplaceChar(b, c, sub)
    decreases |a|
  {
    if |a| > 0 {
      assert (a + b)[1..] == a[1..] + b;
      ReplaceCharConcat(a[1..], b, c, sub);
    } else {
      assert a + b == b;
    }
  }

  /** `str_replace(['*', '.'], ['.*', '\.'], $p)`: PHP applies the pairs
      one after the other to the running result, so the dot each star was
      replaced with is escaped by the second pair. */
  function RegexOf(p: string): (r: string)
    ensures '*' !in p && '.' !in p ==> r == p
    ensures |r| >= |p|
  {
    ReplaceChar(ReplaceChar(p, '*', ".*"), '.', "\\.")
  }

  /** A wildcard around a plain word becomes `\.*word\.*`. */
  lemma RegexOfInfix(w: string)
    requires '*' !in w && '.' !in w
    ensures RegexOf("*" + w + "*") == "\\.*" + w + "\\.*"
  {
    ReplaceCharConcat("*" + w, "*", '*', ".*");
    ReplaceCharConcat("*", w, '*', ".*");
    assert ReplaceChar("*", '*', ".*") == ".*";
    var once := ".*" + w + ".*";
    assert ReplaceChar("*" + w + "*", '*', ".*") == once;
    ReplaceCharConcat(".*" + w, ".*", '.', "\\.");
    ReplaceCharConcat(".*", w, '.', "\\.");
    assert ReplaceChar(".*", '.', "\\.") == "\\.*";
  }

  /** One atom of an expression. */
  datatype Atom = AnyChar | Literal(c: char)

  predicate AtomMatches(a: Atom, ch: char) {
    match a
    case AnyChar => ch != '\n'
    case Literal(c) => LowerChar(c) == LowerChar(ch)
  }

  /** The whole of `s` matches the expression `r` under the `i` flag. An
      atom is `\x` (the character x), `.` (any character but a line feed)
      or any other character (itself); an atom followed by `*` matches any
      run of it. A lone trailing backslash makes the expression invalid,
      and `preg_match` then reports no match. */
  predicate RegexMatches(r: string, s: string)
    decreases |r| + |s|
  {
    if |r| == 0 then |s| == 0
    else if r[0] == '\\' && |r| == 1 then false
    else
      var width := if r[0] == '\\' then 2 else 1;
      var atom := if r[0] == '\\' then Literal(r[1]) else if r[0] == '.' then AnyChar else Literal(r[0]);
      var rest := r[width..];
      if |rest| > 0 && rest[0] == '*' then
        RegexMatches(rest[1..], s) || (|s| > 0 && AtomMatches(atom, s[0]) && RegexMatches(r, s[1..]))
      else
        |s| > 0 && AtomMatches(atom, s[0]) && RegexMatches(rest, s[1..])
  }

  /** `preg_match('/^' . $r . '$/i', $s)`: the closing `$` also matches
      just before a final line feed. */
  predicate PregMatch(r: string, s: string) {
    RegexMatches(r, s) || (|s| > 0 && s[|s| - 1] == '\n' && RegexMatches(r, s[..|s| - 1]))
  }

  /** An expression without stars and escapes matches only subjects of its
      own length: each character is one atom that takes one character. */
  lemma {:induction false} FixedWidthMatch(r: string, s: string)
    requires '*' !in r && '\\' !in r && RegexMatches(r, s)
    ensures |s| == |r|
    decreases |r|
  {
    if |r| > 0 {
      assert '*' !in r[1..] && '\\' !in r[1..];
      FixedWidthMatch(r[1..], s[1..]);
    }
  }

  /** On a single-line subject `preg_match` is the anchored match; the `$`
      only adds one trailing line feed. */
  lemma PregMatchSingleLine(r: string, s: string)
    ensures RegexMatches(r, s) ==> PregMatch(r, s)
    ensures NoLineFeed(s) ==> (PregMatch(r, s) <==> RegexMatches(r, s))
  {
  }

  predicate AllDots(s: string) {
    forall i :: 0 <= i < |s| ==> s[i] == '.'
  }

  /** `s` is `w`, up to letter case, between two runs of dots, the first
      `i` characters long. */
  predicate DottedAt(s: string, w: string, i: int) {
    0 <= i && i + |w| <= |s| && AllDots(s[..i]) && EqualIgnoringCase(s[i..i + |w|], w) && AllDots(s[i + |w|..])
  }

  lemma DotStarStep(q: string, s: string)
    ensures RegexMatches("\\.*" + q, s) <==>
      RegexMatches(q, s) || (|s| > 0 && s[0] == '.' && RegexMatches("\\.*" + q, s[1..]))
  {
    var r := "\\.*" + q;
    assert r[0] == '\\' && r[1] == '.' && r[2..][0] == '*' && r[2..][1..] == q;
    if |s| > 0 {
      assert LowerChar(s[0]) == '.' <==> s[0] == '.';
    }
  }

  lemma {:induction false} DotStarSkips(q: string, s: string, i: nat)
    requires i <= |s| && AllDots(s[..i]) && RegexMatches(q, s[i..])
    ensures RegexMatches("\\.*" + q, s)
    decreases i
  {
    DotStarStep(q, s);
    if i > 0 {
      assert s[0] == s[..i][0];
      assert s[1..][..i - 1] == s[..i][1..];
      assert s[1..][i - 1..] == s[i..];
      DotStarSkips(q, s[1..], i - 1);
    }
  }

  lemma {:induction false} DotStarSplits(q: string, s: string) returns (i: nat)
    requires RegexMatches("\\.*" + q, s)
    ensures i <= |s| && AllDots(s[..i]) && RegexMatches(q, s[i..])
    decreases |s|
  {
    DotStarStep(q, s);
    if RegexMatches(q, s) {
      i := 0;
    } else {
      var j := DotStarSplits(q, s[1..]);
      i := j + 1;
      assert s[i..] == s[1..][j..];
      assert s[..i] == [s[0]] + s[1..][..j];
    }
  }

  /** A trailing `\.*` matches exactly the runs of dots. */
  lemma {:induction false} TrailingDotStar(s: string)
    ensures RegexMatches("\\.*", s) <==> AllDots(s)
    decreases |s|
  {
    assert "\\.*" == "\\.*" + "";
    DotStarStep("", s);
    if |s| > 0 {
      TrailingDotStar(s[1..]);
      assert AllDots(s) <==> s[0] == '.' && AllDots(s[1..]);
    }
  }

  /** A word without expression characters matches itself up to case. */
  lemma {:induction false} RegexLiteralPrefix(w: string, q: string, s: string)
    requires '*' !in w && '.' !in w && '\\' !in w
    requires |q| > 0 ==> q[0] != '*'
    ensures RegexMatches(w + q, s) <==>
      |w| <= |s| && EqualIgnoringCase(s[..|w|], w) && RegexMatches(q, s[|w|..])
    decreases |w|
  {
    if |w| > 0 {
      var r := w + q;
      assert r[0] == w[0] && r[1..] == w[1..] + q;
      assert |w| > 1 ==> r[1..][0] == w[1];
      if |s| > 0 {
        RegexLiteralPrefix(w[1..], q, s[1..]);
        if |w| <= |s| {
          assert s[1..][|w| - 1..] == s[|w|..];
          assert s[1..][..|w| - 1] == s[..|w|][1..];
          assert Lower(s[..|w|]) == [LowerChar(s[0])] + Lower(s[1..][..|w| - 1]);
          assert Lower(w) == [LowerChar(w[0])] + Lower(w[1..]);
        }
      }
    } else {
      assert w + q == q;
      assert Lower(s[..0]) == Lower(w);
    }
  }

  /** As the code builds it, `*w*` on a single-line name matches exactly
      when the name is `w`, up to letter case, with nothing but dots around
      it: `*token*` accepts `token` and `..token.`, but not `access_token`. */
  lemma InfixPatternAsWritten(w: string, s: string)
    requires '*' !in w && '.' !in w && '\\' !in w && NoLineFeed(s)
    ensures Matches(AsWritten, "*" + w + "*", s) <==> exists i :: DottedAt(s, w, i)
  {
    RegexOfInfix(w);
    var r := "\\.*" + w + "\\.*";
    assert r == "\\.*" + (w + "\\.*");
    assert |s| > 0 ==> s[|s| - 1] != '\n';
    if RegexMatches(r, s) {
      var i := DotStarSplits(w + "\\.*", s);
      RegexLiteralPrefix(w, "\\.*", s[i..]);
      assert s[i..][..|w|] == s[i..i + |w|];
      assert s[i..][|w|..] == s[i + |w|..];
      TrailingDotStar(s[i + |w|..]);
      assert DottedAt(s, w, i);
    }
    if exists i :: DottedAt(s, w, i) {
      var i :| DottedAt(s, w, i);
      assert s[i..][..|w|] == s[i..i + |w|];
      assert s[i..][|w|..] == s[i + |w|..];
      TrailingDotStar(s[i + |w|..]);
      RegexLiteralPrefix(w, "\\.*", s[i..]);
      DotStarSkips(w + "\\.*", s, i);
    }
  }

  /** A name that is longer than `w` and neither starts nor ends with a dot
      is never `w` between runs of dots. */
  lemma NotDotted(s: string, w: string)
    requires |s| > |w| && s[0] != '.' && s[|s| - 1] != '.'
    ensures !exists i :: DottedAt(s, w, i)
  {
  }
}

=== FILE: json_diff.dfy ===
/** The structured diff of two JSON documents
    (src/Transformers/JsonDiffTransformer.php): a tree of added, removed,
    modified and nested-modified entries, flattened into labelled rows.
    `json_decode` is the parameter `decode` and `formatValue` the parameter
    `render`. */
module JsonDiff {
  import opened Php

  /** A decoded JSON object or list. */
  type Tree = map<string, Value>

  // ---------------------------------------------------------------------
  // Key order

  /** `strcmp` order on keys: lexicographic by character. */
  predicate LexLe(a: string, b: string) {
    |a| == 0 || (|b| > 0 && (a[0] < b[0] || (a[0] == b[0] && LexLe(a[1..], b[1..]))))
  }

  lemma LexLeAntisymmetric(a: string, b: string)
    requires LexLe(a, b) && LexLe(b, a)
    ensures a == b
  {
    if |a| > 0 && |b| > 0 {
      LexLeAntisymmetric(a[1..], b[1..]);
    }
  }

  lemma LexLeTotal(a: string, b: string)
    ensures LexLe(a, b) || LexLe(b, a)
  {
    if |a| > 0 && |b| > 0 {
      LexLeTotal(a[1..], b[1..]);
    }
  }

  lemma LexLeTransitive(a: string, b: string, c: string)
    requires LexLe(a, b) && LexLe(b, c)
    ensures LexLe(a, c)
  {
    if |a| > 0 && |b| > 0 && |c| > 0 && a[0] == b[0] && b[0] == c[0] {
      LexLeTransitive(a[1..], b[1..], c[1..]);
    }
  }

  predicate IsLeast(x: string, s: set<string>) {
    x in s && forall y | y in s :: LexLe(x, y)
  }

  lemma LeastExists(s: set<string>) returns (m: string)
    requires s != {}
    ensures IsLeast(m, s)
  {
    var x :| x in s;
    if s == {x} {
      m := x;
      LexLeTotal(x, x);
    } else {
      var rest := LeastExists(s - {x});
      LexLeTotal(x, rest);
      if LexLe(x, rest) {
        m := x;
        forall y | y in s ensures LexLe(x, y) {
          if y != x { LexLeTransitive(x, rest, y); } else { LexLeTotal(x, x); }
        }
      } else {
        m := rest;
      }
    }
  }

  lemma HasLeast(s: set<string>)
    requires s != {}
    ensures exists m :: IsLeast(m, s)
  {
    var m := LeastExists(s);
  }

  /** The first key of a non-empty set in `strcmp` order. */
  function Least(s: set<string>): (r: string)
    requires s != {}
    ensures IsLeast(r, s)
  {
    HasLeast(s);
    assert forall a, b | IsLeast(a, s) && IsLeast(b, s) :: a == b by {
      forall a, b | IsLeast(a, s) && IsLeast(b, s) ensures a == b {
        LexLeAntisymmetric(a, b);
      }
    }
    var x :| IsLeast(x, s); x
  }

  /** `sort` of a set of keys: each key once, in ascending order. */
  function SortedKeys(s: set<string>): (r: seq<string>)
    ensures |r| == |s|
    ensures forall i :: 0 <= i < |r| ==> r[i] in s
    ensures forall k :: k in s ==> k in r
    ensures forall i, j :: 0 <= i < j < |r| ==> LexLe(r[i], r[j]) && r[i] != r[j]
    decreases s
  {
    if s == {} then []
    else
      var m := Least(s);
      var rest := SortedKeys(s - {m});
      SortedCons(m, s, rest);
      [m] + rest
  }

  /** Putting the least key in front of the sorted others sorts the set. */
  lemma SortedCons(m: string, s: set<string>, rest: seq<string>)
    requires IsLeast(m, s)
    requires |rest| == |s - {m}|
    requires forall i :: 0 <= i < |rest| ==> rest[i] in s - {m}
    requires forall k :: k in s - {m} ==> k in rest
    requires forall i, j :: 0 <= i < j < |rest| ==> LexLe(rest[i], rest[j]) && rest[i] != rest[j]
    ensures var r := [m] + rest;
      && |r| == |s|
      && (forall i :: 0 <= i < |r| ==> r[i] in s)
      && (forall k :: k in s ==> k in r)
      && (forall i, j :: 0 <= i < j < |r| ==> LexLe(r[i], r[j]) && r[i] != r[j])
  {
    var r := [m] + rest;
    forall i, j | 0 <= i < j < |r| ensures LexLe(r[i], r[j]) && r[i] != r[j] {
      if i == 0 {
        assert r[j] == rest[j - 1] && rest[j - 1] in s - {m};
      } else {
        assert r[i] == rest[i - 1] && r[j] == rest[j - 1];
      }
    }
  }

  // ---------------------------------------------------------------------
  // recursiveDiff

  /** One key's entry in a diff. `ModifiedNested` holds the non-empty diff
      of two arrays. */
  datatype Entry =
    | Added(newValue: Value)
    | Removed(oldValue: Value)
    | Modified(oldValue: Value, newValue: Value)
    | ModifiedNested(diff: map<string, Entry>)

  /** The entry `recursiveDiff` records for key `k`, if any: added when only
      the new side has it, removed when only the old side has it, the
      nested diff of two arrays when that is non-empty, and modified when
      the values are not identical (`!==`). */
  function EntryAt(before: Tree, after: Tree, k: string): (r: Option<Entry>)
    ensures r.Some? ==> k in before || k in after
    ensures k in before && k in after && before[k] == after[k] && !before[k].Arr? ==> r.None?
    ensures r.Some? && r.value.ModifiedNested? ==> |r.value.diff| > 0
    decreases Arr(before), 0
  {
    if k !in before then
      if k in after then Some(Added(after[k])) else None
    else if k !in after then
      Some(Removed(before[k]))
    else if before[k].Arr? && after[k].Arr? then
      var nested := RecursiveDiff(before[k].entries, after[k].entries);
      if |nested| > 0 then Some(ModifiedNested(nested)) else None
    else if before[k] != after[k] then
      Some(Modified(before[k], after[k]))
    else
      None
  }

  /** `recursiveDiff`: the entries of all keys of either side. */
  function RecursiveDiff(before: Tree, after: Tree): (d: map<string, Entry>)
    ensures d.Keys <= before.Keys + after.Keys
    ensures forall k :: k in after && k !in before ==> k in d && d[k] == Added(after[k])
    ensures forall k :: k in before && k !in after ==> k in d && d[k] == Removed(before[k])
    ensures forall k :: k in before && k in after && !(before[k].Arr? && after[k].Arr?) ==>
      (k in d <==> before[k] != after[k]) && (k in d ==> d[k] == Modified(before[k], after[k]))
    ensures forall k :: k in d && d[k].ModifiedNested? ==> k in before && k in after && before[k].Arr? && after[k].Arr?
    decreases Arr(before), 1
  {
    map k | k in before.Keys + after.Keys && EntryAt(before, after, k).Some? :: EntryAt(before, after, k).value
  }

  /** Two arrays at the same key produce an entry exactly when their own
      diff is non-empty, and then it is that diff. */
  lemma NestedEntry(before: Tree, after: Tree, k: string)
    requires k in before && k in after && before[k].Arr? && after[k].Arr?
    ensures var nested := RecursiveDiff(before[k].entries, after[k].entries);
      (k in RecursiveDiff(before, after) <==> |nested| > 0)
      && (k in RecursiveDiff(before, after) ==> RecursiveDiff(before, after)[k] == ModifiedNested(nested))
  {
  }

  /** A document compared with itself has no differences. */
  lemma {:induction false} DiffOfSelf(x: Tree)
    ensures RecursiveDiff(x, x) == map[]
    decreases Arr(x)
  {
    forall k | k in x
      ensures EntryAt(x, x, k).None?
    {
      if x[k].Arr? {
        DiffOfSelf(x[k].entries);
      }
    }
  }

  /** The keys of a diff are the keys with an entry. */
  lemma DiffKey(before: Tree, after: Tree, k: string)
    ensures k in RecursiveDiff(before, after) <==> k in before.Keys + after.Keys && EntryAt(before, after, k).Some?
    ensures k in RecursiveDiff(before, after) ==> RecursiveDiff(before, after)[k] == EntryAt(before, after, k).value
  {
  }

  /** … and only a document compared with itself: an empty diff means the
      two sides are equal. */
  lemma {:induction false} EmptyDiffMeansEqual(before: Tree, after: Tree)
    requires RecursiveDiff(before, after) == map[]
    ensures before == after
    decreases Arr(before)
  {
    forall k | k in before.Keys + after.Keys
      ensures k in before && k in after && before[k] == after[k]
    {
      DiffKey(before, after, k);
      if k in before && k in after && before[k].Arr? && after[k].Arr? {
        EmptyDiffMeansEqual(before[k].entries, after[k].entries);
      }
    }
    assert before.Keys == after.Keys;
  }

  // ---------------------------------------------------------------------
  // What a diff means

  /** Applying a diff to the old document: removed keys go, added and
      modified keys take their new value, nested entries are applied to the
      old array at that key. */
  function Patch(before: Tree, d: map<string, Entry>): (r: Tree)
    decreases ModifiedNested(d), 1
  {
    map k | k in before.Keys + d.Keys && !(k in d && d[k].Removed?) :: PatchAt(before, d, k)
  }

  function PatchAt(before: Tree, d: map<string, Entry>, k: string): Value
    requires k in before.Keys + d.Keys
    decreases ModifiedNested(d), 0
  {
    if k !in d then before[k]
    else match d[k]
      case Added(v) => v
      case Modified(_, v) => v
      case Removed(_) => Null
      case ModifiedNested(nested) =>
        Arr(Patch(if k in before && before[k].Arr? then before[k].entries else map[], nested))
  }

  /** The keys and values of an applied diff. */
  lemma PatchKey(before: Tree, d: map<string, Entry>, k: string)
    ensures k in Patch(before, d) <==> k in before.Keys + d.Keys && !(k in d && d[k].Removed?)
    ensures k in Patch(before, d) ==> Patch(before, d)[k] == PatchAt(before, d, k)
  {
  }

  /** The diff says everything about the change: applied to the old
      document it gives back the new one. */
  lemma {:induction false} PatchRoundTrip(before: Tree, after: Tree)
    ensures Patch(before, RecursiveDiff(before, after)) == after
    decreases Arr(before)
  {
    var d := RecursiveDiff(before, after);
    var p := Patch(before, d);
    forall k | k in before.Keys + after.Keys
      ensures k in p <==> k in after
      ensures k in after ==> p[k] == after[k]
    {
      PatchKey(before, d, k);
      if k in before && k in after && before[k].Arr? && after[k].Arr? {
        NestedEntry(before, after, k);
        var nested := RecursiveDiff(before[k].entries, after[k].entries);
        if |nested| > 0 {
          PatchRoundTrip(before[k].entries, after[k].entries);
        } else {
          EmptyDiffMeansEqual(before[k].entries, after[k].entries);
        }
      }
    }
    forall k | k in p ensures k in before.Keys + after.Keys {
      PatchKey(before, d, k);
    }
    assert p.Keys == after.Keys;
  }

  /** The nested entries of a diff `recursiveDiff` builds are never empty. */
  predicate Compact(d: map<string, Entry>)
    decreases ModifiedNested(d)
  {
    forall k :: k in d && d[k].ModifiedNested? ==> |d[k].diff| > 0 && Compact(d[k].diff)
  }

  lemma {:induction false} DiffIsCompact(before: Tree, after: Tree)
    ensures Compact(RecursiveDiff(before, after))
    decreases Arr(before)
  {
    var d := RecursiveDiff(before, after);
    forall k | k in d && d[k].ModifiedNested?
      ensures |d[k].diff| > 0 && Compact(d[k].diff)
    {
      NestedEntry(before, after, k);
      DiffIsCompact(before[k].entries, after[k].entries);
    }
  }

  // ---------------------------------------------------------------------
  // flattenDiff

  /** One row of the flattened diff: the dotted path and the rendered old
      and new values, None standing for null. */
  datatype Row = Row(rowLabel: string, oldText: Option<string>, newText: Option<string>)

  /** How `flattenDiff` joins its prefix and a key. As written, it tests
      the prefix for truthiness, so a prefix "0" counts as no prefix; as
      intended, it joins whenever there is a prefix. The top level has no
      prefix (the empty string in the source). */
  datatype LabelRule = AsWritten | AsIntended

  function Label(rule: LabelRule, prefix: Option<string>, k: string): string {
    match prefix
    case None => k
    case Some(p) =>
      if rule == AsIntended || Truthy(Str(p)) then p + "." + k else k
  }

  /** The row of a leaf entry: added rows have no old value, removed rows
      no new value, modified rows both. */
  function RowFor(rowLabel: string, e: Entry, render: Value -> string): (r: Row)
    requires !e.ModifiedNested?
    ensures r.rowLabel == rowLabel
    ensures r.oldText.None? <==> e.Added?
    ensures r.newText.None? <==> e.Removed?
    ensures e.Added? ==> r.newText == Some(render(e.newValue))
    ensures e.Removed? ==> r.oldText == Some(render(e.oldValue))
    ensures e.Modified? ==> r.oldText == Some(render(e.oldValue)) && r.newText == Some(render(e.newValue))
  {
    match e
    case Added(v) => Row(rowLabel, None, Some(render(v)))
    case Removed(v) => Row(rowLabel, Some(render(v)), None)
    case Modified(o, n) => Row(rowLabel, Some(render(o)), Some(render(n)))
  }

  /** The loop of `flattenDiff` over the given keys of a diff: the rows
      of each key in turn. */
  function Flatten(rule: LabelRule, d: map<string, Entry>, keys: seq<string>, prefix: Option<string>,
                   render: Value -> string): seq<Row>
    requires forall i :: 0 <= i < |keys| ==> keys[i] in d
    decreases ModifiedNested(d), |keys|
  {
    if keys == [] then []
    else KeyRows(rule, d, keys[0], prefix, render) + Flatten(rule, d, keys[1..], prefix, render)
  }

  /** The rows of one key: a leaf gives one row, a nested entry the rows
      of its own diff under the extended prefix, in sorted key order. */
  function KeyRows(rule: LabelRule, d: map<string, Entry>, k: string, prefix: Option<string>,
                   render: Value -> string): seq<Row>
    requires k in d
    decreases ModifiedNested(d), 0
  {
    var rowLabel := Label(rule, prefix, k);
    if d[k].ModifiedNested? then Flatten(rule, d[k].diff, SortedKeys(d[k].diff.Keys), Some(rowLabel), render)
    else [RowFor(rowLabel, d[k], render)]
  }

  /** The number of leaf entries under the given keys. */
  function LeafCount(d: map<string, Entry>, keys: seq<string>): nat
    requires forall i :: 0 <= i < |keys| ==> keys[i] in d
    decreases ModifiedNested(d), |keys|
  {
    if keys == [] then 0 else KeyLeaves(d, keys[0]) + LeafCount(d, keys[1..])
  }

  /** The number of leaf entries under one key. */
  function KeyLeaves(d: map<string, Entry>, k: string): nat
    requires k in d
    decreases ModifiedNested(d), 0
  {
    if d[k].ModifiedNested? then LeafCount(d[k].diff, SortedKeys(d[k].diff.Keys)) else 1
  }

  /** `flattenDiff` as written. */
  function FlattenDiffAsWritten(d: map<string, Entry>, prefix: Option<string>, render: Value -> string): (r: seq<Row>)
    ensures |r| == LeafCount(d, SortedKeys(d.Keys))
  {
    FlattenRowCount(AsWritten, d, SortedKeys(d.Keys), prefix, render);
    Flatten(AsWritten, d, SortedKeys(d.Keys), prefix, render)
  }

  /** `flattenDiff` with the prefix test corrected. */
  function FlattenDiff(d: map<string, Entry>, prefix: Option<string>, render: Value -> string): (r: seq<Row>)
    ensures |r| == LeafCount(d, SortedKeys(d.Keys))
    ensures Texts(r) == Texts(FlattenDiffAsWritten(d, prefix, render))
  {
    FlattenRowCount(AsIntended, d, SortedKeys(d.Keys), prefix, render);
    FlattenTextsAgree(AsIntended, prefix, AsWritten, prefix, d, SortedKeys(d.Keys), render);
    Flatten(AsIntended, d, SortedKeys(d.Keys), prefix, render)
  }

  /** Either way, one row per leaf. */
  lemma {:induction false} FlattenRowCount(rule: LabelRule, d: map<string, Entry>, keys: seq<string>,
                                           prefix: Option<string>, render: Value -> string)
    requires forall i :: 0 <= i < |keys| ==> keys[i] in d
    ensures |Flatten(rule, d, keys, prefix, render)| == LeafCount(d, keys)
    decreases ModifiedNested(d), |keys|
  {
    if keys != [] {
      KeyRowCount(rule, d, keys[0], prefix, render);
      FlattenRowCount(rule, d, keys[1..], prefix, render);
    }
  }

  lemma {:induction false} KeyRowCount(rule: LabelRule, d: map<string, Entry>, k: string,
                                       prefix: Option<string>, render: Value -> string)
    requires k in d
    ensures |KeyRows(rule, d, k, prefix, render)| == KeyLeaves(d, k)
    decreases ModifiedNested(d), 0
  {
    if d[k].ModifiedNested? {
      FlattenRowCount(rule, d[k].diff, SortedKeys(d[k].diff.Keys), Some(Label(rule, prefix, k)), render);
    }
  }

  /** In a compact diff every key holds at least one leaf. */
  lemma {:induction false} LeafCountCoversKeys(d: map<string, Entry>, keys: seq<string>)
    requires Compact(d)
    requires forall i :: 0 <= i < |keys| ==> keys[i] in d
    ensures LeafCount(d, keys) >= |keys|
    decreases ModifiedNested(d), |keys|
  {
    if keys != [] {
      KeyLeavesPositive(d, keys[0]);
      LeafCountCoversKeys(d, keys[1..]);
    }
  }

  lemma {:induction false} KeyLeavesPositive(d: map<string, Entry>, k: string)
    requires Compact(d) && k in d
    ensures KeyLeaves(d, k) >= 1
    decreases ModifiedNested(d), 0
  {
    if d[k].ModifiedNested? {
      var inner := d[k].diff;
      var keys := SortedKeys(inner.Keys);
      assert |keys| >= 1;
      LeafCountCoversKeys(inner, keys);
    }
  }

  /** The rows with every label put under prefix `p`. */
  function Relabel(rows: seq<Row>, p: string): (r: seq<Row>)
    ensures |r| == |rows|
    ensures forall i :: 0 <= i < |r| ==> r[i] == rows[i].(rowLabel := p + "." + rows[i].rowLabel)
  {
    seq(|rows|, i requires 0 <= i < |rows| => rows[i].(rowLabel := p + "." + rows[i].rowLabel))
  }

  lemma RelabelConcat(a: seq<Row>, b: seq<Row>, p: string)
    ensures Relabel(a + b, p) == Relabel(a, p) + Relabel(b, p)
  {
  }

  /** The prefix `p` put in front of a prefix, or alone. */
  function Under(p: string, prefix: Option<string>): Option<string> {
    Some(if prefix.Some? then p + "." + prefix.value else p)
  }

  /** The intended labelling composes: flattening under `p` gives the rows
      of flattening without it, each label put under `p`. */
  lemma {:induction false} FlattenUnderPrefix(d: map<string, Entry>, keys: seq<string>, p: string,
                                              prefix: Option<string>, render: Value -> string)
    requires forall i :: 0 <= i < |keys| ==> keys[i] in d
    ensures Flatten(AsIntended, d, keys, Under(p, prefix), render) == Relabel(Flatten(AsIntended, d, keys, prefix, render), p)
    decreases ModifiedNested(d), |keys|
  {
    if keys != [] {
      KeyRowsUnderPrefix(d, keys[0], p, prefix, render);
      FlattenUnderPrefix(d, keys[1..], p, prefix, render);
      RelabelConcat(KeyRows(AsIntended, d, keys[0], prefix, render), Flatten(AsIntended, d, keys[1..], prefix, render), p);
    }
  }

  lemma {:induction false} KeyRowsUnderPrefix(d: map<string, Entry>, k: string, p: string,
                                              prefix: Option<string>, render: Value -> string)
    requires k in d
    ensures KeyRows(AsIntended, d, k, Under(p, prefix), render) == Relabel(KeyRows(AsIntended, d, k, prefix, render), p)
    decreases ModifiedNested(d), 0
  {
    var rowLabel := Label(AsIntended, prefix, k);
    assert Label(AsIntended, Under(p, prefix), k) == p + "." + rowLabel;
    if d[k].ModifiedNested? {
      assert Under(p, Some(rowLabel)) == Some(p + "." + rowLabel);
      FlattenUnderPrefix(d[k].diff, SortedKeys(d[k].diff.Keys), p, Some(rowLabel), render);
    } else {
      assert RowFor(p + "." + rowLabel, d[k], render) == RowFor(rowLabel, d[k], render).(rowLabel := p + "." + rowLabel);
    }
  }

  /** So every row flattened under a prefix carries it, followed by a dot. */
  lemma LabelsCarryPrefix(d: map<string, Entry>, p: string, render: Value -> string)
    ensures forall r :: r in FlattenDiff(d, Some(p), render) ==> StartsWith(r.rowLabel, p + ".")
  {
    FlattenUnderPrefix(d, SortedKeys(d.Keys), p, None, render);
    var rows := FlattenDiff(d, None, render);
    forall r | r in FlattenDiff(d, Some(p), render) ensures StartsWith(r.rowLabel, p + ".") {
      var i :| 0 <= i < |Relabel(rows, p)| && Relabel(rows, p)[i] == r;
      assert r.rowLabel == (p + ".") + rows[i].rowLabel;
    }
  }

  /** As written the labelling does not compose: under the prefix "0" a
      leaf keeps its bare key. */
  lemma ZeroPrefixIsDropped(render: Value -> string)
    ensures var d := map["a" := Modified(Int(1), Int(2))];
      && Flatten(AsWritten, d, ["a"], Some("0"), render)[0].rowLabel == "a"
      && Relabel(Flatten(AsWritten, d, ["a"], None, render), "0")[0].rowLabel == "0.a"
  {
    var d := map["a" := Modified(Int(1), Int(2))];
    assert Flatten(AsWritten, d, [], Some("0"), render) == [];
    assert Flatten(AsWritten, d, [], None, render) == [];
  }

  // ---------------------------------------------------------------------
  // transformDiff

  /** `normalizeArray`: null is empty, an array is itself, a string is its
      decoding when that is an array, anything else is empty. */
  function NormalizeArray(v: Value, decode: string -> Option<Value>): (r: Tree)
    ensures v.Null? ==> r == map[]
    ensures v.Arr? ==> r == v.entries
    ensures v.Str? && decode(v.s).Some? && decode(v.s).value.Arr? ==> r == decode(v.s).value.entries
    ensures v.Str? && !(decode(v.s).Some? && decode(v.s).value.Arr?) ==> r == map[]
    ensures v.Bool? || v.Int? ==> r == map[]
  {
    match v
    case Arr(m) => m
    case Str(s) =>
      (match decode(s)
       case Some(Arr(m)) => m
       case _ => map[])
    case _ => map[]
  }

  /** `transformDiff` with the prefix test of `flattenDiff` corrected: null
      when the two normalised sides are both empty or have no differences,
      else the rows of their diff. */
  function TransformDiff(before: Value, after: Value, decode: string -> Option<Value>, render: Value -> string)
    : (r: Option<seq<Row>>)
    ensures var a := NormalizeArray(before, decode);
      var b := NormalizeArray(after, decode);
      (r.None? <==> a == b)
      && (r.Some? ==> r.value == FlattenDiff(RecursiveDiff(a, b), None, render) && |r.value| >= 1)
  {
    var a := NormalizeArray(before, decode);
    var b := NormalizeArray(after, decode);
    if |a| == 0 && |b| == 0 then None
    else
      var d := RecursiveDiff(a, b);
      if |d| == 0 then
        EmptyDiffMeansEqual(a, b);
        None
      else
        DiffOfSelf(a);
        DiffIsCompact(a, b);
        var keys := SortedKeys(d.Keys);
        FlattenRowCount(AsIntended, d, keys, None, render);
        LeafCountCoversKeys(d, keys);
        Some(FlattenDiff(d, None, render))
  }

  /** The source's `transformDiff`, with `flattenDiff` as written: null
      when the two normalised sides are both empty or have no differences,
      else the rows of their diff. */
  function TransformDiffAsWritten(before: Value, after: Value, decode: string -> Option<Value>, render: Value -> string)
    : (r: Option<seq<Row>>)
    ensures var a := NormalizeArray(before, decode);
      var b := NormalizeArray(after, decode);
      (r.None? <==> a == b)
      && (r.Some? ==> r.value == FlattenDiffAsWritten(RecursiveDiff(a, b), None, render) && |r.value| >= 1)
  {
    var a := NormalizeArray(before, decode);
    var b := NormalizeArray(after, decode);
    if |a| == 0 && |b| == 0 then None
    else
      var d := RecursiveDiff(a, b);
      if |d| == 0 then
        EmptyDiffMeansEqual(a, b);
        None
      else
        DiffOfSelf(a);
        DiffIsCompact(a, b);
        var keys := SortedKeys(d.Keys);
        FlattenRowCount(AsWritten, d, keys, None, render);
        LeafCountCoversKeys(d, keys);
        Some(FlattenDiffAsWritten(d, None, render))
  }

  /** What a row shows besides its label. */
  function Texts(rows: seq<Row>): seq<(Option<string>, Option<string>)> {
    seq(|rows|, i requires 0 <= i < |rows| => (rows[i].oldText, rows[i].newText))
  }

  lemma TextsConcat(a: seq<Row>, b: seq<Row>)
    ensures Texts(a + b) == Texts(a) + Texts(b)
  {
    assert forall i :: 0 <= i < |a + b| ==> Texts(a + b)[i] == (Texts(a) + Texts(b))[i];
  }

  /** The label rule and the prefix decide only the labels: flattening the
      same keys either way gives the same rows, in the same order, with the
      same old and new texts. */
  lemma {:induction false} FlattenTextsAgree(rule1: LabelRule, prefix1: Option<string>, rule2: LabelRule,
                                             prefix2: Option<string>, d: map<string, Entry>, keys: seq<string>,
                                             render: Value -> string)
    requires forall i :: 0 <= i < |keys| ==> keys[i] in d
    ensures Texts(Flatten(rule1, d, keys, prefix1, render)) == Texts(Flatten(rule2, d, keys, prefix2, render))
    decreases ModifiedNested(d), |keys|
  {
    if keys != [] {
      KeyTextsAgree(rule1, prefix1, rule2, prefix2, d, keys[0], render);
      FlattenTextsAgree(rule1, prefix1, rule2, prefix2, d, keys[1..], render);
      TextsConcat(KeyRows(rule1, d, keys[0], prefix1, render), Flatten(rule1, d, keys[1..], prefix1, render));
      TextsConcat(KeyRows(rule2, d, keys[0], prefix2, render), Flatten(rule2, d, keys[1..], prefix2, render));
    }
  }

  lemma {:induction false} KeyTextsAgree(rule1: LabelRule, prefix1: Option<string>, rule2: LabelRule,
                                         prefix2: Option<string>, d: map<string, Entry>, k: string,
                                         render: Value -> string)
    requires k in d
    ensures Texts(KeyRows(rule1, d, k, prefix1, render)) == Texts(KeyRows(rule2, d, k, prefix2, render))
    decreases ModifiedNested(d), 0
  {
    if d[k].ModifiedNested? {
      FlattenTextsAgree(rule1, Some(Label(rule1, prefix1, k)), rule2, Some(Label(rule2, prefix2, k)),
                        d[k].diff, SortedKeys(d[k].diff.Keys), render);
    }
  }

  /** The prefix test of `flattenDiff` changes nothing but labels: both readings
      of `transformDiff` are null for the same documents, and otherwise
      give the same rows up to their labels. */
  lemma TransformReadingsAgree(before: Value, after: Value, decode: string -> Option<Value>, render: Value -> string)
    ensures TransformDiffAsWritten(before, after, decode, render).None? <==> TransformDiff(before, after, decode, render).None?
    ensures TransformDiff(before, after, decode, render).Some? ==>
      Texts(TransformDiffAsWritten(before, after, decode, render).value) == Texts(TransformDiff(before, after, decode, render).value)
  {
    var a := NormalizeArray(before, decode);
    var b := NormalizeArray(after, decode);
    var written := TransformDiffAsWritten(before, after, decode, render);
    var corrected := TransformDiff(before, after, decode, render);
    assert written.None? <==> a == b;
    if corrected.Some? {
      var d := RecursiveDiff(a, b);
      FlattenTextsAgree(AsWritten, None, AsIntended, None, d, SortedKeys(d.Keys), render);
      assert written.value == FlattenDiffAsWritten(d, None, render);
      assert corrected.value == FlattenDiff(d, None, render);
    }
  }

  /** A diff with a single key flattens to the rows of that key. */
  lemma SingleKeyRows(rule: LabelRule, d: map<string, Entry>, k: string, prefix: Option<string>,
                      render: Value -> string)
    requires d.Keys == {k}
    ensures Flatten(rule, d, SortedKeys(d.Keys), prefix, render) == KeyRows(rule, d, k, prefix, render)
  {
    var keys := SortedKeys(d.Keys);
    assert keys == [k];
    assert Flatten(rule, d, keys[1..], prefix, render) == [];
  }

  /** Documents with a non-empty diff are different and not both empty. */
  lemma DifferingSides(a: Tree, b: Tree)
    requires RecursiveDiff(a, b) != map[]
    ensures a != b && |RecursiveDiff(a, b)| > 0 && !(|a| == 0 && |b| == 0)
  {
    DiffOfSelf(a);
    assert RecursiveDiff(a, b) != RecursiveDiff(a, a);
  }

  /** Two documents that differ are transformed, either way, into the rows
      of their diff. */
  lemma TransformOfDiffering(a: Tree, b: Tree, decode: string -> Option<Value>, render: Value -> string)
    requires RecursiveDiff(a, b) != map[]
    ensures TransformDiffAsWritten(Arr(a), Arr(b), decode, render) == Some(FlattenDiffAsWritten(RecursiveDiff(a, b), None, render))
    ensures TransformDiff(Arr(a), Arr(b), decode, render) == Some(FlattenDiff(RecursiveDiff(a, b), None, render))
  {
    DifferingSides(a, b);
    assert NormalizeArray(Arr(a), decode) == a && NormalizeArray(Arr(b), decode) == b;
  }

  /** The documents `[{"a": 1}]` and `[{"a": 2}]`, and their diff. */
  const ListBefore: Tree := map["0" := Arr(map["a" := Int(1)])]
  const ListAfter: Tree := map["0" := Arr(map["a" := Int(2)])]
  const ListInner: map<string, Entry> := map["a" := Modified(Int(1), Int(2))]
  const ListDiff: map<string, Entry> := map["0" := ModifiedNested(ListInner)]

  /** Documents whose only key is `k` have the diff of that key alone. */
  lemma SingleKeyDiff(before: Tree, after: Tree, k: string, e: Entry)
    requires before.Keys + after.Keys == {k} && EntryAt(before, after, k) == Some(e)
    ensures RecursiveDiff(before, after) == map[k := e]
  {
    DiffKey(before, after, k);
    assert RecursiveDiff(before, after).Keys == {k};
  }

  lemma InnerListDiff()
    ensures RecursiveDiff(map["a" := Int(1)], map["a" := Int(2)]) == ListInner
  {
    SingleKeyDiff(map["a" := Int(1)], map["a" := Int(2)], "a", Modified(Int(1), Int(2)));
  }

  lemma FirstListElementDiff()
    ensures RecursiveDiff(ListBefore, ListAfter) == ListDiff
  {
    InnerListDiff();
    assert |ListInner| > 0;
    SingleKeyDiff(ListBefore, ListAfter, "0", ModifiedNested(ListInner));
  }

  /** As written, the one row loses the list index … */
  lemma FirstListElementRowsAsWritten(render: Value -> string)
    ensures FlattenDiffAsWritten(ListDiff, None, render) == [RowFor("a", Modified(Int(1), Int(2)), render)]
  {
    SingleKeyRows(AsWritten, ListDiff, "0", None, render);
    SingleKeyRows(AsWritten, ListInner, "a", Some("0"), render);
    assert Label(AsWritten, Some("0"), "a") == "a";
  }

  /** … as intended, it keeps it. */
  lemma FirstListElementRows(render: Value -> string)
    ensures FlattenDiff(ListDiff, None, render) == [RowFor("0.a", Modified(Int(1), Int(2)), render)]
  {
    SingleKeyRows(AsIntended, ListDiff, "0", None, render);
    SingleKeyRows(AsIntended, ListInner, "a", Some("0"), render);
    assert Label(AsIntended, Some("0"), "a") == "0.a";
  }

  /** A change inside the first element of a JSON list: as written the
      single row is labelled "a", as intended "0.a". */
  lemma FirstListElementLosesItsIndex(decode: string -> Option<Value>, render: Value -> string)
    ensures TransformDiffAsWritten(Arr(ListBefore), Arr(ListAfter), decode, render) ==
      Some([RowFor("a", Modified(Int(1), Int(2)), render)])
    ensures TransformDiff(Arr(ListBefore), Arr(ListAfter), decode, render) ==
      Some([RowFor("0.a", Modified(Int(1), Int(2)), render)])
  {
    FirstListElementDiff();
    assert "0" in ListDiff;
    TransformOfDiffering(ListBefore, ListAfter, decode, render);
    FirstListElementRowsAsWritten(render);
    FirstListElementRows(render);
  }
}

=== FILE: pending_audit.dfy ===
/** The pending-change aggregator (src/Services/Audit/PendingAudit.php): one
    pending record per model key, into which every change registered for
    that model is merged until the record is flushed as an audit entry.
    The singleton becomes an explicit `Store` value threaded through the
    operations; the database transaction becomes a flag plus the list of
    keys whose after-commit flush callbacks are waiting. */
module PendingAudit {
  import opened Php
  import opened AuditTypes
  import opened AuditActions
  import AuditLogger
  import B = AuditLogBuilder

  /** The arguments of one `registerChange` call. */
  datatype Registration = Registration(entity: Entity, action: AuditAction, attributes: AttributeDiff, relations: RelationDiff)

  /** A pending record: the model first registered under the key, the
      merged action, attribute diff and relation lists. */
  datatype PendingRecord = PendingRecord(entity: Entity, action: AuditAction, attributes: AttributeDiff, relations: RelationDiff)

  /** The store, the transaction flag, and the keys whose after-commit
      flush callbacks are registered (in registration order). */
  datatype Store = Store(pending: map<string, PendingRecord>, inTransaction: bool, deferred: seq<string>)

  /** What a flush needs from its surroundings: the request/auth context
      and whether the queue is enabled. */
  datatype Env = Env(rt: Runtime, queueEnabled: bool)

  /** The store after an operation and the entries it emitted, in order. */
  datatype Step = Step(store: Store, emitted: seq<B.Dispatch>)

  const EmptyStore := Store(map[], false, [])

  // ---------------------------------------------------------------------
  // getKey

  /** `getKey`: the class name, a colon, and the primary key as a string. */
  function GetKey(e: Entity): (k: string)
    ensures |k| > |e.cls| && k[..|e.cls|] == e.cls && k[|e.cls|] == ':'
    ensures k[|e.cls| + 1..] == ToStringCast(e.key)
  {
    e.cls + ":" + ToStringCast(e.key)
  }

  /** Class names have no colon, so two models share a key exactly when
      they have the same class and the same primary key text. */
  lemma GetKeyInjective(a: Entity, b: Entity)
    requires ':' !in a.cls && ':' !in b.cls
    ensures GetKey(a) == GetKey(b) <==> a.cls == b.cls && ToStringCast(a.key) == ToStringCast(b.key)
  {
    var ka, kb := GetKey(a), GetKey(b);
    if ka == kb {
      assert |a.cls| == |b.cls|;
      assert a.cls == ka[..|a.cls|] == kb[..|b.cls|] == b.cls;
    }
  }

  // ---------------------------------------------------------------------
  // Merging

  /** The action merge: an incoming DELETED always wins; an incoming
      CREATED replaces anything but CREATED and DELETED; every other
      incoming action leaves the current one. */
  function MergeAction(current: AuditAction, incoming: AuditAction): (r: AuditAction)
    ensures incoming == Deleted ==> r == Deleted
    ensures incoming == Created && current != Deleted ==> r == Created
    ensures incoming != Deleted && incoming != Created ==> r == current
    ensures current == Deleted ==> r == Deleted
  {
    if incoming == Deleted then Deleted
    else if current != Created && current != Deleted then
      if incoming == Created then Created else current
    else current
  }

  /** The action of a record built from a first action and later ones. */
  function FoldActions(first: AuditAction, later: seq<AuditAction>): AuditAction
    decreases |later|
  {
    if |later| == 0 then first else FoldActions(MergeAction(first, later[0]), later[1..])
  }

  /** DELETED absorbs, CREATED upgrades: the merged action is DELETED if any
      registration was, else CREATED if any was, else the first action. */
  lemma {:induction false} FoldActionsClosedForm(first: AuditAction, later: seq<AuditAction>)
    ensures FoldActions(first, later) ==
      if first == Deleted || Deleted in later then Deleted
      else if first == Created || Created in later then Created
      else first
    decreases |later|
  {
    if |later| > 0 {
      FoldActionsClosedForm(MergeAction(first, later[0]), later[1..]);
      assert later == [later[0]] + later[1..];
    }
  }

  /** The attribute merge: a new field is taken as is; for a field already
      present the first `old` is kept and the incoming `new` wins. No field
      is ever dropped. */
  function MergeAttributes(current: AttributeDiff, incoming: AttributeDiff): (r: AttributeDiff)
    ensures r.Keys == current.Keys + incoming.Keys
    ensures forall f :: f in current ==> r[f].oldValue == current[f].oldValue
    ensures forall f :: f in incoming ==> r[f].newValue == incoming[f].newValue
    ensures forall f :: f in current && f !in incoming ==> r[f] == current[f]
    ensures forall f :: f !in current && f in incoming ==> r[f] == incoming[f]
  {
    map f | f in current.Keys + incoming.Keys ::
      if f in current && f in incoming then Change(current[f].oldValue, incoming[f].newValue)
      else if f in current then current[f]
      else incoming[f]
  }

  /** Merging three diffs in either grouping gives the same diff: the
      oldest `old` and the newest `new` survive. */
  lemma MergeAttributesAssociative(a: AttributeDiff, b: AttributeDiff, c: AttributeDiff)
    ensures MergeAttributes(MergeAttributes(a, b), c) == MergeAttributes(a, MergeAttributes(b, c))
  {
    var l := MergeAttributes(MergeAttributes(a, b), c);
    var r := MergeAttributes(a, MergeAttributes(b, c));
    forall f | f in l.Keys
      ensures l[f] == r[f]
    {
      if f in a {
        assert l[f].oldValue == a[f].oldValue == r[f].oldValue;
      } else if f in b {
        assert l[f].oldValue == b[f].oldValue == r[f].oldValue;
      }
      if f in c {
        assert l[f].newValue == c[f].newValue == r[f].newValue;
      } else if f in b {
        assert l[f].newValue == b[f].newValue == r[f].newValue;
      }
    }
  }

  /** A relation's entry before a merge: empty when the name is new. */
  function Prior(rels: RelationDiff, name: string): RelationChange {
    if name in rels then rels[name] else RelationChange([], [])
  }

  /** Appending one relation entry's lists to another's. */
  function Concat(x: RelationChange, y: RelationChange): RelationChange {
    RelationChange(x.added + y.added, x.removed + y.removed)
  }

  /** The relation merge: every incoming name gets an entry (empty at
      first, even if the incoming lists are empty) and the incoming lists
      are appended in arrival order, without de-duplication. */
  function MergeRelations(current: RelationDiff, incoming: RelationDiff): (r: RelationDiff)
    ensures r.Keys == current.Keys + incoming.Keys
    ensures forall n :: n in r ==> r[n] == Concat(Prior(current, n), Prior(incoming, n))
  {
    map n | n in current.Keys + incoming.Keys ::
      if n in incoming then
        var p := Prior(current, n);
        RelationChange(p.added + incoming[n].added, p.removed + incoming[n].removed)
      else
        assert current[n].added + [] == current[n].added && current[n].removed + [] == current[n].removed;
        current[n]
  }

  /** After a merge, each name's lists are the earlier lists followed by
      the incoming ones. */
  lemma PriorOfMerge(current: RelationDiff, incoming: RelationDiff, n: string)
    ensures Prior(MergeRelations(current, incoming), n) == Concat(Prior(current, n), Prior(incoming, n))
  {
  }

  lemma ConcatAssociative(x: RelationChange, y: RelationChange, z: RelationChange)
    ensures Concat(Concat(x, y), z) == Concat(x, Concat(y, z))
  {
    assert x.added + y.added + z.added == x.added + (y.added + z.added);
    assert x.removed + y.removed + z.removed == x.removed + (y.removed + z.removed);
  }

  lemma MergeRelationsAssociativeAt(a: RelationDiff, b: RelationDiff, c: RelationDiff, n: string)
    requires n in a || n in b || n in c
    ensures MergeRelations(MergeRelations(a, b), c)[n] == MergeRelations(a, MergeRelations(b, c))[n]
  {
    PriorOfMerge(a, b, n);
    PriorOfMerge(b, c, n);
    ConcatAssociative(Prior(a, n), Prior(b, n), Prior(c, n));
  }

  /** Relation merging is associative too: lists are concatenated in
      registration order whatever the grouping. */
  lemma MergeRelationsAssociative(a: RelationDiff, b: RelationDiff, c: RelationDiff)
    ensures MergeRelations(MergeRelations(a, b), c) == MergeRelations(a, MergeRelations(b, c))
  {
    var l := MergeRelations(MergeRelations(a, b), c);
    var r := MergeRelations(a, MergeRelations(b, c));
    forall n ensures n in l <==> n in r {
    }
    forall n | n in l.Keys
      ensures l[n] == r[n]
    {
      MergeRelationsAssociativeAt(a, b, c, n);
    }
  }

  /** Merging one registration into a pending record (the part of
      `registerChange` after the seeding). The model kept is the first. */
  function Absorb(rec: PendingRecord, reg: Registration): (r: PendingRecord)
    ensures r.entity == rec.entity
    ensures r.action == MergeAction(rec.action, reg.action)
    ensures r.attributes == MergeAttributes(rec.attributes, reg.attributes)
    ensures r.relations == MergeRelations(rec.relations, reg.relations)
  {
    PendingRecord(rec.entity, MergeAction(rec.action, reg.action),
      MergeAttributes(rec.attributes, reg.attributes), MergeRelations(rec.relations, reg.relations))
  }

  /** The record a first registration seeds: its model and action, no
      attributes and no relations. */
  function Seed(reg: Registration): (r: PendingRecord)
    ensures r.attributes == map[] && r.relations == map[]
  {
    PendingRecord(reg.entity, reg.action, map[], map[])
  }

  /** Merging into a fresh seed stores the registration's own data. */
  lemma AbsorbIntoSeed(reg: Registration)
    ensures Absorb(Seed(reg), reg) == PendingRecord(reg.entity, reg.action, reg.attributes, reg.relations)
  {
    var r := Absorb(Seed(reg), reg);
    assert r.action == reg.action by {
      if reg.action == Created { assert reg.action != Deleted; }
    }
    forall n | n in reg.relations
      ensures r.relations[n] == reg.relations[n]
    {
      assert r.relations[n].added == r.relations[n].added[0..];
      assert r.relations[n].removed == r.relations[n].removed[0..];
    }
  }

  // ---------------------------------------------------------------------
  // flush and writeLogViaBuilder

  /** Records that `flush` drops: no attributes, no relations, and an
      action that is not CREATED, DELETED or RESTORED. */
  predicate Skipped(rec: PendingRecord) {
    |rec.attributes| == 0 && |rec.relations| == 0 && rec.action in {Updated, RelationsUpdated}
  }

  /** A created, deleted or restored model is always written, and so is any
      record that carries a change; only an empty update is dropped. */
  lemma OnlyEmptyUpdatesAreSkipped(rec: PendingRecord)
    ensures rec.action in {Created, Deleted, Restored} ==> !Skipped(rec)
    ensures |rec.attributes| > 0 || |rec.relations| > 0 ==> !Skipped(rec)
    ensures Skipped(rec) ==> EffectiveAction(rec) in {Updated, RelationsUpdated}
  {
  }

  /** The action written: RELATIONS_UPDATED with attribute changes is
      promoted to UPDATED. */
  function EffectiveAction(rec: PendingRecord): (a: AuditAction)
    ensures rec.action == RelationsUpdated && |rec.attributes| > 0 ==> a == Updated
    ensures !(rec.action == RelationsUpdated && |rec.attributes| > 0) ==> a == rec.action
  {
    if rec.action == RelationsUpdated && |rec.attributes| > 0 then Updated else rec.action
  }

  /** The builder `flush` starts from: the record's model, its effective
      action and the resolved actor. */
  function FlushBuilder(rec: PendingRecord, env: Env): (b: B.Builder)
    ensures b.entity == rec.entity && b.action == Some(B.EnumAction(EffectiveAction(rec)))
    ensures b.actorType == Some(AuditLogger.ResolveActor(env.rt).actorType)
    ensures b.actorId == AuditLogger.ResolveActor(env.rt).id
    ensures b.attributes.None? && b.relations.None? && b.metadata == map[]
  {
    B.By(B.SetAction(B.For(rec.entity), B.EnumAction(EffectiveAction(rec))),
         B.ActorArgOf(AuditLogger.ResolveActor(env.rt)))
  }

  /** The builder `writeLogViaBuilder` hands to `log()`: the raw attributes
      only when there are some, and each relation once with its lists. */
  function WrittenBuilder(b: B.Builder, attrs: AttributeDiff, rels: RelationDiff): (r: B.Builder)
    requires b.relations.None?
    ensures r.attributes == (if |attrs| > 0 then Some(attrs) else b.attributes)
    ensures r.relations == (if |rels| > 0 then Some(rels) else None)
    ensures r.(attributes := b.attributes, relations := b.relations) == b
  {
    var withAttrs := if |attrs| > 0 then B.WithRawAttributes(b, attrs) else b;
    if |rels| > 0 then withAttrs.(relations := Some(rels)) else withAttrs
  }

  /** A pending relation list, passed to `withRelations` as array members. */
  function AsItems(refs: seq<RelationRef>): (items: seq<B.RelationItem>)
    ensures |items| == |refs|
    ensures B.EnrichRelations(items) == refs
  {
    var items := seq(|refs|, i requires 0 <= i < |refs| => B.ArrayItem(refs[i]));
    B.EnrichArraysIsIdentity(refs);
    items
  }

  /** One `withRelations` call, for a name the builder does not have yet,
      with a pending entry's lists: it records the entry as it is. */
  function AddPendingRelation(b: B.Builder, name: string, entry: RelationChange): (r: B.Builder)
    requires b.relations.None? || name !in b.relations.value
    ensures r == b.(relations := Some((if b.relations.Some? then b.relations.value else map[])[name := entry]))
  {
    var r := B.WithRelations(b, name, AsItems(entry.added), AsItems(entry.removed));
    assert B.PriorRelation(b, name) == RelationChange([], []);
    var got := r.relations.value[name];
    assert got.added == got.added[0..];
    assert got.removed == got.removed[0..];
    r
  }

  /** The relations recorded once the names in `done` have been passed. */
  function RelationsSoFar(rels: RelationDiff, done: set<string>): Option<RelationDiff>
    requires done <= rels.Keys
  {
    if done == {} then None else Some(map n | n in done :: rels[n])
  }

  lemma RelationsSoFarStep(rels: RelationDiff, done: set<string>, name: string)
    requires done <= rels.Keys && name in rels && name !in done
    ensures RelationsSoFar(rels, done).None? || name !in RelationsSoFar(rels, done).value
    ensures RelationsSoFar(rels, done + {name}) ==
      Some((if done == {} then map[] else RelationsSoFar(rels, done).value)[name := rels[name]])
  {
    assert (if done == {} then map[] else (map n | n in done :: rels[n]))[name := rels[name]] == map n | n in done + {name} :: rels[n];
  }

  /** The builder's side of `writeLogViaBuilder`: the raw attributes when
      there are some, then a loop over the pending relations with one
      `withRelations` call per name. It ends with the builder
      `WrittenBuilder` describes, whatever order the names are visited in. */
  method BuildForLog(b: B.Builder, attrs: AttributeDiff, rels: RelationDiff)
    returns (cur: B.Builder)
    requires b.relations.None?
    ensures cur == WrittenBuilder(b, attrs, rels)
  {
    cur := b;
    if |attrs| > 0 {
      cur := B.WithRawAttributes(cur, attrs);
    }
    ghost var start := cur;
    ghost var done: set<string> := {};
    var todo := rels.Keys;
    while todo != {}
      invariant todo <= rels.Keys && done == rels.Keys - todo
      invariant cur == start.(relations := RelationsSoFar(rels, done))
      decreases todo
    {
      var name :| name in todo;
      MoveToDone(rels.Keys, todo, done, name);
      AddPendingRelationStep(start, rels, done, name);
      cur := AddPendingRelation(cur, name, rels[name]);
      todo := todo - {name};
      done := done + {name};
    }
    assert done == rels.Keys;
    WrittenBuilderOfLoop(b, attrs, rels, start);
  }

  lemma MoveToDone(all: set<string>, todo: set<string>, done: set<string>, name: string)
    requires todo <= all && done == all - todo && name in todo
    ensures todo - {name} <= all && done + {name} == all - (todo - {name}) && name !in done
  {
  }

  /** One turn of the loop in `BuildForLog` records one more name. */
  lemma AddPendingRelationStep(start: B.Builder, rels: RelationDiff, done: set<string>, name: string)
    requires done <= rels.Keys && name in rels && name !in done
    ensures var cur := start.(relations := RelationsSoFar(rels, done));
      (cur.relations.None? || name !in cur.relations.value) &&
      AddPendingRelation(cur, name, rels[name]) == start.(relations := RelationsSoFar(rels, done + {name}))
  {
    RelationsSoFarStep(rels, done, name);
  }

  /** Once every name has been passed, the builder holds the whole diff,
      or nothing when it was empty. */
  lemma WrittenBuilderOfLoop(b: B.Builder, attrs: AttributeDiff, rels: RelationDiff, start: B.Builder)
    requires b.relations.None?
    requires start == if |attrs| > 0 then B.WithRawAttributes(b, attrs) else b
    ensures WrittenBuilder(b, attrs, rels) == start.(relations := RelationsSoFar(rels, rels.Keys))
  {
    assert |rels| == |rels.Keys|;
    if rels.Keys != {} {
      assert (map n | n in rels.Keys :: rels[n]) == rels;
    }
  }

  /** `writeLogViaBuilder`: build as above, then `log()`. */
  method WriteLogViaBuilder(b: B.Builder, attrs: AttributeDiff, rels: RelationDiff, env: Env)
    returns (r: Result<B.Dispatch>)
    requires b.relations.None?
    ensures r == B.Log(WrittenBuilder(b, attrs, rels), env.rt, env.queueEnabled)
  {
    var cur := BuildForLog(b, attrs, rels);
    r := B.Log(cur, env.rt, env.queueEnabled);
  }

  /** The entry a flushed record becomes. */
  function Emit(rec: PendingRecord, env: Env): (d: B.Dispatch)
    ensures d.Queued? <==> env.queueEnabled
    ensures d.record.entityType == rec.entity.cls && d.record.entityId == Id(rec.entity)
    ensures d.record.action == ToInt(EffectiveAction(rec))
    ensures Actor(d.record.actorType, d.record.actorId) == AuditLogger.ResolveActor(env.rt)
    ensures d.record.attributes == (if |rec.attributes| > 0 then Some(rec.attributes) else None)
    ensures d.record.relations == (if |rec.relations| > 0 then Some(rec.relations) else None)
  {
    var b := WrittenBuilder(FlushBuilder(rec, env), rec.attributes, rec.relations);
    B.Log(b, env.rt, env.queueEnabled).value
  }

  /** `flush`: nothing for an absent key; otherwise the record is removed
      first, then dropped if empty (see `Skipped`) or written. */
  function Flush(s: Store, key: string, env: Env): (r: Step)
    ensures key !in s.pending ==> r == Step(s, [])
    ensures key in s.pending ==> r.store == s.(pending := s.pending - {key})
    ensures key in s.pending ==> (r.emitted == [] <==> Skipped(s.pending[key]))
    ensures |r.emitted| <= 1
    ensures |r.emitted| == 1 ==> key in s.pending && r.emitted[0] == Emit(s.pending[key], env)
  {
    if key !in s.pending then Step(s, [])
    else
      var rec := s.pending[key];
      var store := s.(pending := s.pending - {key});
      if Skipped(rec) then Step(store, [])
      else Step(store, [Emit(rec, env)])
  }

  /** A second flush of the same key emits nothing and changes nothing. */
  lemma FlushIdempotent(s: Store, key: string, env: Env)
    ensures var once := Flush(s, key, env);
      Flush(once.store, key, env) == Step(once.store, [])
  {
  }

  // ---------------------------------------------------------------------
  // registerChange

  /** Flushing a record just put under a new key writes it (unless it is
      skipped) and leaves the store as it was before. */
  lemma FlushFreshKey(s: Store, key: string, rec: PendingRecord, env: Env)
    requires key !in s.pending
    ensures Flush(s.(pending := s.pending[key := rec]), key, env) == Step(s, if Skipped(rec) then [] else [Emit(rec, env)])
  {
    assert s.(pending := s.pending[key := rec]).pending - {key} == s.pending;
  }

  /** `registerChange` as written. A first registration seeds a record; in
      a transaction it queues the flush and goes on to merge, but outside
      one it flushes the still empty seed and returns before merging. */
  function RegisterChange(s: Store, reg: Registration, env: Env): (r: Step)
    ensures var key := GetKey(reg.entity);
      key in s.pending ==> r == Step(s.(pending := s.pending[key := Absorb(s.pending[key], reg)]), [])
    ensures var key := GetKey(reg.entity);
      key !in s.pending && s.inTransaction ==>
        r == Step(Store(s.pending[key := Absorb(Seed(reg), reg)], true, s.deferred + [key]), [])
    ensures var key := GetKey(reg.entity);
      key !in s.pending && !s.inTransaction ==>
        r.store == s && r.emitted == (if Skipped(Seed(reg)) then [] else [Emit(Seed(reg), env)])
  {
    var key := GetKey(reg.entity);
    if key !in s.pending then
      var seeded := s.(pending := s.pending[key := Seed(reg)]);
      if s.inTransaction then
        var queued := seeded.(deferred := seeded.deferred + [key]);
        Step(queued.(pending := queued.pending[key := Absorb(queued.pending[key], reg)]), [])
      else
        FlushFreshKey(s, key, Seed(reg), env);
        Flush(seeded, key, env)
    else
      Step(s.(pending := s.pending[key := Absorb(s.pending[key], reg)]), [])
  }

  /** Outside a transaction, an UPDATED or RELATIONS_UPDATED change for a
      model with nothing pending is lost whatever it carries. */
  lemma RegisterChangeDropsUpdate(s: Store, reg: Registration, env: Env)
    requires !s.inTransaction && GetKey(reg.entity) !in s.pending
    requires reg.action == Updated || reg.action == RelationsUpdated
    ensures RegisterChange(s, reg, env) == Step(s, [])
  {
  }

  /** … and a CREATED, DELETED or RESTORED change is written without its
      attribute diff and without its relations. */
  lemma RegisterChangeWritesEmptyEntry(s: Store, reg: Registration, env: Env)
    requires !s.inTransaction && GetKey(reg.entity) !in s.pending
    requires reg.action in {Created, Deleted, Restored}
    ensures var r := RegisterChange(s, reg, env);
      |r.emitted| == 1 && r.emitted[0].record.attributes.None? && r.emitted[0].record.relations.None?
  {
  }

  /** A concrete instance: a model updated outside a transaction, with a
      real attribute change, produces no entry. */
  lemma RegisterChangeLosesAnUpdate(env: Env)
    ensures var e := Entity("App\\Models\\User", Int(7), map[], map[], map[], None, false, true, None, None, []);
      var reg := Registration(e, Updated, map["name" := Change(Str("Ann"), Str("Anna"))], map[]);
      RegisterChange(EmptyStore, reg, env).emitted == []
  {
  }

  /** `registerChange` with the merge done before the immediate flush, so
      that a change made outside a transaction is written with its data. */
  function RegisterChangeMergingFirst(s: Store, reg: Registration, env: Env): (r: Step)
    ensures var key := GetKey(reg.entity);
      key in s.pending ==> r == Step(s.(pending := s.pending[key := Absorb(s.pending[key], reg)]), [])
    ensures var key := GetKey(reg.entity);
      key !in s.pending && s.inTransaction ==>
        r == Step(Store(s.pending[key := Absorb(Seed(reg), reg)], true, s.deferred + [key]), [])
    ensures var key := GetKey(reg.entity);
      key !in s.pending && !s.inTransaction ==>
        r.store == s && r.emitted == (if Skipped(Absorb(Seed(reg), reg)) then [] else [Emit(Absorb(Seed(reg), reg), env)])
  {
    var key := GetKey(reg.entity);
    if key !in s.pending then
      var merged := s.(pending := s.pending[key := Absorb(Seed(reg), reg)]);
      if s.inTransaction then
        Step(merged.(deferred := merged.deferred + [key]), [])
      else
        FlushFreshKey(s, key, Absorb(Seed(reg), reg), env);
        Flush(merged, key, env)
    else
      Step(s.(pending := s.pending[key := Absorb(s.pending[key], reg)]), [])
  }

  /** Outside a transaction the corrected registration writes the change
      it was given: its action (promoted as `flush` does), its attribute
      diff when non-empty, its relations when there are any — and drops
      only a change that carries nothing. */
  lemma MergingFirstWritesTheChange(s: Store, reg: Registration, env: Env)
    requires !s.inTransaction && GetKey(reg.entity) !in s.pending
    ensures var r := RegisterChangeMergingFirst(s, reg, env);
      var rec := PendingRecord(reg.entity, reg.action, reg.attributes, reg.relations);
      && r.store == s
      && (r.emitted == [] <==> Skipped(rec))
      && (r.emitted != [] ==> r.emitted == [Emit(rec, env)])
  {
    AbsorbIntoSeed(reg);
  }

  // ---------------------------------------------------------------------
  // The transaction

  /** Opening a (top-level) transaction. */
  function Begin(s: Store): (r: Store)
    ensures r.inTransaction && r.pending == s.pending && r.deferred == s.deferred
  {
    s.(inTransaction := true)
  }

  predicate NoDuplicates(keys: seq<string>) {
    forall i, j :: 0 <= i < j < |keys| ==> keys[i] != keys[j]
  }

  /** The entries the records under `keys` become, in the order of the
      keys: one per key that has a record that is not skipped. */
  function EmitAll(pending: map<string, PendingRecord>, keys: seq<string>, env: Env): (r: seq<B.Dispatch>)
    ensures |r| <= |keys|
    decreases |keys|
  {
    if keys == [] then []
    else
      var k := keys[0];
      (if k in pending && !Skipped(pending[k]) then [Emit(pending[k], env)] else []) + EmitAll(pending, keys[1..], env)
  }

  /** The records under other keys do not matter. */
  lemma {:induction false} EmitAllIgnoresOthers(pending: map<string, PendingRecord>, k: string, keys: seq<string>, env: Env)
    ensures k !in keys ==> EmitAll(pending - {k}, keys, env) == EmitAll(pending, keys, env)
    decreases |keys|
  {
    if keys != [] && k !in keys {
      EmitAllIgnoresOthers(pending, k, keys[1..], env);
    }
  }

  /** Running the after-commit callbacks: one `flush` per key, in order.
      For distinct keys this writes the record of each key, unless it is
      skipped, in the order of the keys. */
  function RunDeferred(s: Store, keys: seq<string>, env: Env): (r: Step)
    ensures r.store.pending.Keys == s.pending.Keys - set k | k in keys
    ensures r.store.inTransaction == s.inTransaction && r.store.deferred == s.deferred
    ensures |r.emitted| <= |keys|
    ensures NoDuplicates(keys) ==> r.emitted == EmitAll(s.pending, keys, env)
    decreases |keys|
  {
    if |keys| == 0 then Step(s, [])
    else
      var first := Flush(s, keys[0], env);
      var rest := RunDeferred(first.store, keys[1..], env);
      assert (set k | k in keys) == {keys[0]} + set k | k in keys[1..];
      EmitAllIgnoresOthers(s.pending, keys[0], keys[1..], env);
      assert NoDuplicates(keys) ==> keys[0] !in keys[1..] && NoDuplicates(keys[1..]);
      Step(rest.store, first.emitted + rest.emitted)
  }

  /** Commit: the transaction ends and the deferred flushes run, writing
      each deferred record once, in the order the models were first
      registered. */
  function Commit(s: Store, env: Env): (r: Step)
    ensures !r.store.inTransaction && r.store.deferred == []
    ensures r.store.pending.Keys == s.pending.Keys - set k | k in s.deferred
    ensures |r.emitted| <= |s.deferred|
    ensures NoDuplicates(s.deferred) ==> r.emitted == EmitAll(s.pending, s.deferred, env)
  {
    RunDeferred(s.(inTransaction := false, deferred := []), s.deferred, env)
  }

  /** Rollback as the framework does it: the after-commit callbacks are
      discarded, and nothing touches the pending records. */
  function Rollback(s: Store): (r: Store)
    ensures !r.inTransaction && r.deferred == [] && r.pending == s.pending
  {
    s.(inTransaction := false, deferred := [])
  }

  /** Rollback that also forgets the records whose flushes were discarded. */
  function RollbackForgetting(s: Store): (r: Store)
    ensures !r.inTransaction && r.deferred == []
    ensures r.pending.Keys == s.pending.Keys - set k | k in s.deferred
    ensures forall k :: k in r.pending ==> r.pending[k] == s.pending[k]
  {
    Store(map k | k in s.pending && k !in s.deferred :: s.pending[k], false, [])
  }

  /** The store's invariant: outside a transaction nothing is pending and
      no callback waits; inside one every pending record has exactly one
      callback that will flush it, and every callback has its record. */
  predicate Valid(s: Store) {
    && (!s.inTransaction ==> s.pending == map[] && s.deferred == [])
    && (forall k :: k in s.pending ==> k in s.deferred)
    && (forall k :: k in s.deferred ==> k in s.pending)
    && NoDuplicates(s.deferred)
  }

  /** Outside a transaction a valid store is empty; inside one the pending
      keys are exactly the keys waiting for a flush. */
  lemma ValidShape(s: Store)
    requires Valid(s)
    ensures !s.inTransaction ==> s == EmptyStore
    ensures s.pending.Keys == set k | k in s.deferred
  {
  }

  lemma BeginPreservesValid(s: Store)
    requires Valid(s)
    ensures Valid(Begin(s))
  {
  }

  /** The corrected registration keeps the invariant; within a transaction a
      second registration for a key merges into its record and adds no key. */
  lemma MergingFirstPreservesValid(s: Store, reg: Registration, env: Env)
    requires Valid(s)
    ensures Valid(RegisterChangeMergingFirst(s, reg, env).store)
    ensures s.inTransaction ==>
      RegisterChangeMergingFirst(s, reg, env).store.pending.Keys == s.pending.Keys + {GetKey(reg.entity)}
  {
  }

  /** Committing a valid store flushes every pending record. */
  lemma CommitFlushesEverything(s: Store, env: Env)
    requires Valid(s)
    ensures Commit(s, env).store == EmptyStore
  {
    var r := Commit(s, env).store;
    assert r.pending.Keys == {};
  }

  /** Committing a valid store writes every pending record that is not
      skipped, once, in the order the models were first registered. */
  lemma CommitWritesEachRecordOnce(s: Store, env: Env)
    requires Valid(s)
    ensures Commit(s, env).emitted == EmitAll(s.pending, s.deferred, env)
  {
  }

  /** Registering a sequence of changes, one after another. */
  function RegisterAll(s: Store, regs: seq<Registration>, env: Env): Step
    decreases |regs|
  {
    if regs == [] then Step(s, [])
    else
      var first := RegisterChange(s, regs[0], env);
      var rest := RegisterAll(first.store, regs[1..], env);
      Step(rest.store, first.emitted + rest.emitted)
  }

  /** A record after absorbing the registrations in order. */
  function AbsorbAll(rec: PendingRecord, regs: seq<Registration>): PendingRecord
    decreases |regs|
  {
    if regs == [] then rec else AbsorbAll(Absorb(rec, regs[0]), regs[1..])
  }

  /** Within a transaction, further changes to a model that already has a
      record merge into it, in order, and write nothing. */
  lemma {:induction false} RegisterAllMerges(pending: map<string, PendingRecord>, deferred: seq<string>, key: string,
                                             regs: seq<Registration>, env: Env)
    requires key in pending
    requires forall i :: 0 <= i < |regs| ==> GetKey(regs[i].entity) == key
    ensures RegisterAll(Store(pending, true, deferred), regs, env) ==
      Step(Store(pending[key := AbsorbAll(pending[key], regs)], true, deferred), [])
    decreases |regs|
  {
    if regs != [] {
      var s := Store(pending, true, deferred);
      var once := pending[key := Absorb(pending[key], regs[0])];
      MergeIntoRecord(s, key, regs[0], env);
      var tail := regs[1..];
      assert forall i :: 0 <= i < |tail| ==> tail[i] == regs[i + 1];
      RegisterAllMerges(once, deferred, key, tail, env);
      UpdateTwice(pending, key, Absorb(pending[key], regs[0]), AbsorbAll(pending[key], regs));
      RegisterAllStep(s, regs, env, Step(Store(once, true, deferred), []));
    }
  }

  lemma UpdateTwice(m: map<string, PendingRecord>, k: string, x: PendingRecord, y: PendingRecord)
    ensures m[k := x][k := y] == m[k := y]
  {
  }

  /** The first step of `RegisterAll`. */
  lemma RegisterAllStep(s: Store, regs: seq<Registration>, env: Env, first: Step)
    requires regs != [] && first == RegisterChange(s, regs[0], env)
    ensures RegisterAll(s, regs, env) ==
      Step(RegisterAll(first.store, regs[1..], env).store, first.emitted + RegisterAll(first.store, regs[1..], env).emitted)
  {
  }

  /** One registration for a model that has a record merges into it. */
  lemma MergeIntoRecord(s: Store, key: string, reg: Registration, env: Env)
    requires key in s.pending && GetKey(reg.entity) == key
    ensures RegisterChange(s, reg, env) == Step(s.(pending := s.pending[key := Absorb(s.pending[key], reg)]), [])
  {
  }

  /** The first registration in a fresh transaction seeds the record and
      queues its flush. */
  lemma FirstInTransaction(reg: Registration, env: Env)
    ensures RegisterChange(Begin(EmptyStore), reg, env) ==
      Step(Store(map[GetKey(reg.entity) := Absorb(Seed(reg), reg)], true, [GetKey(reg.entity)]), [])
  {
    var key := GetKey(reg.entity);
    assert Begin(EmptyStore).deferred + [key] == [key];
  }

  /** Committing a single deferred record writes it unless it is skipped. */
  lemma CommitOneRecord(key: string, rec: PendingRecord, env: Env)
    ensures Commit(Store(map[key := rec], true, [key]), env) == Step(EmptyStore, if Skipped(rec) then [] else [Emit(rec, env)])
  {
    var s := Store(map[key := rec], true, [key]);
    assert Valid(s);
    CommitFlushesEverything(s, env);
    assert EmitAll(s.pending, [key], env) == (if Skipped(rec) then [] else [Emit(rec, env)]) + EmitAll(s.pending, [], env);
  }

  /** In a fresh transaction, the changes to one model leave one record
      holding all of them, in order, and write nothing. */
  lemma TransactionCollects(regs: seq<Registration>, env: Env)
    requires |regs| > 0
    requires forall i :: 0 <= i < |regs| ==> GetKey(regs[i].entity) == GetKey(regs[0].entity)
    ensures var key := GetKey(regs[0].entity);
      RegisterAll(Begin(EmptyStore), regs, env) == Step(Store(map[key := AbsorbAll(Seed(regs[0]), regs)], true, [key]), [])
  {
    var key := GetKey(regs[0].entity);
    var seeded := map[key := Absorb(Seed(regs[0]), regs[0])];
    FirstInTransaction(regs[0], env);
    var tail := regs[1..];
    assert forall i :: 0 <= i < |tail| ==> tail[i] == regs[i + 1];
    RegisterAllMerges(seeded, [key], key, tail, env);
    UpdateTwice(map[], key, Absorb(Seed(regs[0]), regs[0]), AbsorbAll(Seed(regs[0]), regs));
    RegisterAllStep(Begin(EmptyStore), regs, env, Step(Store(seeded, true, [key]), []));
  }

  /** The aggregator's promise: however many changes one model receives in
      a transaction, committing writes one entry, holding all of them
      merged in order, unless that record is skipped. */
  lemma OneEntryPerTransaction(regs: seq<Registration>, env: Env)
    requires |regs| > 0
    requires forall i :: 0 <= i < |regs| ==> GetKey(regs[i].entity) == GetKey(regs[0].entity)
    ensures var inTx := RegisterAll(Begin(EmptyStore), regs, env);
      var rec := AbsorbAll(Seed(regs[0]), regs);
      && inTx.emitted == []
      && Commit(inTx.store, env) == Step(EmptyStore, if Skipped(rec) then [] else [Emit(rec, env)])
  {
    TransactionCollects(regs, env);
    CommitOneRecord(GetKey(regs[0].entity), AbsorbAll(Seed(regs[0]), regs), env);
  }

  lemma RollbackForgettingPreservesValid(s: Store)
    requires Valid(s)
    ensures RollbackForgetting(s) == EmptyStore
  {
    var r := RollbackForgetting(s);
    assert r.pending.Keys == {};
  }

  /** The framework's rollback breaks the invariant: an update registered in
      a transaction that rolls back stays pending with nobody to flush it,
      and a later change to the same model outside any transaction is
      merged into that record and written nowhere. */
  lemma RollbackLeavesStaleRecord(env: Env)
    ensures var e := Entity("App\\Models\\User", Int(7), map[], map[], map[], None, false, true, None, None, []);
      var first := Registration(e, Updated, map["name" := Change(Str("Ann"), Str("Anna"))], map[]);
      var second := Registration(e, Updated, map["email" := Change(Str("a@x"), Str("b@x"))], map[]);
      var inTx := RegisterChange(Begin(EmptyStore), first, env).store;
      var afterRollback := Rollback(inTx);
      var later := RegisterChange(afterRollback, second, env);
      && !Valid(afterRollback)
      && later.emitted == []
      && GetKey(e) in later.store.pending && !later.store.inTransaction && later.store.deferred == []
  {
  }
}

=== FILE: php.dfy ===
/** The slice of PHP 8 runtime semantics the audit core depends on: the value
    model of attribute bags and decoded JSON, `empty()`, the `(bool)` and
    `(string)` casts, `trim`, `strtolower`, integer-form numeric strings and
    loose `==` on scalars. */
module Php {

  datatype Option<+T> = None | Some(value: T)

  /** The outcome of a PHP call that either returns a value or throws. */
  datatype Result<+T> = Ok(value: T) | Err(message: string)

  /** A PHP value as it occurs in an attribute bag or a decoded JSON tree.
      Arrays are string-keyed maps (a list's integer keys are their decimal
      strings). Floating-point numbers are not part of the model. */
  datatype Value =
    | Null
    | Bool(b: bool)
    | Int(i: int)
    | Str(s: string)
    | Arr(entries: map<string, Value>)

  /** `empty($v)` for a variable that is set. */
  predicate Empty(v: Value) {
    match v
    case Null => true
    case Bool(b) => !b
    case Int(i) => i == 0
    case Str(s) => s == "" || s == "0"
    case Arr(m) => |m| == 0
  }

  /** `(bool) $v`: false exactly on the values `empty()` accepts. */
  predicate Truthy(v: Value) {
    !Empty(v)
  }

  /** `$a ?? $b` when `$a` is an array element that may be missing. */
  function Lookup(m: map<string, Value>, k: string): (r: Value)
    ensures k !in m ==> r == Null
    ensures k in m ==> r == m[k]
  {
    if k in m then m[k] else Null
  }

  /** `$v ?? $default`: null counts as missing. */
  function Coalesce(v: Value, default: Value): (r: Value)
    ensures v != Null ==> r == v
    ensures v == Null ==> r == default
  {
    if v.Null? then default else v
  }

  // ---------------------------------------------------------------------
  // Characters and strings

  predicate IsDigit(c: char) {
    '0' <= c <= '9'
  }

  predicate AllDigits(s: string) {
    forall i :: 0 <= i < |s| ==> IsDigit(s[i])
  }

  /** The characters `trim()` strips by default: space, tab, LF, CR, NUL and VT. */
  predicate IsTrimChar(c: char) {
    c == ' ' || c == '\t' || c == '\n' || c == '\r' || c == '\0' || c as int == 11
  }

  /** The white space PHP 8 allows around a numeric string: space, tab, LF, CR, VT and FF. */
  predicate IsNumericSpace(c: char) {
    c == ' ' || c == '\t' || c == '\n' || c == '\r' || c as int == 11 || c as int == 12
  }

  /** Drops the leading characters satisfying `strip`. */
  function TrimStart(s: string, strip: char -> bool): (r: string)
    ensures |r| <= |s| && r == s[|s| - |r|..]
    ensures forall i :: 0 <= i < |s| - |r| ==> strip(s[i])
    ensures |r| > 0 ==> !strip(r[0])
  {
    if |s| > 0 && strip(s[0]) then TrimStart(s[1..], strip) else s
  }

  /** Drops the trailing characters satisfying `strip`. */
  function TrimEnd(s: string, strip: char -> bool): (r: string)
    ensures |r| <= |s| && r == s[..|r|]
    ensures forall i :: |r| <= i < |s| ==> strip(s[i])
    ensures |r| > 0 ==> !strip(r[|r| - 1])
  {
    if |s| > 0 && strip(s[|s| - 1]) then TrimEnd(s[..|s| - 1], strip) else s
  }

  /** `trim($s)` with the default character list. */
  function Trim(s: string): (r: string)
    ensures |r| <= |s|
    ensures |r| > 0 ==> !IsTrimChar(r[0]) && !IsTrimChar(r[|r| - 1])
    ensures (|s| > 0 ==> !IsTrimChar(s[0]) && !IsTrimChar(s[|s| - 1])) ==> r == s
  {
    assert (|s| > 0 ==> !IsTrimChar(s[0]) && !IsTrimChar(s[|s| - 1])) ==>
      TrimEnd(TrimStart(s, IsTrimChar), IsTrimChar) == s by {
      if |s| > 0 ==> !IsTrimChar(s[0]) && !IsTrimChar(s[|s| - 1]) {
        TrimIdentity(s, IsTrimChar);
      }
    }
    TrimEnd(TrimStart(s, IsTrimChar), IsTrimChar)
  }

  /** A string whose two ends are not stripped is its own trim. */
  lemma TrimIdentity(s: string, strip: char -> bool)
    requires |s| > 0 ==> !strip(s[0]) && !strip(s[|s| - 1])
    ensures TrimEnd(TrimStart(s, strip), strip) == s
  {
    assert TrimStart(s, strip) == s;
  }

  /** `strtolower` on one character (ASCII letters only, as in PHP 8.2). */
  function LowerChar(c: char): (r: char)
    ensures 'A' <= c <= 'Z' ==> 'a' <= r <= 'z'
    ensures !('A' <= c <= 'Z') ==> r == c
  {
    if 'A' <= c <= 'Z' then (c as int - 'A' as int + 'a' as int) as char else c
  }

  /** `strtolower($s)`. */
  function Lower(s: string): (r: string)
    ensures |r| == |s|
    ensures forall i :: 0 <= i < |s| ==> r[i] == LowerChar(s[i])
  {
    if |s| == 0 then [] else [LowerChar(s[0])] + Lower(s[1..])
  }

  /** `strtoupper` on one character, used to state case-insensitivity. */
  function UpperChar(c: char): (r: char)
    ensures 'a' <= c <= 'z' ==> 'A' <= r <= 'Z' && LowerChar(r) == c
    ensures !('a' <= c <= 'z') ==> r == c
  {
    if 'a' <= c <= 'z' then (c as int - 'a' as int + 'A' as int) as char else c
  }

  /** `strtoupper($s)`. */
  function Upper(s: string): (r: string)
    ensures |r| == |s|
    ensures forall i :: 0 <= i < |s| ==> r[i] == UpperChar(s[i])
  {
    if |s| == 0 then [] else [UpperChar(s[0])] + Upper(s[1..])
  }

  /** Lower-casing ignores a prior upper-casing. */
  lemma LowerOfUpper(s: string)
    ensures Lower(Upper(s)) == Lower(s)
  {
    assert forall i :: 0 <= i < |s| ==> LowerChar(UpperChar(s[i])) == LowerChar(s[i]);
  }

  /** A string without upper-case letters is its own lower-case form. */
  lemma LowerOfLowerCase(s: string)
    requires forall i :: 0 <= i < |s| ==> !('A' <= s[i] <= 'Z')
    ensures Lower(s) == s
  {
  }

  /** `str_starts_with($s, $prefix)`. */
  predicate StartsWith(s: string, prefix: string) {
    prefix <= s
  }

  /** `str_repeat('*', n)`. */
  function Stars(n: nat): (r: string)
    ensures |r| == n
    ensures forall i :: 0 <= i < n ==> r[i] == '*'
  {
    if n == 0 then [] else ['*'] + Stars(n - 1)
  }

  // ---------------------------------------------------------------------
  // Integers as decimal text

  function DigitChar(d: nat): (c: char)
    requires d < 10
    ensures IsDigit(c) && c as int - '0' as int == d
  {
    ('0' as int + d) as char
  }

  /** The decimal digits of `n`, most significant first, no leading zero. */
  function NatToString(n: nat): (s: string)
    ensures |s| > 0 && AllDigits(s)
    decreases n
  {
    if n < 10 then [DigitChar(n)] else NatToString(n / 10) + [DigitChar(n % 10)]
  }

  /** `(string) $i` for an integer. */
  function IntToString(i: int): (s: string)
    ensures |s| > 0
  {
    if i < 0 then "-" + NatToString(-i) else NatToString(i)
  }

  /** The value of a string of decimal digits. */
  function DigitsValue(s: string): nat
    requires AllDigits(s)
  {
    if |s| == 0 then 0 else DigitsValue(s[..|s| - 1]) * 10 + (s[|s| - 1] as int - '0' as int)
  }

  lemma {:induction false} DigitsValueOfNatToString(n: nat)
    ensures DigitsValue(NatToString(n)) == n
    decreases n
  {
    if n >= 10 {
      DigitsValueOfNatToString(n / 10);
      var s := NatToString(n);
      assert s[..|s| - 1] == NatToString(n / 10);
    }
  }

  /** The value of an integer-form numeric string in the sense of PHP 8's
      `is_numeric`: optional surrounding white space, an optional sign, and
      at least one decimal digit. Strings with a fraction or an exponent are
      outside the model and read as non-numeric. */
  function NumericInt(s: string): Option<int> {
    SignedDigits(TrimEnd(TrimStart(s, IsNumericSpace), IsNumericSpace))
  }

  /** The value of an already trimmed numeric string: a sign followed by
      digits, or digits alone. */
  function SignedDigits(t: string): Option<int> {
    if |t| > 1 && (t[0] == '+' || t[0] == '-') && AllDigits(t[1..]) then
      var magnitude: int := DigitsValue(t[1..]);
      Some(if t[0] == '-' then -magnitude else magnitude)
    else if |t| > 0 && AllDigits(t) then
      Some(DigitsValue(t))
    else
      None
  }

  /** Printing an integer and reading it back as a numeric string is the identity. */
  lemma NumericIntOfIntToString(i: int)
    ensures NumericInt(IntToString(i)) == Some(i)
  {
    var s := IntToString(i);
    assert !IsNumericSpace(s[0]) && !IsNumericSpace(s[|s| - 1]);
    NumericIntOfUnpadded(s);
    if i < 0 {
      SignedDigitsOfNegative(-i);
    } else {
      SignedDigitsOfNatural(i);
    }
  }

  /** Without white space at either end, nothing is trimmed. */
  lemma NumericIntOfUnpadded(s: string)
    requires |s| > 0 ==> !IsNumericSpace(s[0]) && !IsNumericSpace(s[|s| - 1])
    ensures NumericInt(s) == SignedDigits(s)
  {
    TrimIdentity(s, IsNumericSpace);
  }

  lemma SignedDigitsOfNatural(n: nat)
    ensures SignedDigits(NatToString(n)) == Some(n)
  {
    var s := NatToString(n);
    assert IsDigit(s[0]);
    DigitsValueOfNatToString(n);
  }

  lemma SignedDigitsOfNegative(n: int)
    requires n > 0
    ensures SignedDigits("-" + NatToString(n)) == Some(-n)
  {
    var s := "-" + NatToString(n);
    assert s[1..] == NatToString(n);
    DigitsValueOfNatToString(n);
  }

  // ---------------------------------------------------------------------
  // Integers as doubles

  /** 2^53: every integer of smaller magnitude is exactly a double. */
  const TwoTo53: int := 9007199254740992

  function Pow2(e: nat): (r: nat)
    ensures r >= 1
  {
    if e == 0 then 1 else 2 * Pow2(e - 1)
  }

  /** How many low bits of `m` do not fit a 53-bit significand. */
  function DroppedBits(m: nat): nat
    decreases m
  {
    if m < TwoTo53 then 0 else DroppedBits(m / 2) + 1
  }

  /** `m` rounded to 53 significant bits: to nearest, ties to even. */
  function RoundMagnitude(m: nat): int {
    var e := DroppedBits(m);
    if e == 0 then m
    else
      var unit := Pow2(e);
      var q := m / unit;
      var rest := m % unit;
      var half := unit / 2;
      (if rest > half || (rest == half && q % 2 == 1) then q + 1 else q) * unit
  }

  /** `(float) $n` for an integer or an integer-form numeric string, given
      as the integer the double stands for. It is exact up to 2^53 in
      magnitude and rounds beyond. */
  function ToDouble(n: int): (d: int)
    ensures -TwoTo53 <= n <= TwoTo53 ==> d == n
  {
    assert DroppedBits(TwoTo53) == 1;
    var magnitude := RoundMagnitude(if n < 0 then -n else n);
    if n < 0 then -magnitude else magnitude
  }

  /** The first integer that is not a double rounds down to 2^53, so
      `(float)` cannot tell it from its predecessor. */
  lemma AboveTwoTo53Collides()
    ensures ToDouble(TwoTo53 + 1) == ToDouble(TwoTo53) == TwoTo53
  {
    assert DroppedBits(TwoTo53 + 1) == 1;
  }

  /** `(string) $v`. An array converts to "Array" (with a PHP warning). */
  function ToStringCast(v: Value): (r: string)
    ensures v.Str? ==> r == v.s
    ensures v.Int? ==> NumericInt(r) == Some(v.i)
    ensures r == "" <==> v == Null || v == Bool(false) || v == Str("")
  {
    match v
    case Null => ""
    case Bool(b) => if b then "1" else ""
    case Int(i) => NumericIntOfIntToString(i); IntToString(i)
    case Str(s) => s
    case Arr(_) => "Array"
  }

  // ---------------------------------------------------------------------
  // Comparison

  /** Only the integer zero prints as "0". */
  lemma IntToStringZero(i: int)
    ensures IntToString(i) == "0" <==> i == 0
  {
    if i >= 10 {
      assert |NatToString(i)| >= 2;
    } else if 0 < i {
      assert NatToString(i) == [DigitChar(i)];
    } else if i < 0 {
      assert IntToString(i)[0] == '-';
    }
  }

  /** Outside arrays, `empty()` holds exactly when the string form is ""
      or "0": null, false, 0, "" and "0". */
  lemma EmptyIsStringFormEmpty(v: Value)
    requires !v.Arr?
    ensures Empty(v) <==> ToStringCast(v) == "" || ToStringCast(v) == "0"
  {
    if v.Int? {
      IntToStringZero(v.i);
    }
  }

  /** `is_numeric($v)` within the model. */
  function IsNumeric(v: Value): (b: bool)
    ensures v.Int? ==> b
    ensures b ==> v.Int? || (v.Str? && |v.s| > 0)
  {
    v.Int? || (v.Str? && NumericInt(v.s).Some?)
  }

  function NumericValue(v: Value): int
    requires IsNumeric(v)
  {
    if v.Int? then v.i else NumericInt(v.s).value
  }

  /** PHP 8 loose `==` between two non-array values: a bool or a null
      against a non-string compares truthiness, null against a string
      compares with "", an integer against a non-numeric string compares
      the integer's decimal text, two numeric operands compare as numbers. */
  function LooseEqual(a: Value, b: Value): (r: bool)
    requires !a.Arr? && !b.Arr?
    ensures a == b ==> r
    ensures a.Int? && b.Int? ==> (r <==> a.i == b.i)
    ensures a.Str? && b.Str? && !IsNumeric(a) ==> (r <==> a.s == b.s)
  {
    if a.Bool? || b.Bool? then Truthy(a) == Truthy(b)
    else if a.Null? && b.Null? then true
    else if a.Null? then (if b.Str? then b.s == "" else Empty(b))
    else if b.Null? then (if a.Str? then a.s == "" else Empty(a))
    else if IsNumeric(a) && IsNumeric(b) then NumericValue(a) == NumericValue(b)
    else if a.Int? then IntToString(a.i) == b.s
    else if b.Int? then a.s == IntToString(b.i)
    else a.s == b.s
  }
}
